=== FILE: README.md ===
# fmsnowcover: a Dafny model of the snow-cover classifier and compositor

fmsnowcover classifies AVHRR satellite passes pixel by pixel into ice
(snow), clear and cloud probabilities, and then composites many passes
of a period into one product per area tile. This project models the
decision and aggregation logic of that system as pure Dafny functions and
methods over unbounded integers and reals, and proves what the code
promises about it:

- **Compositor** (`average_merge_files`, both copies): the per-pixel
  fold over the passes of a tile, with its range gate, sum gate, cloud
  limit, missing-value sentinels and the abort for a pass without ice or
  clear mass; the counters' invariant (every counted pass lands in
  exactly one counter, the ice and clear shares of the cloud-free passes
  sum to their count); the reduction to a category and a 21-level
  probability class (`Quantize`, `Reduction`, `MergeFiles`).
- **Classifier** (`process_pixels4ice`, `probest`, `findprob`,
  `gammapdf`): the gate order night / no coverage / channel 3A
  saturation, the feature ratios, the land-or-water choice of the
  ice-free class, Bayes normalisation with equal priors, the posterior
  acceptance test, class and arg-max category (`Pixel`, `Probest`,
  `Density`). IEEE infinities and NaN are modelled where the classifier
  divides by zero (`Ieee`).
- **Inputs of the classifier** (`fmsnowcover.c`): the coefficient table
  reader with its per-entry read counter, the configuration file keys,
  the area code of a scene, the satellite refusal and the land-mask grid
  check (`Coeffs`, `Config`).
- **Drivers** (`fmaccusnow.c`, `accusnow.c`): date completion, the
  inclusive accumulation window, the pass-file, satellite and tile
  filters, the counting sort of the selected files into per-tile slices,
  the product-time check, the tile loop and the per-tile grid check
  (`Selection`, `TileSort`, `Headers`).
- **File name helpers**: `check_headers`, `check_sat_area`,
  `find_sat_area_index` (`Headers`) and `cmaskname` (`CloudMaskName`).

Every `exit` of the source is a `Fail` of a `Result` (`Wrappers`); the
C library calls (`strstr`, `strncmp`, `strtok`, `%s`/`%c`/`%lf`/`%d`
conversions) are modelled in `Strings`, `Coeffs` and `CloudMaskName`.
Library numerics that are not visible (normal and gamma densities,
`cos`, calibration, the channel 3B reflectance, the time conversions,
`strtod`) are function-typed parameters.

Where a header and a `.c` file disagree, the model follows the `.c`
definitions. The `surfstr` record in `src/fmsnowcover.h` has no `d34`
field, yet `src/fmsnowcover.c` and `src/probest.c` store and read it, so
`Coeffs.SurfCoeffs` carries `d34`. The `average_merge_files` prototype in
`src/fmaccusnow.h` lacks the `numCloudfree` out-parameter of the
definition in `src/fmaccusnowfuncs.c`, so `MergeFiles.AverageMergeFiles`
returns the cloud-free counts.

## Model

| member | source | states |
|---|---|---|
| Compositor.JudgeFacts | src/fmaccusnowfuncs.c:104-160 | A triple is undefined exactly when all three layers carry the same sentinel (-991, -990 or -993); it is cloudy exactly when in range, summing to 0.95..1.05 and at or above the cloud limit; cloud-free exactly when in addition below the limit with positive ice+clear; aborting exactly when that sum is not positive. |
| Compositor.AddValid | src/fmaccusnowfuncs.c:79-171 | Merging two sets of accumulators keeps the counter invariant and the conservation law. |
| Compositor.SharesSumToOne | src/fmaccusnowfuncs.c:132-133 | The renormalised ice and clear shares of a cloud-free pass are non-negative and add to exactly one. |
| Compositor.ContributionFacts | src/fmaccusnowfuncs.c:104-160 | A pass contributes at most one count, to the counter of its outcome, and adds shares only when cloud-free; the contribution satisfies the invariant. |
| Compositor.Step | src/fmaccusnowfuncs.c:104-160 | One pass aborts the merge (return 8) exactly when it is cloud-free without ice or clear mass; otherwise the step preserves the invariant. |
| Compositor.StepBranches | src/fmaccusnowfuncs.c:83-160 | An unread file, a triple failing the sum gate, and an out-of-range non-sentinel triple change nothing; a cloudy pass bumps numCloud and numPix only; a full sentinel bumps numUndef and numPix; a cloud-free pass bumps numCloudfree and numPix and adds two non-negative shares summing to one. |
| Compositor.FoldUpTo | src/fmaccusnowfuncs.c:79-171 | After any number of passes the accumulators satisfy numCloudfree+numCloud+numUndef == numPix, are non-negative and conserve the shares; the only failure is the abort. |
| Compositor.Fold | src/fmaccusnowfuncs.c:79-171 | The same for the whole pass sequence. |
| Compositor.TallyPrefix | src/fmaccusnowfuncs.c:79-171 | The accumulators after n passes depend only on those n passes. |
| Compositor.TallyAppend | src/fmaccusnowfuncs.c:79-171 | Folding two blocks of passes is the sum of folding each. |
| Compositor.FoldFails | src/fmaccusnowfuncs.c:126-131 | The merge aborts exactly when some pass aborts it. |
| Compositor.FoldIsTally | src/fmaccusnowfuncs.c:79-171 | A fold that does not abort is the sum of the per-pass contributions. |
| Compositor.Count | src/fmaccusnowfuncs.c:118-152 | The number of passes of an outcome is between 0 and the number of passes. |
| Compositor.TallyCounts | src/fmaccusnowfuncs.c:118-152 | Each counter equals the number of passes of its outcome. |
| Compositor.FoldCounts | src/fmaccusnowfuncs.c:118-183 | After a completed fold numCloud, numCloudfree and numUndef count the passes of their outcome and numPix is their sum, so the count check never fires. |
| Compositor.AnyAbortsConcat | src/fmaccusnowfuncs.c:126-131 | Two blocks of passes abort exactly when one of them does. |
| Compositor.TallySwap | src/fmaccusnowfuncs.c:79-171 | The sum of contributions does not depend on the order of two blocks. |
| Compositor.FoldOrderFree | src/fmaccusnowfuncs.c:79-171 | The composite does not depend on the order in which the pass files are listed. |
| Quantize.ScanLevel | src/fmaccusnowfuncs.c:212-256 | The comparison chain resumed at a level whose lower edge the value reaches returns the level whose interval holds it. |
| Quantize.BucketIsLevel | src/fmaccusnowfuncs.c:212-256 | The class is 0 below 0, k for [0.05(k-1), 0.05k) with k = 1..19, 20 for [0.95, 1.0], 0 above 1, and no other class fits. |
| Quantize.LevelUnique | src/fmaccusnowfuncs.c:212-256 | The level intervals do not overlap. |
| Quantize.BucketRange | src/func_accusnow.c:234-278 | The class is in 0..20 and is 0 exactly for values below 0 or above 1. |
| Quantize.BucketMonotone | src/func_accusnow.c:234-278 | The class is non-decreasing on [0, 1]. |
| Quantize.BucketAtNinety | src/fmaccusnowfuncs.c:248-253 | 0.90 is class 19, 0.95 and 1.0 are class 20, 0.0 is class 1. |
| Reduction.MeansSumToOne | src/fmaccusnowfuncs.c:186-190 | With a cloud-free pass the mean ice and mean clear probabilities add to one and lie in [0, 1]. |
| Reduction.MeansKeepOrder | src/fmaccusnowfuncs.c:186-197 | Comparing the means is comparing the sums. |
| Reduction.CloudFreePixelFacts | src/fmaccusnowfuncs.c:186-256 | A pixel with cloud-free passes is ICE exactly when mean ice exceeds mean clear, CLEAR when it is lower, UNCLASS when equal; its probabilities add to one and its class is the level of the ice probability. |
| Reduction.CloudFreeMeans | src/fmaccusnowfuncs.c:186-190 | Its probabilities are the means of the shares over the cloud-free passes. |
| Reduction.Finalize | src/fmaccusnowfuncs.c:175-258 | The count check fails exactly when the counters are unbalanced; otherwise the pixel is CLOUDED exactly when there is no cloud-free but some cloudy pass, UNCLASS when there is neither, never undefined, keeps the caller's probabilities without cloud-free passes, and its class is the level of its ice probability. |
| Reduction.CompositePixel | src/fmaccusnowfuncs.c:79-258 | Compositing one pixel fails exactly when one of its passes aborts. |
| Reduction.NeverCountedPixel | src/func_accusnow.c:224-230 | A pixel no pass counted is UNCLASS and keeps the caller's probabilities; with PROB_MISVAL its class is 0. |
| Reduction.AllMissingCounts | src/fmaccusnowfuncs.c:140-152 | Passes that are all full sentinels are all counted as undefined. |
| Reduction.AllUndefinedPixel | src/fmaccusnowfuncs.c:140-209 | A pixel undefined in every pass is UNCLASS with the caller's probabilities. |
| Reduction.SinglePassFold | src/fmaccusnowfuncs.c:126-135 | One clean cloud-free pass gives one cloud-free count and its own shares. |
| Reduction.SinglePassReproduced | src/fmaccusnowfuncs.c:126-190 | A single cloud-free pass whose ice and clear already add to one comes out unchanged. |
| MergeFiles.FoldPass | src/fmaccusnowfuncs.c:83-160 | Folding one more pass file into the grid keeps every element equal to the fold of its column, or aborts because some column aborts. |
| MergeFiles.AllPassesFolded | src/fmaccusnowfuncs.c:79-171 | After the last pass every element holds the fold of all its passes and no column aborted. |
| MergeFiles.AccumulatePasses | src/fmaccusnowfuncs.c:67-171 | The pass loop fails (return 8) exactly when some element has an aborting pass; otherwise every element holds the fold of its column. |
| MergeFiles.ReduceGrid | src/fmaccusnowfuncs.c:175-258 | The reduction loop gives every element its reduced pixel and its number of cloud-free passes. |
| MergeFiles.AverageMergeFiles | src/fmaccusnowfuncs.c:35-269 | The merge fails exactly when some element has an aborting pass; otherwise each element is the composite of its own passes and numCloudfree counts its cloud-free passes. |
| MergeFiles.AverageMergeFilesLegacy | src/func_accusnow.c:55-292 | The older copy gives the same composite, without the cloud-free counts. |
| Headers.CheckHeaders | src/func_accusnow.c:302-321 | Returns 10 exactly when some header differs from the first in time, source or product, else 0 (also for zero or one header). |
| Headers.CheckSatArea | src/func_accusnow.c:387-405 | Returns 1 exactly when some element occurs as "_e_" or "_e." or as "e_" with the file name starting like e; else 0. |
| Headers.FindSatAreaIndex | src/func_accusnow.c:408-426 | Returns the smallest index of a recognised element, or -1 exactly when no element is recognised. |
| Headers.FirstMatch | src/func_accusnow.c:408-426 | The same search as a function, used by the drivers. |
| Ieee.Add | src/pix_proc.c:268-270 | On finite values addition is real addition; the result is NaN exactly for a NaN operand or opposite infinities. |
| Ieee.Mul | src/probest.c:163-175 | On finite values multiplication is real multiplication; NaN propagates. |
| Ieee.Div | src/probest.c:166-175 | Finite over non-zero finite is real division; over zero it is an infinity of the numerator's sign, or NaN for 0/0. |
| Ieee.CompareFacts | src/pix_proc.c:268-370 | Comparisons with NaN are false, and on finite values they are the real order. |
| Density.GammaPdf | src/gammapdf.c:41-57 | x <= 0 gives -1; otherwise a shape above 170 gives -2; otherwise the closed form. |
| Density.GammaDomain | src/gammapdf.c:41-50 | The x guard takes precedence over the shape guard; a shape of exactly 170 is accepted; NaN is not caught by the x guard. |
| Density.FindProb | src/probest.c:235-259 | An entry read zero times, more than once, or with a key other than 'n' or 'g' (also 't') stops the program; otherwise the normal or gamma density of the entry's parameters. |
| Density.FindProbOutcomeIgnoresValue | src/probest.c:235-259 | Whether the lookup stops the program depends only on the entry, never on the observed value. |
| Probest.FeaturesOf | src/probest.c:71-77 | r21 = A2/A1; the channel 3 ratio is A3b/A1 on a daytime-3B pixel and A3/A1 otherwise. |
| Probest.Likelihood | src/probest.c:79-137 | The lookups of one surface succeed exactly when every entry it consults (a1, r21, d34 and r3b1 or r3a1, dt) is usable. |
| Probest.NormaliseShares | src/probest.c:162-176 | With a non-zero denominator the three posteriors are finite and sum to one; with a zero denominator none is finite. |
| Probest.FinitePosteriorSumsToOne | src/probest.c:162-176 | Three finite posteriors always sum to exactly one. |
| Probest.NormaliseBounds | src/probest.c:162-176 | With non-negative products and a positive sum every posterior lies in [0, 1]. |
| Probest.NormaliseKeepsOrder | src/probest.c:162-176 | With a positive sum the posteriors are ordered as the unnormalised products. |
| Probest.Estimate | src/probest.c:55-207 | The estimate stops the program exactly when some consulted entry is unusable; otherwise it reports success. |
| Probest.EstimateFiniteSumsToOne | src/probest.c:162-176 | Finite posteriors of the estimate sum to one. |
| Probest.EstimateReadsConsultedOnly | src/probest.c:107-137 | Only the consulted entries matter: the ice-free class reads land entries when lmask > 1 and water entries otherwise, never both. |
| Probest.SurfaceLocal | src/probest.c:79-137 | A surface's likelihood depends only on that surface's consulted entries. |
| Probest.EstimateIgnoresT3 | src/probest.c:73-160 | The channel 3/4 temperature difference never influences the estimate (its density is forced to 1). |
| Probest.LikelihoodIgnoresD34 | src/probest.c:83-160 | The d34 value never influences a likelihood. |
| Probest.EstimateIgnoresTdiffWithoutNwp | src/probest.c:149-151 | Without weather prediction support the temperature difference does not influence the estimate. |
| Probest.TermIgnoresDt | src/probest.c:91-151 | Without weather prediction support the dt density is looked up but replaced by 1. |
| Pixel.Params | src/pix_proc.c:193-252 | daytime3b is set exactly when channel 3B has a signal and 3A none; reflectances are calibrated only with more than three channels (else -999); tdiff uses the 2 m temperature only with weather prediction; a missing land mask reads as 0. |
| Pixel.AcceptAsWrittenLetsInfinityThrough | src/pix_proc.c:268-278 | As written, products (1, -0.5, -0.5) normalise to (+inf, -inf, -inf), which pass both the sum test and the NaN test and are categorised ICE. |
| Pixel.AcceptMeansFiniteNearOne | src/pix_proc.c:268-278 | The corrected test accepts exactly three finite posteriors whose sum lies in [0.95, 1.05]. |
| Pixel.ClassOf | src/pix_proc.c:316-360 | The class of a finite ice probability is its level; a non-finite one gets class 0. |
| Pixel.CatOfIsStrictMax | src/pix_proc.c:362-370 | ICE, CLEAR or CLOUD when that posterior is strictly greatest; UNCL exactly when there is no strict maximum. |
| Pixel.ProcessPixel | src/pix_proc.c:140-370 | Night (zenith >= 85) writes -990 first; then raw channels 3 and 4 both 0 write -991; the program stops exactly when an estimated pixel's lookup fails; a categorised pixel was estimated and passed the sum and NaN tests as written, and carries the level of a finite ice posterior or class 0 for an infinite one. |
| Pixel.ClassifiedPixel | src/pix_proc.c:258-370 | A categorised pixel carries the estimate's posteriors unchanged, including infinite ones; finite ones sum to one; it is ICE, CLEAR or CLOUD exactly when that posterior is the strict maximum under IEEE comparison. |
| Pixel.UnclassifiedPixel | src/pix_proc.c:140-278 | A pixel ends with category 5 exactly when it is not estimated or its posteriors fail the sum test or the NaN test as written, and then it has class 0; a rejected estimate leaves -991 in all three probability layers. |
| Pixel.InfiniteEstimateIsIce | src/pix_proc.c:268-370 | An estimate of (+inf, -inf, -inf) is written to the layers unchanged with class 0 and category ICE, where the corrected operation writes -991 and category 5. |
| Pixel.ProcessPixelCorrected | src/pix_proc.c:258-370 | With the intended acceptance, a categorised pixel has three finite posteriors summing to one and the level of its ice posterior; failure is as in the source. |
| Pixel.CorrectedDiffersOnlyOnInfinity | src/pix_proc.c:268-278 | The corrected and the as-written pixel operations differ exactly when the posteriors pass the tests as written but one is infinite, and then the corrected one writes -991. |
| Pixel.GateOrder | src/pix_proc.c:168-222 | The gates apply in order night, no coverage, channel 3A saturation, each writing its own sentinel to all three layers. |
| Pixel.ProcessImage | src/pix_proc.c:133-370 | Every pixel is processed independently by the as-written pixel operation; the image fails exactly when some pixel's lookup fails. |
| Coeffs.Set | src/fmsnowcover.c:652-660 | Storing an entry changes that entry and no other. |
| Coeffs.SurfaceNames | src/fmsnowcover.c:602-638 | A surface name is accepted exactly when it is "ice", "cloud", "water" or "land"; "snow" never is. |
| Coeffs.FeatureNames | src/fmsnowcover.c:603-608 | A feature name is accepted exactly when it is one of a1, r21, d34, r3a1, r3b1, dt. |
| Coeffs.LocStatCoeffs | src/fmsnowcover.c:595-660 | An unknown surface or feature stops the program; otherwise the named entry takes the line's key and three parameters and its read count grows by exactly one, and every other entry is unchanged. |
| Coeffs.Classify | src/fmsnowcover.c:563-577 | A data line is the six scanned fields; a bad line with few leading blanks failed the scan. |
| Coeffs.ReadLine | src/fmsnowcover.c:563-584 | One line fails exactly as its classification does; otherwise a skipped line leaves the table and a data line updates it. |
| Coeffs.LoadedStep | src/fmsnowcover.c:562-585 | Storing one more line keeps every entry's count and parameters in agreement with the lines read so far. |
| Coeffs.ReadNext | src/fmsnowcover.c:562-585 | One turn of the reading loop fails on the current line or keeps the table loaded. |
| Coeffs.ReadLines | src/fmsnowcover.c:562-585 | The loop fails exactly when some line fails, with the first failing line's error; otherwise the table reflects every line. |
| Coeffs.RdStatCoeffs | src/fmsnowcover.c:545-591 | Reading fails exactly when some line is malformed, has too many leading blanks or names an unknown entry, reporting the first such line; otherwise each entry's count grows by the number of lines naming it and holds the parameters of the last such line. |
| Coeffs.KindOfLine | src/fmsnowcover.c:563-577 | A line fails exactly as its classification does. |
| Coeffs.NamingFacts | src/fmsnowcover.c:657-658 | The number of lines stored in an entry is never negative, and it is positive exactly when some line was the last stored there. |
| Density.LoadedEntryUsable | src/probest.c:235-259 | For a table read from the cleared start, the lookup of an entry succeeds exactly when exactly one line of the file named it and that line's key is 'n' or 'g'; a missing, repeated or unknown-key entry stops the program. |
| Coeffs.LineNotSnow | src/fmsnowcover.c:602-638 | No line is ever stored under the snow surface. |
| Coeffs.SnowNeverNamed | src/fmsnowcover.c:562-638 | No line of a file ever fills a snow entry. |
| Config.WithField | src/fmsnowcover.c:479-524 | Assigning a key changes that setting and no other. |
| Config.KeyOfIsPrefixMatch | src/fmsnowcover.c:479-515 | A token selects a key exactly when it starts with that key's name. |
| Config.NamesDiffer | src/fmsnowcover.c:479-515 | The key names differ within their first six characters, so at most one key matches. |
| Config.LineLength | src/fmsnowcover.c:486 | The value up to the first newline. |
| Config.ChunkLength | src/fmsnowcover.c:463 | One fgets read takes at least one and at most FILELEN-1 characters. |
| Config.Chunks | src/fmsnowcover.c:463 | Every piece read is non-empty and shorter than the buffer. |
| Config.ChunksRoundTrip | src/fmsnowcover.c:463 | The pieces read put back together are the file. |
| Config.Effects | src/fmsnowcover.c:463-525 | Each piece has the effect its content determines. |
| Config.DecodeCfg | src/fmsnowcover.c:463-525 | Decoding fails with an I/O error exactly when some non-comment piece is longer than FILELEN-50, holds only blanks, or names a key without a value; otherwise each setting holds the value of the last piece naming its key, or its initial value; comments and unknown keys are ignored. |
| Config.ApplyEffects | src/fmsnowcover.c:463-525 | The same for the effects of the pieces, applied in file order. |
| Config.LastValueStep | src/fmsnowcover.c:479-524 | One more piece changes a setting only when it assigns it. |
| Config.DecodeStep | src/fmsnowcover.c:479-524 | One more piece keeps every setting equal to its last assigned value. |
| Config.FirstArea | src/fmsnowcover.c:163-175 | The first area code of "ns", "at", "nr", "gr" contained in the name, or none. |
| Config.SelectArea | src/fmsnowcover.c:163-180 | The area is the first code the name contains, with its land mask name; no match stops the program. |
| Config.CheckSatellite | src/fmsnowcover.c:203-208 | A scene is refused exactly when its satellite contains "NOAA-15" or "NOAA-16". |
| Config.SameCellClose | src/fmsnowcover.c:265-268 | Corners in the same tenth cell differ by less than a tenth. |
| Config.MaskFitsMeaning | src/fmsnowcover.c:265-269 | An accepted land mask has the image's size and corners within a tenth; an image always fits itself. |
| Strings.IndexOfFrom | src/fmaccusnow.c:370-371 | The first occurrence of a pattern, as `strstr` scans. |
| Strings.StrStrAgrees | src/fmaccusnow.c:445 | The scan finds a pattern exactly when it occurs. |
| Strings.LeadingSeps | src/fmsnowcover.c:564 | The number of leading separators. |
| Strings.TokenLength | src/fmsnowcover.c:472 | The length of the first token. |
| Strings.Tokens | src/fmsnowcover.c:472 | Every token is a non-empty run of non-separators. |
| Strings.Decimal | src/cmaskname.c:47-49 | `%d` of a natural number is a non-empty digit string. |
| Strings.PadLeft | src/cmaskname.c:47-49 | Padding to a field width puts fill characters before the value. |
| Strings.DecimalRoundTrip | src/cmaskname.c:47-49 | The printed digits read back as the number. |
| Strings.ZeroPaddedRoundTrip | src/cmaskname.c:47-49 | `%0<w>d` of a natural number reads back as that number. |
| CloudMaskName.LookUpFinds | src/cmaskname.c:35-45 | The chain finds a short name exactly when the satellite starts with a listed name, and gives that name's short name. |
| CloudMaskName.ShortNameKnown | src/cmaskname.c:35-45 | NOAA-14, -12, -15, -16 (first seven characters) map to noaa14, noaa12, noaa15, noaa16; nothing else maps. |
| CloudMaskName.ShortNameIsLowered | src/cmaskname.c:35-42 | The short name is "noaa" followed by the satellite's two digits. |
| CloudMaskName.FormatInt | src/cmaskname.c:47 | A printed field is at least its width. |
| CloudMaskName.CMaskName | src/cmaskname.c:31-52 | A name is produced exactly for a known satellite. |
| CloudMaskName.ReturnCode | src/cmaskname.c:44-51 | The result is 0 exactly for a known satellite and 1 otherwise. |
| CloudMaskName.DecimalLength | src/cmaskname.c:47 | A number below 10^k prints in at most k digits, one at least 10^(k-1) in at least k. |
| CloudMaskName.FormatNonNegative | src/cmaskname.c:47 | A non-negative field prints as its digits padded to the width. |
| CloudMaskName.TwoDigits | src/cmaskname.c:47 | `%02d` of 0..99 is two digits reading back as the value. |
| CloudMaskName.FourDigits | src/cmaskname.c:47 | `%4d` of 1000..9999 is four digits reading back as the year. |
| CloudMaskName.FieldsReadBack | src/cmaskname.c:47 | Five digit fields of widths 4, 2, 2, 2, 2 side by side read back as their values. |
| CloudMaskName.TimeStampLength | src/cmaskname.c:47-48 | The time stamp is twelve characters. |
| CloudMaskName.TimeStampRoundTrip | src/cmaskname.c:47-48 | The time stamp reads back as the scene time. |
| CloudMaskName.PartsSideBySide | src/cmaskname.c:47-49 | The parts of a name after the stamp sit at fixed positions. |
| CloudMaskName.NameJoin | src/cmaskname.c:47-49 | A known satellite's name is stamp, ".dn", rname[20..22], ".", short name, ".acmg.mitiff". |
| CloudMaskName.CMaskNameParts | src/cmaskname.c:47-49 | The name is 36 characters with each part at its fixed position. |
| CloudMaskName.CMaskNameTime | src/cmaskname.c:47-49 | The first twelve characters of the name read back as the scene time. |
| CloudMaskName.UnknownSatelliteNoName | src/cmaskname.c:35-45 | METOP-A and a six-character "NOAA-1" give no name; a longer name that starts with NOAA-16 gives one. |
| Selection.NormaliseDate | src/fmaccusnow.c:202-206 | An 8-character date gets "00"; anything not then 10 characters long is refused. |
| Selection.NormaliseDateIdempotent | src/fmaccusnow.c:202-206 | A completed date stays as it is. |
| Selection.WindowsAgree | src/fmaccusnow.c:208-209 | The window ending at etime is the one starting period*3600 earlier, and a time is in it exactly when within period*3600 of the start, both ends inclusive. |
| Selection.MidTimeIsMiddle | src/accusnow.c:219-223 | The product time is half the period after the start (truncating division) and lies inside the window. |
| Selection.ChooseFilter | src/fmaccusnow.c:196-303 | -l and -t together stop the program; -t keeps one satellite; a list file that is missing or has no line (a negative return of read_sat_area_list) keeps all satellites; a list file with lines keeps the entries among them, possibly none. |
| Selection.EmptySatListKeepsNothing | src/fmaccusnow.c:269-460 | A satellite list file whose lines are all comments or too short (return 0, not the -2 of a file without lines) says "exiting" but continues, and then keeps no pass. |
| Selection.ChooseTiles | src/fmaccusnow.c:306-334 | A tile list file whose lines hold no entry (return 0) stops the program; no -m, or a list file that is missing or has no line (a negative return), gives the eight default tiles; otherwise the entries themselves. |
| Selection.SetupEnding | src/fmaccusnow.c:196-251 | The window ends at the completed date and starts period*3600 earlier; the product time is its end; the cloud limit defaults to 0.2. |
| Selection.SetupStarting | src/accusnow.c:204-303 | The window starts at the completed date; the product time is its middle; the cloud limit defaults to 0.2; every refusal is a clean exit. |
| Selection.SetupsAgree | src/accusnow.c:212-253 | Both drivers choose the same window, filter, tiles and cloud limit for the same period. |
| Selection.PassNameRoundTrip | src/fmaccusnow.c:370-374 | A pass name of a two-letter tile is a candidate and its time stamp (characters 10..21 + "00") is the time it was named with. |
| Selection.KeptIsFilter | src/fmaccusnow.c:398-488 | The selection keeps exactly the accepted entries. |
| Selection.KeptFitsCount | src/fmaccusnow.c:368-392 | The files selected never outnumber the list size counted by the first scan. |
| Selection.MatchesPositive | src/fmaccusnow.c:450-454 | The list count is positive exactly when the source contains some list entry. |
| Selection.SatFound | src/fmaccusnow.c:442-460 | With -t a pass is kept exactly when its source contains the satellite; with -l exactly when it contains some list entry. |
| Selection.KeptRecords | src/fmaccusnow.c:485-487 | Each recorded path is the directory joined with the accepted name, recorded under the first tile its name carries. |
| Selection.KeptStep | src/fmaccusnow.c:398-488 | One more entry adds its path and tile exactly when accepted. |
| Selection.IndexedAppend | src/fmaccusnow.c:465-487 | A recorded tile index lies in the tile list. |
| Selection.CountsOfAppend | src/fmaccusnow.c:487 | Incrementing the tile's count keeps the counts equal to the files per tile. |
| Selection.CountTileExtends | src/fmaccusnow.c:487 | A later file does not change the count of earlier ones. |
| Selection.Examine | src/fmaccusnow.c:403-470 | An entry is recorded, under its first matching tile, exactly when it is a candidate of the period, its header can be read, its satellite is kept and a tile matches. |
| Selection.SelectFiles | src/fmaccusnow.c:398-491 | The scan records the accepted paths and tiles, counts files per tile, and every recorded tile lies in the list. |
| Selection.SortSelected | src/fmaccusnow.c:493-523 | No selected file stops the program cleanly; otherwise the files are placed as written, and the only other failure is a placement past the end of the list; when every path holds the pattern of exactly its own tile, the sorted list is the files of tile 0, then tile 1, and so on, each in directory order. |
| Selection.ArchivedSelectionOverflows | src/fmaccusnow.c:493-523 | One ns file kept in a directory named fmsnow_at, with tiles ns, at, makes the driver's sort overflow. |
| Selection.CheckProdTime | src/fmaccusnow.c:529-534 | The product time is accepted exactly when hour <= 23, min <= 59, mday <= 31, mon <= 12 and 1978 <= year <= 3000. |
| Selection.ProdTimeBoundsOnlyAbove | src/fmaccusnow.c:529-534 | Only upper bounds are checked: month and day zero pass. |
| Selection.JobsStep | src/fmaccusnow.c:541-569 | A tile without files adds no job; a tile with files adds one job holding its slice of the sorted list. |
| Selection.JobsAscend | src/fmaccusnow.c:541-547 | The tile loop visits tiles with files in list order. |
| Selection.JobsCoverTiles | src/fmaccusnow.c:541-547 | The tile loop visits exactly the tiles that have files. |
| Selection.VisitsAfterStep | src/fmaccusnow.c:541-547 | One more tile keeps the visited tiles exactly those with files. |
| Selection.JobsAreTiles | src/fmaccusnow.c:549-569 | Each visited tile receives its own files in directory order. |
| Selection.CheckTileGrid | src/fmaccusnow.c:583-597 | A tile is refused exactly when some file's grid differs from the first file's. |
| Selection.TileProduct | src/fmaccusnow.c:651-668 | Starting from C_UNDEF and PROB_MISVAL, the tile product fails exactly when a pixel aborts; no pixel stays undefined, and one without cloud-free passes keeps PROB_MISVAL and class 0. |
| Selection.UncountedPixel | src/fmaccusnow.c:651-656 | A composite pixel is never undefined; without cloud-free passes it keeps PROB_MISVAL and class 0. |
| TileSort.CountTile | src/fmaccusnow.c:487 | A tile's count never exceeds the number of files. |
| TileSort.ByTile | src/fmaccusnow.c:510-523 | A tile's files are as many as its count. |
| TileSort.PrefixIsTally | src/fmaccusnow.c:515-517 | The start of a tile's slice is the number of files of the tiles before it. |
| TileSort.TallyStep | src/fmaccusnow.c:515-517 | One more file adds one to the tally exactly when its tile is below the bound. |
| TileSort.TallyNone | src/fmaccusnow.c:515-517 | No files give a zero tally. |
| TileSort.TallyAll | src/fmaccusnow.c:465-487 | When every tile is counted the tally is the number of files. |
| TileSort.CountsCoverAll | src/fmaccusnow.c:487-523 | The per-tile counts add up to the number of files. |
| TileSort.PrefixMonotone | src/fmaccusnow.c:515-517 | Slice starts do not decrease along the tile list. |
| TileSort.SliceBounds | src/fmaccusnow.c:549-568 | Each tile's slice lies inside the sorted list. |
| TileSort.SlicesDisjoint | src/fmaccusnow.c:549-568 | Slices of different tiles do not overlap. |
| TileSort.ArrangeLength | src/fmaccusnow.c:510-523 | The arrangement of the first tiles is as long as their slices. |
| TileSort.ArrangeSlice | src/fmaccusnow.c:549-568 | The files of tile t sit at the positions of its slice, in directory order. |
| TileSort.BelowSplit | src/fmaccusnow.c:510-523 | The files below tile t+1 are those below t plus those of t, counted by occurrence. |
| TileSort.BelowAll | src/fmaccusnow.c:510-523 | With every file counted, the files below the last tile are all the files. |
| TileSort.BelowNone | src/fmaccusnow.c:510-523 | No file is below tile 0. |
| TileSort.ArrangeIsBelow | src/fmaccusnow.c:510-523 | The arrangement holds each file as often as the files below the bound. |
| TileSort.ArrangeIsPermutation | src/fmaccusnow.c:510-523 | The sorted list is a permutation of the selected files. |
| TileSort.Put | src/fmaccusnow.c:518-520 | A file is copied to its tile's next free slot, which must lie in the list; that slot and counter change, nothing else. |
| TileSort.CountTileMonotone | src/fmaccusnow.c:487 | A tile's count does not decrease with more files. |
| TileSort.SlotInSlice | src/fmaccusnow.c:514-518 | The next file's slot lies inside its tile's slice. |
| TileSort.PlaceKeepsTile | src/fmaccusnow.c:510-523 | One placement keeps every tile's slots described by the files seen so far. |
| TileSort.PlaceStep | src/fmaccusnow.c:510-523 | One placement succeeds and keeps the slice description. |
| TileSort.PlaceFills | src/fmaccusnow.c:510-523 | The corrected sort never overflows and fills each slice's head with that tile's files. |
| TileSort.InSomeSlice | src/fmaccusnow.c:549-568 | Each position of the sorted list lies in some tile's slice. |
| TileSort.FullCounters | src/fmaccusnow.c:518-520 | After the sort each counter equals its tile's count. |
| TileSort.FullSlot | src/fmaccusnow.c:510-523 | After the sort every position holds the arrangement's file. |
| TileSort.SortArranges | src/fmaccusnow.c:510-523 | The corrected sort places every file, and the sorted list is the arrangement tile by tile in directory order. |
| TileSort.PlaceInTiles | src/fmaccusnow.c:511-522 | The inner loop over tiles keeps the list and counter sizes. |
| TileSort.PlaceAsWritten | src/fmaccusnow.c:510-523 | The sort as written keeps the list and counter sizes. |
| TileSort.PlaceInTilesMiss | src/fmaccusnow.c:512-513 | A tile whose pattern the path lacks places nothing. |
| TileSort.PlaceInTilesHit | src/fmaccusnow.c:512-521 | A tile whose pattern the path holds places the file in that tile. |
| TileSort.PlaceInTilesOnce | src/fmaccusnow.c:511-522 | A path holding the pattern of exactly one tile is placed once, in that tile. |
| TileSort.PlaceAsWrittenStep | src/fmaccusnow.c:510-523 | Each file goes through the inner loop over the tiles. |
| TileSort.AsWrittenStepAgrees | src/fmaccusnow.c:510-523 | One more file keeps the as-written and corrected sorts equal when paths are unambiguous. |
| TileSort.AsWrittenAgreesWhenUnambiguous | src/fmaccusnow.c:487-523 | When every path holds the pattern of exactly the tile it was counted for, the sort as written is the corrected sort. |
| TileSort.ContainsInJoin | src/fmaccusnow.c:485-513 | A pattern in the directory or the name is in the joined path. |
| TileSort.ArchivedPathMatchesBoth | src/fmaccusnow.c:512-513 | The path fmsnow_at/fmsnow_ns_200901011200.hdf5 holds the patterns of both "ns" and "at". |
| TileSort.AsWrittenOverflows | src/fmaccusnow.c:510-523 | With tiles ns, at and counts 1, 0, that file is placed twice and the second slot lies past the list, where the corrected sort places it once. |

## Left out

- Reading and writing HDF5 and TIFF files, directory scanning, `getopt`,
  `read_sat_area_list`, memory allocation and logging: the model takes
  their results as inputs (a pass file is `Unread` or its triples; a
  directory entry is a name with an optional header source; a list file
  is `Unreadable` for any negative return, that is missing or without
  lines, or `Listed` with the entries of a file that has lines, possibly
  none).
- The exit codes themselves: every exit is a `Fail` with a reason; a
  clean `exit(0)` or `exit(FM_OK)` is `Stopped`.
- Floating-point rounding and `float` precision: values are reals, so
  bucket edges are exact; only the division by zero of the classifier
  is modelled with IEEE infinities and NaN.
- The normal and gamma closed forms, `cos`, solar zenith and
  geolocation, byte-to-physical calibration, the channel 3B reflectance,
  `strtod` and the calendar conversions: function-typed parameters.
- Weather prediction retrieval (getnwp.c): only whether support is
  compiled in is a parameter.
- gammapdf3par.c: its dispatch is commented out, so key 't' is an
  unknown key.
- The storing of products (store_snow.c, store_mitiff_product.c),
  including its class legend and its call signature.
- C buffer limits and overflows (`checkstr[7]` holding "fmsnow_xx", the
  `%s` conversions into fixed buffers), and C `int` overflow of
  `period*3600`.
- Selection.SetupStarting: accusnow.c ignores the result of
  `tofmtime`; the model takes the calendar's answer as it is and leaves
  the product-time check to CheckProdTime.
- Selection.CheckTileGrid: a header that cannot be read is reported and
  still compared; the model compares the grids it is given.
- Selection.TileProduct: tiles already written before a later tile's
  grid check fails are not modelled.
- CloudMaskName.CMaskName: requires a reference name of at least 22
  characters, as the source reads `rname[20]` and `rname[21]`
  unchecked; the round-trip lemmas cover years 1000..9999 and two-digit
  fields only.
- Density.FindProb: requires a non-negative read count; the source
  handles no negative count (it returns an uninitialised value), and
  counts only grow from zero.
- Probest.Estimate: requires non-negative read counts, for the same
  reason.
- Coeffs.RdStatCoeffs: lines are given as a list; `getline` and the
  file opening are not modelled.
- Config.DecodeCfg: the file content is given as a string; opening the
  file is not modelled.
- Selection.SortSelected: a write past the end of `infile_sorted` is
  undefined behaviour in C; the model stops there with SortOverflow. A
  slot nothing was written to holds uninitialised memory in C and is
  `None` in the model.
- The land-mask file's presence and reading: only the grid comparison
  is modelled.

## Findings

The driver's sort (`Selection.SortSelected`) and the pixel operation
(`Pixel.ProcessPixel`, and so `Pixel.ProcessImage`) model the code as
written; the corrected definitions stand beside them.

| source | as written | input that shows it | evidently intended | confidence | as-written member | corrected member |
|---|---|---|---|---|---|---|
| src/fmaccusnow.c:510-523 (also src/accusnow.c:469-482) | Files are placed by searching "fmsnow_<tile>" in the full path, for every tile whose pattern occurs, while the counts come from the tile recorded for the file name | directory "fmsnow_at", file "fmsnow_ns_200901011200.hdf5", tiles ns, at: counts 1, 0, and the file is written to slot 0 and then to slot 1 of a one-element list (Selection.ArchivedSelectionOverflows shows the driver's sort overflowing) | each file placed once, in the slice of the tile it was counted for | not executed | TileSort.AsWrittenOverflows | TileSort.SortArranges |
| src/pix_proc.c:268-278 | Posteriors are rejected when their sum is below 0.95 or above 1.05, or when one is NaN; comparisons with infinities are not caught | class products (1, -0.5, -0.5), possible because a gamma density reports its errors as -1 and -2, give posteriors (+inf, -inf, -inf), whose sum is NaN, so both range tests are false; the pixel gets class 0 and category ICE (Pixel.InfiniteEstimateIsIce) | only three finite posteriors with a sum in [0.95, 1.05] are accepted (Pixel.AcceptMeansFiniteNearOne) | not executed | Pixel.AcceptAsWrittenLetsInfinityThrough | Pixel.ProcessPixelCorrected |

=== FILE: cmaskname.dfy ===
/** `cmaskname`: the file name of the cloud mask belonging to a satellite
    scene, built from the scene's time, two characters of the scene's
    file name and a short satellite name. Only four NOAA satellites are
    known. */
module CloudMaskName {
  import opened Wrappers
  import opened Strings

  /** The part of the scene header the name is built from (`mihead`). */
  datatype SceneInfo = SceneInfo(satellite: string, year: int, month: int, day: int, hour: int, minute: int)

  /** The known satellites, compared on their first seven characters, and
      the short names they get. */
  const Satellites: seq<string> := ["NOAA-14", "NOAA-12", "NOAA-15", "NOAA-16"]
  const ShortNames: seq<string> := ["noaa14", "noaa12", "noaa15", "noaa16"]

  /** The short name of the first of the known satellites from the
      `j`-th on that the satellite name starts with, in the order of the
      comparisons. */
  function LookUp(satellite: string, j: nat): Option<string>
    requires j <= |Satellites|
    decreases |Satellites| - j
  {
    if j == |Satellites| then None
    else if StartsWith(satellite, Satellites[j]) then Some(ShortNames[j])
    else LookUp(satellite, j + 1)
  }

  /** The short satellite name, or `None` for an unknown satellite. */
  function ShortName(satellite: string): Option<string>
  {
    LookUp(satellite, 0)
  }

  /** The scan from the `j`-th satellite on finds a short name exactly when
      one of those satellites is a prefix of the name, and then it is the
      short name of such a satellite. */
  lemma {:induction false} LookUpFinds(satellite: string, j: nat)
    requires j <= |Satellites|
    ensures LookUp(satellite, j).Some? <==> exists i | j <= i < |Satellites| :: StartsWith(satellite, Satellites[i])
    ensures LookUp(satellite, j).Some? ==>
              exists i | j <= i < |Satellites| :: StartsWith(satellite, Satellites[i]) &&
                                                  LookUp(satellite, j).value == ShortNames[i]
    decreases |Satellites| - j
  {
    if j < |Satellites| {
      LookUpFinds(satellite, j + 1);
    }
  }

  /** A satellite has a short name exactly when it starts with one of the
      known satellite names, and the short name is the one listed with it. */
  lemma ShortNameKnown(satellite: string)
    ensures ShortName(satellite).Some? <==> exists i | 0 <= i < |Satellites| :: StartsWith(satellite, Satellites[i])
    ensures ShortName(satellite).Some? ==>
              exists i | 0 <= i < |Satellites| :: StartsWith(satellite, Satellites[i]) &&
                                                  ShortName(satellite).value == ShortNames[i]
  {
    LookUpFinds(satellite, 0);
  }

  /** The short name is the satellite name in lower case without its dash:
      "noaa" followed by the two digits of the satellite. */
  lemma ShortNameIsLowered(satellite: string)
    requires ShortName(satellite).Some?
    ensures |satellite| >= 7 && ShortName(satellite).value == "noaa" + satellite[5..7]
  {
    var p := satellite[..7];
    assert satellite[5..7] == p[5..7];
  }

  /** `printf("%<width>d", n)` (`zero` false) or `printf("%0<width>d", n)`
      (`zero` true): the sign, then the digits, padded on the left to the
      width with blanks, or with zeros placed after the sign. */
  function FormatInt(n: int, width: nat, zero: bool): (r: string)
    ensures |r| >= width
  {
    var digits := Decimal(if n < 0 then -n else n);
    if n < 0 && zero then "-" + PadLeft(digits, if width > 0 then width - 1 else 0, '0')
    else PadLeft((if n < 0 then "-" else "") + digits, width, if zero then '0' else ' ')
  }

  /** The scene time as the name prints it: `%4d%02d%02d%02d%02d`. */
  function TimeStamp(info: SceneInfo): string
  {
    FormatInt(info.year, 4, false) + FormatInt(info.month, 2, true) + FormatInt(info.day, 2, true) +
    FormatInt(info.hour, 2, true) + FormatInt(info.minute, 2, true)
  }

  /** `cmaskname`: return code 1 and no name for an unknown satellite;
      otherwise (return code 0) the time stamp, ".dn", the characters at
      positions 20 and 21 of the scene file name, ".", the short satellite
      name and ".acmg.mitiff". */
  function CMaskName(rname: string, info: SceneInfo): (r: Option<string>)
    requires |rname| >= 22
    ensures r.Some? <==> ShortName(info.satellite).Some?
  {
    match ShortName(info.satellite)
    case None => None
    case Some(sname) =>
      Some(TimeStamp(info) + ".dn" + rname[20..22] + "." + sname + ".acmg.mitiff")
  }

  /** The return code of `cmaskname`. */
  function ReturnCode(rname: string, info: SceneInfo): (code: int)
    requires |rname| >= 22
    ensures code == 0 || code == 1
    ensures code == 0 <==> exists j | 0 <= j < |Satellites| :: StartsWith(info.satellite, Satellites[j])
  {
    ShortNameKnown(info.satellite);
    if CMaskName(rname, info).Some? then 0 else 1
  }

  // ---------------------------------------------------------------------
  // Reading a name back.

  function Pow10(k: nat): nat
  {
    if k == 0 then 1 else 10 * Pow10(k - 1)
  }

  /** A number below 10^k has at most k digits, one of at least 10^(k-1)
      at least k. */
  lemma {:induction false} DecimalLength(n: nat, k: nat)
    requires k >= 1
    ensures n < Pow10(k) ==> |Decimal(n)| <= k
    ensures n >= Pow10(k - 1) ==> |Decimal(n)| >= k
  {
    if k > 1 {
      DecimalLength(n / 10, k - 1);
    }
  }

  /** A non-negative value is printed as its digits, padded. */
  lemma FormatNonNegative(n: int, width: nat, zero: bool)
    requires n >= 0
    ensures FormatInt(n, width, zero) == PadLeft(Decimal(n), width, if zero then '0' else ' ')
  {
    assert "" + Decimal(n) == Decimal(n);
  }

  /** A field printed with `%02d` from 0..99 is two digits that read back
      as the field. */
  lemma TwoDigits(n: int)
    requires 0 <= n < 100
    ensures |FormatInt(n, 2, true)| == 2
    ensures AllDigits(FormatInt(n, 2, true))
    ensures Value(FormatInt(n, 2, true)) == n
  {
    assert Pow10(2) == 100;
    DecimalLength(n, 2);
    FormatNonNegative(n, 2, true);
    ZeroPaddedRoundTrip(n, 2);
  }

  /** A year from 1000 to 9999 printed with `%4d` is four digits that read
      back as the year. */
  lemma FourDigits(n: int)
    requires 1000 <= n < 10000
    ensures |FormatInt(n, 4, false)| == 4
    ensures AllDigits(FormatInt(n, 4, false))
    ensures Value(FormatInt(n, 4, false)) == n
  {
    var d := Decimal(n);
    assert Pow10(3) == 1000 && Pow10(4) == 10000;
    DecimalLength(n, 4);
    FormatNonNegative(n, 4, false);
    assert FormatInt(n, 4, false) == d;
    DecimalRoundTrip(n);
  }

  /** The scene time read back from a twelve-digit time stamp
      (year, month, day, hour, minute), or `None` for anything else. */
  function ReadStamp(s: string): Option<(int, int, int, int, int)>
  {
    if |s| == 12 && AllDigits(s) then
      assert AllDigits(s[0..4]) && AllDigits(s[4..6]) && AllDigits(s[6..8]) by {
        assert forall k | 0 <= k < 4 :: s[0..4][k] == s[k];
        assert forall k | 0 <= k < 2 :: s[4..6][k] == s[k + 4] && s[6..8][k] == s[k + 6];
      }
      assert AllDigits(s[8..10]) && AllDigits(s[10..12]) by {
        assert forall k | 0 <= k < 2 :: s[8..10][k] == s[k + 8] && s[10..12][k] == s[k + 10];
      }
      Some((Value(s[0..4]), Value(s[4..6]), Value(s[6..8]), Value(s[8..10]), Value(s[10..12])))
    else None
  }

  /** Five digit fields of widths 4, 2, 2, 2 and 2 side by side read back
      as their values. */
  lemma {:induction false} FieldsReadBack(y: string, mo: string, d: string, h: string, mi: string)
    requires |y| == 4 && |mo| == 2 && |d| == 2 && |h| == 2 && |mi| == 2
    requires AllDigits(y) && AllDigits(mo) && AllDigits(d) && AllDigits(h) && AllDigits(mi)
    ensures ReadStamp(y + mo + d + h + mi) == Some((Value(y), Value(mo), Value(d), Value(h), Value(mi)))
  {
    var t := y + mo + d + h + mi;
    assert t[0..4] == y && t[4..6] == mo && t[6..8] == d && t[8..10] == h && t[10..12] == mi;
    forall k | 0 <= k < 12
      ensures '0' <= t[k] <= '9'
    {
      if k < 4 { assert t[k] == y[k]; }
      else if k < 6 { assert t[k] == mo[k - 4]; }
      else if k < 8 { assert t[k] == d[k - 6]; }
      else if k < 10 { assert t[k] == h[k - 8]; }
      else { assert t[k] == mi[k - 10]; }
    }
  }

  /** For a four-digit year and two-digit fields the time stamp is twelve
      characters long. */
  lemma TimeStampLength(info: SceneInfo)
    requires 1000 <= info.year < 10000 && 0 <= info.month < 100 && 0 <= info.day < 100
    requires 0 <= info.hour < 100 && 0 <= info.minute < 100
    ensures |TimeStamp(info)| == 12
  {
    FourDigits(info.year);
    TwoDigits(info.month);
    TwoDigits(info.day);
    TwoDigits(info.hour);
    TwoDigits(info.minute);
  }

  /** For a four-digit year and two-digit fields the time stamp reads back
      as the scene time. */
  lemma TimeStampRoundTrip(info: SceneInfo)
    requires 1000 <= info.year < 10000 && 0 <= info.month < 100 && 0 <= info.day < 100
    requires 0 <= info.hour < 100 && 0 <= info.minute < 100
    ensures ReadStamp(TimeStamp(info)) == Some((info.year, info.month, info.day, info.hour, info.minute))
  {
    var y, mo, d, h, mi :=
      FormatInt(info.year, 4, false), FormatInt(info.month, 2, true), FormatInt(info.day, 2, true),
      FormatInt(info.hour, 2, true), FormatInt(info.minute, 2, true);
    FourDigits(info.year);
    TwoDigits(info.month);
    TwoDigits(info.day);
    TwoDigits(info.hour);
    TwoDigits(info.minute);
    FieldsReadBack(y, mo, d, h, mi);
  }

  /** The parts of a name after a twelve-character time stamp sit side by
      side at fixed positions. */
  lemma PartsSideBySide(name: string, ts: string, pair: string, sname: string)
    requires |ts| == 12 && |pair| == 2 && |sname| == 6
    requires name == ts + ".dn" + pair + "." + sname + ".acmg.mitiff"
    ensures |name| == 36 && name[..12] == ts
    ensures name[12..15] == ".dn" && name[15..17] == pair && name[17] == '.'
    ensures name[18..24] == sname && name[24..] == ".acmg.mitiff"
  {
  }

  /** A known satellite's name is the time stamp followed by the other
      parts, with a six-character short name. */
  lemma NameJoin(rname: string, info: SceneInfo)
    requires |rname| >= 22 && ShortName(info.satellite).Some?
    ensures |ShortName(info.satellite).value| == 6
    ensures CMaskName(rname, info).value ==
            TimeStamp(info) + ".dn" + rname[20..22] + "." + ShortName(info.satellite).value + ".acmg.mitiff"
  {
    ShortNameIsLowered(info.satellite);
  }

  /** The name is 36 characters: after the time stamp come ".dn", the two
      characters at positions 20 and 21 of the scene file name, the short
      satellite name and ".acmg.mitiff", each at a fixed position. */
  lemma CMaskNameParts(rname: string, info: SceneInfo)
    requires |rname| >= 22 && ShortName(info.satellite).Some?
    requires 1000 <= info.year < 10000 && 0 <= info.month < 100 && 0 <= info.day < 100
    requires 0 <= info.hour < 100 && 0 <= info.minute < 100
    ensures |CMaskName(rname, info).value| == 36
    ensures var name := CMaskName(rname, info).value;
            name[12..15] == ".dn" && name[15..17] == rname[20..22] &&
            name[18..24] == ShortName(info.satellite).value && name[24..] == ".acmg.mitiff"
  {
    var name, ts, sname := CMaskName(rname, info).value, TimeStamp(info), ShortName(info.satellite).value;
    assert |sname| == 6 && name == ts + ".dn" + rname[20..22] + "." + sname + ".acmg.mitiff" by {
      NameJoin(rname, info);
    }
    assert |ts| == 12 by {
      TimeStampLength(info);
    }
    PartsSideBySide(name, ts, rname[20..22], sname);
  }

  /** For a four-digit year and two-digit fields, the first twelve
      characters of the name read back as the scene time. */
  lemma CMaskNameTime(rname: string, info: SceneInfo)
    requires |rname| >= 22 && ShortName(info.satellite).Some?
    requires 1000 <= info.year < 10000 && 0 <= info.month < 100 && 0 <= info.day < 100
    requires 0 <= info.hour < 100 && 0 <= info.minute < 100
    ensures |CMaskName(rname, info).value| >= 12
    ensures ReadStamp(CMaskName(rname, info).value[..12]) ==
            Some((info.year, info.month, info.day, info.hour, info.minute))
  {
    var name := CMaskName(rname, info).value;
    assert |name| >= 12 && name[..12] == TimeStamp(info) by {
      NameJoin(rname, info);
      TimeStampLength(info);
      PartsSideBySide(name, TimeStamp(info), rname[20..22], ShortName(info.satellite).value);
    }
    TimeStampRoundTrip(info);
  }

  /** An unknown satellite, or a known one whose name is too short to
      compare seven characters, gives no name. */
  lemma UnknownSatelliteNoName(rname: string)
    requires |rname| >= 22
    ensures CMaskName(rname, SceneInfo("METOP-A", 2009, 1, 1, 12, 0)).None?
    ensures CMaskName(rname, SceneInfo("NOAA-1", 2009, 1, 1, 12, 0)).None?
    ensures CMaskName(rname, SceneInfo("NOAA-16 ", 2009, 1, 1, 12, 0)).Some?
  {
    var s := "NOAA-16 ";
    assert s[..7] == "NOAA-16";
    var m := "METOP-A";
    assert m[..7] == m;
    assert forall j | 0 <= j < |Satellites| :: Satellites[j][0] == 'N' && m[0] == 'M';
    assert !StartsWith(m, Satellites[0]) && !StartsWith(m, Satellites[1]);
    assert !StartsWith(m, Satellites[2]) && !StartsWith(m, Satellites[3]);
  }
}

=== FILE: coeffs.dfy ===
/** The statistical coefficient table of the classifier and the reader
    that fills it from the coefficient file (`rdstatcoeffs`,
    `locstatcoeffs`, `putcoeffs`). */
module Coeffs {
  import opened Wrappers
  import opened Strings

  datatype Surface = Ice | Snow | Cloud | Water | Land
  datatype Feature = A1 | R21 | D34 | R3a1 | R3b1 | Dt

  /** One table entry (featstr): the pdf key, three parameters, and how
      many times the entry has been read. */
  datatype Feat = Feat(key: char, par1: real, par2: real, par3: real, count: int)

  datatype SurfCoeffs = SurfCoeffs(a1: Feat, r21: Feat, d34: Feat, r3a1: Feat, r3b1: Feat, dt: Feat)

  datatype StatCoeffs = StatCoeffs(ice: SurfCoeffs, snow: SurfCoeffs, cloud: SurfCoeffs,
                                   water: SurfCoeffs, land: SurfCoeffs)

  /** One parsed data line of the coefficient file (dummystr). */
  datatype Entry = Entry(surf: string, feat: string, key: char, par1: real, par2: real, par3: real)

  const Unset: Feat := Feat(0 as char, 0.0, 0.0, 0.0, 0)
  const UnsetSurf: SurfCoeffs := SurfCoeffs(Unset, Unset, Unset, Unset, Unset, Unset)

  /** The zero-initialised table the program starts from. */
  const Cleared: StatCoeffs := StatCoeffs(UnsetSurf, UnsetSurf, UnsetSurf, UnsetSurf, UnsetSurf)

  function FeatOf(c: SurfCoeffs, f: Feature): Feat
  {
    match f
    case A1 => c.a1
    case R21 => c.r21
    case D34 => c.d34
    case R3a1 => c.r3a1
    case R3b1 => c.r3b1
    case Dt => c.dt
  }

  function WithFeat(c: SurfCoeffs, f: Feature, x: Feat): SurfCoeffs
  {
    match f
    case A1 => c.(a1 := x)
    case R21 => c.(r21 := x)
    case D34 => c.(d34 := x)
    case R3a1 => c.(r3a1 := x)
    case R3b1 => c.(r3b1 := x)
    case Dt => c.(dt := x)
  }

  function SurfOf(c: StatCoeffs, s: Surface): SurfCoeffs
  {
    match s
    case Ice => c.ice
    case Snow => c.snow
    case Cloud => c.cloud
    case Water => c.water
    case Land => c.land
  }

  function WithSurf(c: StatCoeffs, s: Surface, x: SurfCoeffs): StatCoeffs
  {
    match s
    case Ice => c.(ice := x)
    case Snow => c.(snow := x)
    case Cloud => c.(cloud := x)
    case Water => c.(water := x)
    case Land => c.(land := x)
  }

  /** The entry of surface `s`, feature `f`. */
  function Get(c: StatCoeffs, s: Surface, f: Feature): Feat
  {
    FeatOf(SurfOf(c, s), f)
  }

  /** The table with one entry replaced. */
  function Set(c: StatCoeffs, s: Surface, f: Feature, x: Feat): (r: StatCoeffs)
    ensures forall s', f' :: Get(r, s', f') == if s' == s && f' == f then x else Get(c, s', f')
  {
    WithSurf(c, s, WithFeat(SurfOf(c, s), f, x))
  }

  /** The name a data line uses for a surface; "snow" is a field of the
      table but not a name the reader accepts. */
  function SurfaceName(s: Surface): string
  {
    match s
    case Ice => "ice"
    case Snow => "snow"
    case Cloud => "cloud"
    case Water => "water"
    case Land => "land"
  }

  function FeatureName(f: Feature): string
  {
    match f
    case A1 => "a1"
    case R21 => "r21"
    case D34 => "d34"
    case R3a1 => "r3a1"
    case R3b1 => "r3b1"
    case Dt => "dt"
  }

  /** The surface comparisons of `locstatcoeffs`, in source order. */
  function ParseSurface(name: string): Option<Surface>
  {
    if name == "ice" then Some(Ice)
    else if name == "cloud" then Some(Cloud)
    else if name == "water" then Some(Water)
    else if name == "land" then Some(Land)
    else None
  }

  /** The feature comparisons of `locstatcoeffs`, in source order. */
  function ParseFeature(name: string): Option<Feature>
  {
    if name == "a1" then Some(A1)
    else if name == "r21" then Some(R21)
    else if name == "d34" then Some(D34)
    else if name == "r3a1" then Some(R3a1)
    else if name == "r3b1" then Some(R3b1)
    else if name == "dt" then Some(Dt)
    else None
  }

  /** A surface name is accepted exactly when it names one of the four
      readable surfaces; the snow entries can never be filled. */
  lemma SurfaceNames(name: string, s: Surface)
    ensures ParseSurface(name) == Some(s) <==> s != Snow && name == SurfaceName(s)
  {
  }

  /** Every feature name is accepted, and only those. */
  lemma FeatureNames(name: string, f: Feature)
    ensures ParseFeature(name) == Some(f) <==> name == FeatureName(f)
  {
  }

  /** Storing a line in an entry: parameters copied, read count bumped. */
  function PutCoeffs(x: Feat, e: Entry): Feat
  {
    Feat(e.key, e.par1, e.par2, e.par3, x.count + 1)
  }

  /** The entry (s, f) once line `e` has been stored. */
  function Updated(c: StatCoeffs, e: Entry, s: Surface, f: Feature): Feat
  {
    if ParseSurface(e.surf) == Some(s) && ParseFeature(e.feat) == Some(f)
    then PutCoeffs(Get(c, s, f), e) else Get(c, s, f)
  }

  /** Storing one data line in the table. An unknown surface or feature
      ends the program. */
  function LocStatCoeffs(e: Entry, c: StatCoeffs): (r: Result<StatCoeffs>)
    ensures ParseSurface(e.surf).None? ==> r == Fail(UnknownSurface)
    ensures ParseSurface(e.surf).Some? && ParseFeature(e.feat).None? ==> r == Fail(UnknownFeature)
    ensures r.Ok? <==> ParseSurface(e.surf).Some? && ParseFeature(e.feat).Some?
    ensures r.Ok? ==> forall s, f :: Get(r.value, s, f) == Updated(c, e, s, f)
    ensures r.Ok? ==> var s, f := ParseSurface(e.surf).value, ParseFeature(e.feat).value;
              var x := Get(r.value, s, f);
              x.key == e.key && x.par1 == e.par1 && x.par2 == e.par2 && x.par3 == e.par3 &&
              x.count == Get(c, s, f).count + 1
    ensures r.Ok? ==> forall s, f :: (Some(s), Some(f)) != (ParseSurface(e.surf), ParseFeature(e.feat)) ==>
              Get(r.value, s, f) == Get(c, s, f)
  {
    match ParseSurface(e.surf)
    case None => Fail(UnknownSurface)
    case Some(s) =>
      match ParseFeature(e.feat)
      case None => Fail(UnknownFeature)
      case Some(f) => Ok(Set(c, s, f, PutCoeffs(Get(c, s, f), e)))
  }

  // ---------------------------------------------------------------------
  // Reading the coefficient file.

  /** What a `%lf` conversion reads from the start of a string (after
      white space): a value and the number of characters it used. */
  datatype Number = Number(value: real, len: nat)

  /** The line reader's environment: the longest run of leading blanks a
      line may have, and the numeric scanner of the C library. */
  datatype Reader = Reader(maxLead: nat, number: string -> Option<Number>)

  /** `%s`: skip white space, read a non-empty word. */
  function ScanWord(s: string): (r: Option<(string, string)>)
    ensures r.Some? ==> |r.value.0| > 0 && |r.value.1| < |s|
  {
    var t := s[LeadingSeps(s, false)..];
    var n := TokenLength(t, false);
    if n == 0 then None else Some((t[..n], t[n..]))
  }

  /** ` %c`: skip white space, read one character. */
  function ScanChar(s: string): (r: Option<(char, string)>)
    ensures r.Some? ==> |r.value.1| < |s|
  {
    var t := s[LeadingSeps(s, false)..];
    if |t| == 0 then None else Some((t[0], t[1..]))
  }

  /** `%lf`: skip white space, read a number. A scanner answer that uses
      no character, or more than there are, is a matching failure. */
  function ScanNumber(s: string, rd: Reader): (r: Option<(real, string)>)
    ensures r.Some? ==> |r.value.1| < |s|
  {
    var t := s[LeadingSeps(s, false)..];
    match rd.number(t)
    case None => None
    case Some(num) => if 1 <= num.len <= |t| then Some((num.value, t[num.len..])) else None
  }

  /** `sscanf(line, "%s%s %c%lf%lf%lf", ...) == 6`: all six conversions
      succeed. */
  function ScanEntry(line: string, rd: Reader): Option<Entry>
  {
    match ScanWord(line)
    case None => None
    case Some((surf, r1)) =>
      match ScanWord(r1)
      case None => None
      case Some((feat, r2)) =>
        match ScanChar(r2)
        case None => None
        case Some((key, r3)) =>
          match ScanNumber(r3, rd)
          case None => None
          case Some((p1, r4)) =>
            match ScanNumber(r4, rd)
            case None => None
            case Some((p2, r5)) =>
              match ScanNumber(r5, rd)
              case None => None
              case Some((p3, _)) => Some(Entry(surf, feat, key, p1, p2, p3))
  }

  /** How the reader treats one line. */
  datatype LineKind = Skipped | Data(e: Entry) | Bad

  /** Leading blanks up to the limit are skipped; too many is an error; a
      comment or empty line is skipped; anything else must scan. */
  function Classify(line: string, rd: Reader): (k: LineKind)
    ensures k.Bad? && LeadingSeps(line, true) < rd.maxLead ==> ScanEntry(line, rd).None?
    ensures k.Data? ==> Some(k.e) == ScanEntry(line, rd)
  {
    var j := LeadingSeps(line, true);
    if j >= rd.maxLead then Bad
    else if j < |line| && (line[j] == '#' || line[j] == '\n') then Skipped
    else
      match ScanEntry(line, rd)
      case None => Bad
      case Some(e) => Data(e)
  }

  /** The failure a classified line causes, if any: a bad line is an I/O
      error, a data line with an unknown surface or feature ends the
      program. */
  function KindFailure(k: LineKind): Option<Failure>
  {
    match k
    case Skipped => None
    case Bad => Some(IoError)
    case Data(e) =>
      if ParseSurface(e.surf).None? then Some(UnknownSurface)
      else if ParseFeature(e.feat).None? then Some(UnknownFeature)
      else None
  }

  /** The failure a line causes, if any. */
  function LineFailure(line: string, rd: Reader): Option<Failure>
  {
    KindFailure(Classify(line, rd))
  }

  /** How the reader classifies each line of the file. */
  function Kinds(lines: seq<string>, rd: Reader): (ks: seq<LineKind>)
    ensures |ks| == |lines|
  {
    seq(|lines|, k requires 0 <= k < |lines| => Classify(lines[k], rd))
  }

  /** The classified line is a data line stored in entry (s, f). */
  predicate Names(k: LineKind, s: Surface, f: Feature)
  {
    k.Data? && ParseSurface(k.e.surf) == Some(s) && ParseFeature(k.e.feat) == Some(f)
  }

  /** How many of the first `n` lines are stored in entry (s, f). */
  function Naming(ks: seq<LineKind>, s: Surface, f: Feature, n: int): int
    requires 0 <= n <= |ks|
  {
    if n == 0 then 0
    else Naming(ks, s, f, n - 1) + (if Names(ks[n - 1], s, f) then 1 else 0)
  }

  /** The last of the first `n` lines stored in entry (s, f). */
  function LastNaming(ks: seq<LineKind>, s: Surface, f: Feature, n: int): Option<Entry>
    requires 0 <= n <= |ks|
  {
    if n == 0 then None
    else if Names(ks[n - 1], s, f) then Some(ks[n - 1].e)
    else LastNaming(ks, s, f, n - 1)
  }

  /** Entry `x` holds the parameters of `last`, or those of `x0` when no
      line supplied any. */
  predicate Carries(x: Feat, x0: Feat, last: Option<Entry>)
  {
    match last
    case None => x.key == x0.key && x.par1 == x0.par1 && x.par2 == x0.par2 && x.par3 == x0.par3
    case Some(e) => x.key == e.key && x.par1 == e.par1 && x.par2 == e.par2 && x.par3 == e.par3
  }

  /** Table `c'` is table `c` after the line: unchanged by a skipped line,
      updated by a data line. */
  predicate Absorbs(k: LineKind, c: StatCoeffs, c': StatCoeffs)
  {
    (k.Skipped? ==> c' == c) && (k.Data? ==> LocStatCoeffs(k.e, c) == Ok(c'))
  }

  /** The body of the reading loop for one classified line: a bad line is
      an I/O error, a data line is stored, anything else leaves the table
      alone. */
  method ReadLine(k: LineKind, c: StatCoeffs) returns (r: Result<StatCoeffs>)
    ensures r.Fail? <==> KindFailure(k).Some?
    ensures r.Fail? ==> KindFailure(k) == Some(r.failure)
    ensures r.Ok? ==> Absorbs(k, c, r.value)
  {
    match k
    case Bad => r := Fail(IoError);
    case Skipped => r := Ok(c);
    case Data(e) => r := LocStatCoeffs(e, c);
  }

  /** The table after the first `n` lines agrees with the reference
      definitions. */
  predicate Loaded(c: StatCoeffs, c0: StatCoeffs, ks: seq<LineKind>, n: int)
    requires 0 <= n <= |ks|
  {
    forall s, f ::
      Get(c, s, f).count == Get(c0, s, f).count + Naming(ks, s, f, n) &&
      Carries(Get(c, s, f), Get(c0, s, f), LastNaming(ks, s, f, n))
  }

  /** One more stored line keeps the table loaded. */
  lemma LoadedStep(c: StatCoeffs, c': StatCoeffs, c0: StatCoeffs, ks: seq<LineKind>, n: int)
    requires 0 <= n < |ks|
    requires Loaded(c, c0, ks, n)
    requires KindFailure(ks[n]).None?
    requires Absorbs(ks[n], c, c')
    ensures Loaded(c', c0, ks, n + 1)
  {
    forall s, f
      ensures Get(c', s, f).count == Get(c0, s, f).count + Naming(ks, s, f, n + 1)
      ensures Carries(Get(c', s, f), Get(c0, s, f), LastNaming(ks, s, f, n + 1))
    {
      assert Naming(ks, s, f, n + 1) == Naming(ks, s, f, n) + (if Names(ks[n], s, f) then 1 else 0);
    }
  }

  /** None of the first `n` lines causes a failure. */
  predicate Accepted(ks: seq<LineKind>, n: int)
    requires 0 <= n <= |ks|
  {
    forall k :: 0 <= k < n ==> KindFailure(ks[k]).None?
  }

  /** One turn of the reading loop: line `n` either fails first or is
      loaded. */
  method ReadNext(ks: seq<LineKind>, c0: StatCoeffs, c: StatCoeffs, n: int) returns (r: Result<StatCoeffs>)
    requires 0 <= n < |ks| && Loaded(c, c0, ks, n) && Accepted(ks, n)
    ensures r.Fail? ==> KindFailure(ks[n]) == Some(r.failure)
    ensures r.Ok? ==> Loaded(r.value, c0, ks, n + 1) && Accepted(ks, n + 1)
  {
    r := ReadLine(ks[n], c);
    if r.Ok? {
      LoadedStep(c, r.value, c0, ks, n);
    }
  }

  /** The reading loop over the classified lines: it stops at the first
      failing line, or loads every line. */
  method ReadLines(ks: seq<LineKind>, c0: StatCoeffs) returns (r: Result<StatCoeffs>)
    ensures r.Fail? <==> exists i :: 0 <= i < |ks| && KindFailure(ks[i]).Some?
    ensures r.Fail? ==> exists i :: 0 <= i < |ks| && KindFailure(ks[i]) == Some(r.failure) && Accepted(ks, i)
    ensures r.Ok? ==> Loaded(r.value, c0, ks, |ks|)
  {
    var c := c0;
    var i := 0;
    while i < |ks|
      invariant 0 <= i <= |ks|
      invariant Loaded(c, c0, ks, i)
      invariant Accepted(ks, i)
    {
      var next := ReadNext(ks, c0, c, i);
      if next.Fail? {
        return next;
      }
      c := next.value;
      i := i + 1;
    }
    return Ok(c);
  }

  /** The reader (`rdstatcoeffs`) over the lines of the file, as `getline`
      returns them. It fails at the first bad line, and otherwise every
      entry's count grows by the number of lines naming it and the entry
      holds the parameters of the last such line. */
  method RdStatCoeffs(lines: seq<string>, rd: Reader, c0: StatCoeffs) returns (r: Result<StatCoeffs>)
    ensures r.Fail? <==> exists i :: 0 <= i < |lines| && LineFailure(lines[i], rd).Some?
    ensures r.Fail? ==> exists i :: 0 <= i < |lines| && LineFailure(lines[i], rd) == Some(r.failure) &&
                                    forall k :: 0 <= k < i ==> LineFailure(lines[k], rd).None?
    ensures r.Ok? ==> forall s, f ::
              Get(r.value, s, f).count == Get(c0, s, f).count + Naming(Kinds(lines, rd), s, f, |lines|)
    ensures r.Ok? ==> forall s, f ::
              Carries(Get(r.value, s, f), Get(c0, s, f), LastNaming(Kinds(lines, rd), s, f, |lines|))
  {
    var ks := Kinds(lines, rd);
    r := ReadLines(ks, c0);
    if r.Fail? {
      var i :| 0 <= i < |ks| && KindFailure(ks[i]) == Some(r.failure) && Accepted(ks, i);
      assert LineFailure(lines[i], rd) == Some(r.failure) by {
        KindOfLine(lines, rd, i);
      }
      forall k | 0 <= k < i
        ensures LineFailure(lines[k], rd).None?
      {
        KindOfLine(lines, rd, k);
      }
    } else {
      forall i | 0 <= i < |lines|
        ensures LineFailure(lines[i], rd).None?
      {
        KindOfLine(lines, rd, i);
      }
    }
  }

  /** A line fails exactly as its classification does. */
  lemma KindOfLine(lines: seq<string>, rd: Reader, i: int)
    requires 0 <= i < |lines|
    ensures LineFailure(lines[i], rd) == KindFailure(Kinds(lines, rd)[i])
  {
  }

  /** A count of namings is never negative, and some line names the entry
      exactly when there is a last such line. */
  lemma {:induction false} NamingFacts(ks: seq<LineKind>, s: Surface, f: Feature, n: int)
    requires 0 <= n <= |ks|
    ensures Naming(ks, s, f, n) >= 0
    ensures Naming(ks, s, f, n) > 0 <==> LastNaming(ks, s, f, n).Some?
  {
    if n > 0 {
      NamingFacts(ks, s, f, n - 1);
    }
  }

  /** No line is ever stored under the snow surface. */
  lemma LineNotSnow(k: LineKind, f: Feature)
    ensures !Names(k, Snow, f)
  {
    if k.Data? {
      SurfaceNames(k.e.surf, Snow);
    }
  }

  /** No line of a file is ever stored under the snow surface. */
  lemma {:induction false} SnowNeverNamed(ks: seq<LineKind>, f: Feature, n: int)
    requires 0 <= n <= |ks|
    ensures Naming(ks, Snow, f, n) == 0
    ensures LastNaming(ks, Snow, f, n) == None
  {
    if n > 0 {
      SnowNeverNamed(ks, f, n - 1);
      LineNotSnow(ks[n - 1], f);
    }
  }
}

=== FILE: compositor.dfy ===
/** The per-pixel fold of `average_merge_files` (the temporal compositor):
    every pass that observed a pixel supplies a probability triple, the
    triple is gated, and the accumulators of the pixel are updated. The
    same logic is shared by both copies of the routine (the older one in
    func_accusnow.c and the newer one in fmaccusnowfuncs.c). The final
    reduction lives in module Reduction. */
module Compositor {
  import opened Wrappers

  /** Valid probability range of the single-pass product (MINPROBAVHRR and
      MAXPROBAVHRR). */
  const MinProb: real := 0.0
  const MaxProb: real := 100.0

  /** Missing-value codes written by the classifier: no coverage, night and
      channel 3A trouble. */
  const MisNoCov: real := -991.0
  const MisNight: real := -990.0
  const Mis3A: real := -993.0

  /** One pass's probability triple for one pixel, in file layer order. */
  datatype Triple = Triple(ice: real, clear: real, cloud: real)

  /** What one pass contributes to one pixel: nothing when the pass file
      could not be read, otherwise its triple. */
  datatype Obs = Unreadable | Read(t: Triple)

  /** The per-pixel accumulators (C `int` counters and `float` sums). */
  datatype Acc = Acc(numCloudfree: int, numCloud: int, numUndef: int, numPix: int,
                     sumIce: real, sumClear: real)

  const Empty := Acc(0, 0, 0, 0, 0.0, 0.0)

  // ---------------------------------------------------------------------
  // Gates

  predicate InRange(v: real) { MinProb <= v <= MaxProb }

  predicate AllInRange(t: Triple)
  {
    InRange(t.ice) && InRange(t.clear) && InRange(t.cloud)
  }

  predicate SumsToOne(t: Triple)
  {
    0.95 <= t.ice + t.clear + t.cloud <= 1.05
  }

  predicate IsMissing(v: real)
  {
    v == MisNoCov || v == MisNight || v == Mis3A
  }

  /** All three layers carry the same missing-value code. */
  predicate FullyMissing(t: Triple)
  {
    IsMissing(t.ice) && t.clear == t.ice && t.cloud == t.ice
  }

  /** What the fold does with one triple. */
  datatype Outcome = Skipped | Clouded | CloudFree | Undefined | NoClearMass

  /** The gates of the pass loop, in source order: range, sum, cloud limit,
      clear mass; and, for an out-of-range triple, the sentinel test. */
  function Judge(t: Triple, cloudlim: real): Outcome
  {
    if AllInRange(t) then
      if !SumsToOne(t) then Skipped
      else if t.cloud >= cloudlim then Clouded
      else if t.ice + t.clear <= MinProb then NoClearMass
      else CloudFree
    else if IsMissing(t.ice) then
      if t.cloud != t.ice || t.clear != t.ice then Skipped else Undefined
    else Skipped
  }

  /** Each outcome in terms of the triple alone. */
  lemma JudgeFacts(t: Triple, cloudlim: real, k: Outcome)
    requires k == Judge(t, cloudlim)
    ensures k == Undefined <==> FullyMissing(t)
    ensures k == Clouded <==> AllInRange(t) && SumsToOne(t) && t.cloud >= cloudlim
    ensures k == CloudFree <==>
              AllInRange(t) && SumsToOne(t) && t.cloud < cloudlim && t.ice + t.clear > 0.0
    ensures k == NoClearMass <==>
              AllInRange(t) && SumsToOne(t) && t.cloud < cloudlim && t.ice + t.clear <= 0.0
  {
  }

  /** The pass that makes the merge give up: in range, summing to one,
      below the cloud limit, but with no ice or clear mass. */
  predicate Aborts(o: Obs, cloudlim: real)
  {
    o.Read? && Judge(o.t, cloudlim) == NoClearMass
  }

  // ---------------------------------------------------------------------
  // Invariants of the accumulators

  /** No counter is negative. */
  predicate NonNegative(a: Acc)
  {
    0 <= a.numCloudfree && 0 <= a.numCloud && 0 <= a.numUndef
  }

  /** Every counted pass went to exactly one of the three outcomes. */
  predicate Balanced(a: Acc)
  {
    a.numCloudfree + a.numCloud + a.numUndef == a.numPix
  }

  /** Each cloud-free pass adds ice and clear shares that sum to one. */
  predicate Conserved(a: Acc)
  {
    0.0 <= a.sumIce && 0.0 <= a.sumClear && a.sumIce + a.sumClear == a.numCloudfree as real
  }

  predicate Valid(a: Acc) { NonNegative(a) && Balanced(a) && Conserved(a) }

  // ---------------------------------------------------------------------
  // One pass

  /** Componentwise sum of two accumulators. */
  function Add(a: Acc, b: Acc): Acc
  {
    Acc(a.numCloudfree + b.numCloudfree, a.numCloud + b.numCloud,
        a.numUndef + b.numUndef, a.numPix + b.numPix,
        a.sumIce + b.sumIce, a.sumClear + b.sumClear)
  }

  lemma AddValid(a: Acc, b: Acc)
    requires Valid(a) && Valid(b)
    ensures Valid(Add(a, b))
  {
    var s := Add(a, b);
    assert s.numCloudfree == a.numCloudfree + b.numCloudfree;
    assert s.numCloudfree as real == a.numCloudfree as real + b.numCloudfree as real;
    assert s.sumIce + s.sumClear == (a.sumIce + a.sumClear) + (b.sumIce + b.sumClear);
  }

  /** Normalising two non-negative shares by their positive sum. */
  lemma SharesSumToOne(x: real, y: real)
    requires 0.0 <= x && 0.0 <= y && x + y > 0.0
    ensures x / (x + y) + y / (x + y) == 1.0
    ensures 0.0 <= x / (x + y) && 0.0 <= y / (x + y)
    ensures (x / (x + y)) * (x + y) == x
  {
    var s := x + y;
    assert x / s + y / s == (x + y) / s;
    assert (x + y) / s == 1.0;
    assert (x / s) * s == x;
  }

  /** What one pass adds to a pixel's accumulators: one count for the
      outcome it is judged to have and, when cloud-free, its ice and clear
      shares renormalised over the two. A skipped pass, an unreadable file
      and the aborting pass add nothing. */
  function Contribution(o: Obs, cloudlim: real): Acc
  {
    match o
    case Unreadable => Empty
    case Read(t) =>
      match Judge(t, cloudlim)
      case Skipped => Empty
      case NoClearMass => Empty
      case Clouded => Empty.(numCloud := 1, numPix := 1)
      case Undefined => Empty.(numUndef := 1, numPix := 1)
      case CloudFree =>
        var s := t.ice + t.clear;
        Acc(1, 0, 0, 1, t.ice / s, t.clear / s)
  }

  /** The contribution of one pass is itself a valid accumulator holding
      at most one count, for the outcome the pass is judged to have. */
  lemma ContributionFacts(o: Obs, cloudlim: real, c: Acc)
    requires c == Contribution(o, cloudlim)
    ensures Valid(c)
    ensures c.numCloud == Indicator(o, Clouded, cloudlim)
    ensures c.numCloudfree == Indicator(o, CloudFree, cloudlim)
    ensures c.numUndef == Indicator(o, Undefined, cloudlim)
    ensures c.numCloudfree == 0 ==> c.sumIce == 0.0 && c.sumClear == 0.0
  {
    match o
    case Unreadable =>
    case Read(t) =>
      match Judge(t, cloudlim)
      case Skipped =>
      case NoClearMass =>
      case Clouded =>
      case Undefined =>
      case CloudFree =>
        JudgeFacts(t, cloudlim, CloudFree);
        SharesSumToOne(t.ice, t.clear);
  }

  /** Folds one pass into the accumulators; a cloud-free pass without
      ice or clear mass aborts the whole merge (return code 8). */
  function Step(a: Acc, o: Obs, cloudlim: real): (r: Result<Acc>)
    ensures r.Fail? <==> Aborts(o, cloudlim)
    ensures r.Fail? ==> r.failure == DivideByZero
    ensures r.Ok? && Valid(a) ==> Valid(r.value)
  {
    if Aborts(o, cloudlim) then Fail(DivideByZero)
    else
      var c := Contribution(o, cloudlim);
      ContributionFacts(o, cloudlim, c);
      if Valid(a) then AddValid(a, c); Ok(Add(a, c))
      else Ok(Add(a, c))
  }

  /** What each branch of the pass loop does to one pixel's accumulators. */
  lemma StepBranches(a: Acc, o: Obs, cloudlim: real, r: Result<Acc>)
    requires r == Step(a, o, cloudlim)
    // an unreadable file, a triple failing the sum gate and a triple that
    // is neither in range nor a full sentinel change nothing
    ensures o.Unreadable? ==> r == Ok(a)
    ensures o.Read? && AllInRange(o.t) && !SumsToOne(o.t) ==> r == Ok(a)
    ensures o.Read? && !AllInRange(o.t) && !FullyMissing(o.t) ==> r == Ok(a)
    // a cloudy pass counts once as cloud and leaves the sums alone
    ensures o.Read? && AllInRange(o.t) && SumsToOne(o.t) && o.t.cloud >= cloudlim ==>
              r == Ok(a.(numCloud := a.numCloud + 1, numPix := a.numPix + 1))
    // a full sentinel counts once as undefined
    ensures o.Read? && FullyMissing(o.t) ==>
              r == Ok(a.(numUndef := a.numUndef + 1, numPix := a.numPix + 1))
    // a cloud-free pass counts once and adds two non-negative shares of one
    ensures o.Read? && Judge(o.t, cloudlim) == CloudFree ==>
              r.Ok? && r.value.numCloudfree == a.numCloudfree + 1 &&
              r.value.numPix == a.numPix + 1 &&
              r.value.numCloud == a.numCloud && r.value.numUndef == a.numUndef &&
              r.value.sumIce - a.sumIce >= 0.0 && r.value.sumClear - a.sumClear >= 0.0 &&
              (r.value.sumIce - a.sumIce) + (r.value.sumClear - a.sumClear) == 1.0
  {
    match o
    case Unreadable =>
      assert Contribution(o, cloudlim) == Empty;
      assert Add(a, Empty) == a;
    case Read(t) =>
      var k := Judge(t, cloudlim);
      JudgeFacts(t, cloudlim, k);
      var c := Contribution(o, cloudlim);
      match k
      case Skipped =>
        assert c == Empty;
        assert Add(a, Empty) == a;
      case NoClearMass =>
      case Clouded =>
        assert c == Empty.(numCloud := 1, numPix := 1);
        assert Add(a, c) == a.(numCloud := a.numCloud + 1, numPix := a.numPix + 1);
      case Undefined =>
        assert c == Empty.(numUndef := 1, numPix := 1);
        assert Add(a, c) == a.(numUndef := a.numUndef + 1, numPix := a.numPix + 1);
      case CloudFree =>
        ContributionFacts(o, cloudlim, c);
        assert r == Ok(Add(a, c));
        assert r.value.sumIce - a.sumIce == c.sumIce;
        assert r.value.sumClear - a.sumClear == c.sumClear;
  }

  // ---------------------------------------------------------------------
  // The fold

  function StepR(r: Result<Acc>, o: Obs, cloudlim: real): Result<Acc>
  {
    match r
    case Fail(f) => Fail(f)
    case Ok(a) => Step(a, o, cloudlim)
  }

  /** The accumulators after the first `n` passes of `obs`: the pass loop
      of `average_merge_files` for one pixel. After any number of passes
      the counters balance, so the final consistency check never fires,
      and the ice and clear sums add up to the number of cloud-free
      passes. */
  function FoldUpTo(obs: seq<Obs>, n: int, cloudlim: real): (r: Result<Acc>)
    requires 0 <= n <= |obs|
    ensures r.Ok? ==> Valid(r.value)
    ensures r.Fail? ==> r.failure == DivideByZero
  {
    if n == 0 then Ok(Empty)
    else StepR(FoldUpTo(obs, n - 1, cloudlim), obs[n - 1], cloudlim)
  }

  /** The accumulators after all passes. */
  function Fold(obs: seq<Obs>, cloudlim: real): (r: Result<Acc>)
    ensures r.Ok? ==> Valid(r.value)
    ensures r.Fail? ==> r.failure == DivideByZero
  {
    FoldUpTo(obs, |obs|, cloudlim)
  }

  // ---------------------------------------------------------------------
  // An order-free reference for the fold

  /** The sum of the contributions of the first `n` passes, with no
      abort. */
  function Tally(obs: seq<Obs>, n: int, cloudlim: real): Acc
    requires 0 <= n <= |obs|
  {
    if n == 0 then Empty
    else Add(Tally(obs, n - 1, cloudlim), Contribution(obs[n - 1], cloudlim))
  }

  lemma AddAssoc(a: Acc, b: Acc, c: Acc)
    ensures Add(Add(a, b), c) == Add(a, Add(b, c))
  {
  }

  lemma AddEmpty(a: Acc)
    ensures Add(a, Empty) == a && Add(Empty, a) == a
  {
  }

  /** The tally of a prefix only looks at that prefix. */
  lemma {:induction false} TallyPrefix(x: seq<Obs>, y: seq<Obs>, n: int, cloudlim: real)
    requires 0 <= n <= |x|
    ensures Tally(x + y, n, cloudlim) == Tally(x, n, cloudlim)
  {
    if n > 0 {
      assert (x + y)[n - 1] == x[n - 1];
      TallyPrefix(x, y, n - 1, cloudlim);
    }
  }

  lemma {:induction false} TallyAppend(x: seq<Obs>, y: seq<Obs>, m: int, cloudlim: real)
    requires 0 <= m <= |y|
    ensures Tally(x + y, |x| + m, cloudlim) == Add(Tally(x, |x|, cloudlim), Tally(y, m, cloudlim))
  {
    var tx := Tally(x, |x|, cloudlim);
    if m == 0 {
      TallyPrefix(x, y, |x|, cloudlim);
      AddEmpty(tx);
    } else {
      TallyAppend(x, y, m - 1, cloudlim);
      assert (x + y)[|x| + m - 1] == y[m - 1];
      var c := Contribution(y[m - 1], cloudlim);
      assert Tally(x + y, |x| + m, cloudlim) == Add(Tally(x + y, |x| + m - 1, cloudlim), c);
      AddAssoc(tx, Tally(y, m - 1, cloudlim), c);
    }
  }

  /** The fold aborts exactly when some pass aborts it. */
  lemma {:induction false} FoldFails(obs: seq<Obs>, n: int, cloudlim: real)
    requires 0 <= n <= |obs|
    ensures FoldUpTo(obs, n, cloudlim).Fail? <==> exists i :: 0 <= i < n && Aborts(obs[i], cloudlim)
  {
    if n > 0 {
      FoldFails(obs, n - 1, cloudlim);
      if exists i :: 0 <= i < n && Aborts(obs[i], cloudlim) {
        var i :| 0 <= i < n && Aborts(obs[i], cloudlim);
        assert i < n - 1 || i == n - 1;
      }
    }
  }

  /** A fold that does not abort ends in the tally of the passes. */
  lemma {:induction false} FoldIsTally(obs: seq<Obs>, n: int, cloudlim: real)
    requires 0 <= n <= |obs|
    ensures FoldUpTo(obs, n, cloudlim).Ok? ==> FoldUpTo(obs, n, cloudlim).value == Tally(obs, n, cloudlim)
  {
    if n > 0 {
      FoldIsTally(obs, n - 1, cloudlim);
    }
  }

  /** 1 when the pass was read and judged to have outcome `k`, else 0. */
  function Indicator(o: Obs, k: Outcome, cloudlim: real): int
  {
    if o.Read? && Judge(o.t, cloudlim) == k then 1 else 0
  }

  /** Passes of outcome `k` among the first `n` of `obs`. */
  function Count(obs: seq<Obs>, k: Outcome, n: int, cloudlim: real): (c: int)
    requires 0 <= n <= |obs|
    ensures 0 <= c <= n
  {
    if n == 0 then 0
    else Count(obs, k, n - 1, cloudlim) + Indicator(obs[n - 1], k, cloudlim)
  }

  /** The counter that records outcome `k` (0 for the outcomes that are
      not counted). */
  function Counter(a: Acc, k: Outcome): int
  {
    match k
    case Clouded => a.numCloud
    case CloudFree => a.numCloudfree
    case Undefined => a.numUndef
    case _ => 0
  }

  lemma {:induction false} TallyCounts(obs: seq<Obs>, k: Outcome, n: int, cloudlim: real)
    requires 0 <= n <= |obs|
    requires k == Clouded || k == CloudFree || k == Undefined
    ensures Counter(Tally(obs, n, cloudlim), k) == Count(obs, k, n, cloudlim)
  {
    if n > 0 {
      var c := Contribution(obs[n - 1], cloudlim);
      var rest := Tally(obs, n - 1, cloudlim);
      ContributionFacts(obs[n - 1], cloudlim, c);
      TallyCounts(obs, k, n - 1, cloudlim);
      assert Counter(Tally(obs, n, cloudlim), k) == Counter(rest, k) + Counter(c, k);
    }
  }

  /** Each counter of a completed fold is the number of passes with that
      outcome, and every counted pass is counted once. */
  lemma FoldCounts(obs: seq<Obs>, cloudlim: real)
    ensures Fold(obs, cloudlim).Ok? ==>
              Fold(obs, cloudlim).value.numCloud == Count(obs, Clouded, |obs|, cloudlim) &&
              Fold(obs, cloudlim).value.numCloudfree == Count(obs, CloudFree, |obs|, cloudlim) &&
              Fold(obs, cloudlim).value.numUndef == Count(obs, Undefined, |obs|, cloudlim) &&
              Fold(obs, cloudlim).value.numPix ==
                Count(obs, Clouded, |obs|, cloudlim) + Count(obs, CloudFree, |obs|, cloudlim) +
                Count(obs, Undefined, |obs|, cloudlim)
  {
    FoldIsTally(obs, |obs|, cloudlim);
    TallyCounts(obs, Clouded, |obs|, cloudlim);
    TallyCounts(obs, CloudFree, |obs|, cloudlim);
    TallyCounts(obs, Undefined, |obs|, cloudlim);
  }

  /** Some pass of `obs` aborts the merge. */
  predicate AnyAborts(obs: seq<Obs>, cloudlim: real)
  {
    exists i :: 0 <= i < |obs| && Aborts(obs[i], cloudlim)
  }

  lemma AnyAbortsConcat(x: seq<Obs>, y: seq<Obs>, cloudlim: real)
    ensures AnyAborts(x + y, cloudlim) <==> AnyAborts(x, cloudlim) || AnyAborts(y, cloudlim)
  {
    var xy := x + y;
    if AnyAborts(xy, cloudlim) {
      var i :| 0 <= i < |xy| && Aborts(xy[i], cloudlim);
      if i < |x| {
        assert x[i] == xy[i];
      } else {
        assert y[i - |x|] == xy[i];
      }
    }
    if AnyAborts(x, cloudlim) {
      var i :| 0 <= i < |x| && Aborts(x[i], cloudlim);
      assert xy[i] == x[i];
    }
    if AnyAborts(y, cloudlim) {
      var i :| 0 <= i < |y| && Aborts(y[i], cloudlim);
      assert xy[|x| + i] == y[i];
    }
  }

  /** The tally of two blocks of passes does not depend on their order. */
  lemma TallySwap(x: seq<Obs>, y: seq<Obs>, cloudlim: real)
    ensures Tally(x + y, |x + y|, cloudlim) == Tally(y + x, |y + x|, cloudlim)
  {
    TallyAppend(x, y, |y|, cloudlim);
    TallyAppend(y, x, |x|, cloudlim);
    assert |x + y| == |x| + |y| == |y + x|;
    var tx, ty := Tally(x, |x|, cloudlim), Tally(y, |y|, cloudlim);
    assert Add(tx, ty) == Add(ty, tx);
  }

  /** The composite does not depend on the order in which the passes are
      read: swapping two blocks of passes changes nothing. */
  lemma FoldOrderFree(x: seq<Obs>, y: seq<Obs>, cloudlim: real)
    ensures Fold(x + y, cloudlim) == Fold(y + x, cloudlim)
  {
    var xy, yx := x + y, y + x;
    FoldFails(xy, |xy|, cloudlim);
    FoldFails(yx, |yx|, cloudlim);
    AnyAbortsConcat(x, y, cloudlim);
    AnyAbortsConcat(y, x, cloudlim);
    if Fold(xy, cloudlim).Ok? {
      FoldIsTally(xy, |xy|, cloudlim);
      FoldIsTally(yx, |yx|, cloudlim);
      TallySwap(x, y, cloudlim);
    }
  }
}

=== FILE: config.dfy ===
/** The set-up steps of the single-scene classifier: reading the
    configuration file (`decode_cfg`), choosing the area and its land mask
    from the file name, refusing satellites without channel 3A, and the
    land mask consistency check. */
module Config {
  import opened Wrappers
  import opened Strings

  /** Buffer length of a configuration line (FILELEN). */
  const FileLen: nat := 256

  /** Longest configuration line accepted (FILELEN - 50). */
  const MaxLineLen: nat := 206

  datatype Key = ImgPath | CmPath | LmPath | ProductPath | ProbTabName

  /** The settings `decode_cfg` fills (cfgstruct). */
  datatype Cfg = Cfg(imgpath: string, cmpath: string, lmpath: string, productpath: string,
                     probtabname: string)

  function KeyName(k: Key): string
  {
    match k
    case ImgPath => "IMGPATH"
    case CmPath => "CMPATH"
    case LmPath => "LMPATH"
    case ProductPath => "PRODUCTPATH"
    case ProbTabName => "PROBTABNAME"
  }

  function Field(c: Cfg, k: Key): string
  {
    match k
    case ImgPath => c.imgpath
    case CmPath => c.cmpath
    case LmPath => c.lmpath
    case ProductPath => c.productpath
    case ProbTabName => c.probtabname
  }

  function WithField(c: Cfg, k: Key, v: string): (r: Cfg)
    ensures forall k' :: Field(r, k') == if k' == k then v else Field(c, k')
  {
    match k
    case ImgPath => c.(imgpath := v)
    case CmPath => c.(cmpath := v)
    case LmPath => c.(lmpath := v)
    case ProductPath => c.(productpath := v)
    case ProbTabName => c.(probtabname := v)
  }

  /** The key comparisons of `decode_cfg`, in source order: the token only
      has to start with the key name. */
  function KeyOf(tok: string): Option<Key>
  {
    if StartsWith(tok, "IMGPATH") then Some(ImgPath)
    else if StartsWith(tok, "CMPATH") then Some(CmPath)
    else if StartsWith(tok, "LMPATH") then Some(LmPath)
    else if StartsWith(tok, "PRODUCTPATH") then Some(ProductPath)
    else if StartsWith(tok, "PROBTABNAME") then Some(ProbTabName)
    else None
  }

  /** No key name is a prefix of another, so the order of the comparisons
      does not matter: a token selects a key exactly when it starts with
      that key's name. */
  lemma KeyOfIsPrefixMatch(tok: string, k: Key)
    ensures KeyOf(tok) == Some(k) <==> StartsWith(tok, KeyName(k))
  {
    if StartsWith(tok, KeyName(k)) {
      forall k' | k' != k && StartsWith(tok, KeyName(k'))
        ensures false
      {
        NamesDiffer(k, k');
      }
      assert k != ImgPath ==> !StartsWith(tok, KeyName(ImgPath));
      assert k != CmPath ==> !StartsWith(tok, KeyName(CmPath));
      assert k != LmPath ==> !StartsWith(tok, KeyName(LmPath));
      assert k != ProductPath ==> !StartsWith(tok, KeyName(ProductPath));
    }
  }

  /** Two key names already differ in their first six characters. */
  lemma NamesDiffer(k: Key, k': Key)
    requires k != k'
    ensures |KeyName(k)| >= 6 && |KeyName(k')| >= 6 && KeyName(k)[..6] != KeyName(k')[..6]
  {
    if (k == ProductPath && k' == ProbTabName) || (k == ProbTabName && k' == ProductPath) {
      assert KeyName(k)[3] != KeyName(k')[3];
    } else {
      assert KeyName(k)[0] != KeyName(k')[0];
    }
  }

  /** Number of characters before the first newline (all of `s` if none). */
  function LineLength(s: string): (n: nat)
    ensures n <= |s|
    ensures n < |s| ==> s[n] == '\n'
    ensures forall k :: 0 <= k < n ==> s[k] != '\n'
  {
    if |s| == 0 || s[0] == '\n' then 0 else 1 + LineLength(s[1..])
  }

  /** Length of the piece one `fgets` call takes: up to and including the
      newline, but at most FILELEN - 1 characters. */
  function ChunkLength(s: string): (n: nat)
    requires |s| > 0
    ensures 1 <= n <= |s| && n <= FileLen - 1
  {
    var line := LineLength(s) + 1;
    var cap := if |s| < FileLen - 1 then |s| else FileLen - 1;
    if line < cap then line else cap
  }

  /** The pieces successive `fgets` calls return. A line longer than the
      buffer comes back in several pieces, each handled as a line. */
  function Chunks(s: string): (r: seq<string>)
    ensures forall i :: 0 <= i < |r| ==> 0 < |r[i]| < FileLen
    decreases |s|
  {
    if |s| == 0 then [] else [s[..ChunkLength(s)]] + Chunks(s[ChunkLength(s)..])
  }

  function Concat(ss: seq<string>): string
  {
    if |ss| == 0 then [] else ss[0] + Concat(ss[1..])
  }

  /** Reading by pieces loses and adds nothing: the pieces put back
      together are the file. */
  lemma {:induction false} ChunksRoundTrip(s: string)
    ensures Concat(Chunks(s)) == s
    decreases |s|
  {
    if |s| > 0 {
      var n := ChunkLength(s);
      var rest := Chunks(s[n..]);
      assert Chunks(s) == [s[..n]] + rest;
      assert ([s[..n]] + rest)[1..] == rest;
      ChunksRoundTrip(s[n..]);
      assert Concat(Chunks(s)) == s[..n] + s[n..];
      assert s[..n] + s[n..] == s;
    }
  }

  /** `fmremovenewline`: the value up to its first newline. */
  function RemoveNewline(t: string): string
  {
    t[..LineLength(t)]
  }

  /** What one piece does to the settings. */
  datatype Effect = Ignore | Assign(key: Key, value: string) | Broken

  /** A piece starting with '#' is skipped; one longer than the limit is
      an error; otherwise its first blank-separated token picks the key and
      the second token, without its newline, is the value. A piece of
      blanks only, or a key without a value, is an error; an unknown key
      is ignored. */
  function EffectOf(chunk: string): Effect
  {
    if |chunk| > 0 && chunk[0] == '#' then Ignore
    else if |chunk| > MaxLineLen then Broken
    else
      var toks := Tokens(chunk, true);
      if |toks| == 0 then Broken
      else match KeyOf(toks[0])
        case None => Ignore
        case Some(k) => if |toks| < 2 then Broken else Assign(k, RemoveNewline(toks[1]))
  }

  /** What each piece of a file does, in file order. */
  function Effects(chunks: seq<string>): (r: seq<Effect>)
    ensures |r| == |chunks| && forall i :: 0 <= i < |chunks| ==> r[i] == EffectOf(chunks[i])
  {
    seq(|chunks|, i requires 0 <= i < |chunks| => EffectOf(chunks[i]))
  }

  /** The value the last of the first `n` effects assigning `k` gives it,
      or `dflt` if none does. */
  function LastValue(effects: seq<Effect>, k: Key, n: int, dflt: string): string
    requires 0 <= n <= |effects|
  {
    if n == 0 then dflt
    else match effects[n - 1]
      case Assign(k', v) => if k' == k then v else LastValue(effects, k, n - 1, dflt)
      case _ => LastValue(effects, k, n - 1, dflt)
  }

  /** `decode_cfg` over the file's contents: it fails at the first bad
      piece, and otherwise each setting is the value of the last piece
      naming its key, or the initial one. */
  method DecodeCfg(content: string, cfg0: Cfg) returns (r: Result<Cfg>)
    ensures var es := Effects(Chunks(content));
            r.Fail? <==> exists i :: 0 <= i < |es| && es[i].Broken?
    ensures r.Fail? ==> r.failure == IoError
    ensures var es := Effects(Chunks(content));
            r.Ok? ==> forall k :: Field(r.value, k) == LastValue(es, k, |es|, Field(cfg0, k))
  {
    var es := Effects(Chunks(content));
    r := ApplyEffects(es, cfg0);
  }

  /** The effects applied in file order from `cfg0`, stopping at the first
      broken piece. */
  method ApplyEffects(effects: seq<Effect>, cfg0: Cfg) returns (r: Result<Cfg>)
    ensures r.Fail? <==> exists i :: 0 <= i < |effects| && effects[i].Broken?
    ensures r.Fail? ==> r.failure == IoError
    ensures r.Ok? ==> forall k :: Field(r.value, k) == LastValue(effects, k, |effects|, Field(cfg0, k))
  {
    var c := cfg0;
    var i := 0;
    while i < |effects|
      invariant 0 <= i <= |effects|
      invariant forall k :: Field(c, k) == LastValue(effects, k, i, Field(cfg0, k))
      invariant forall j :: 0 <= j < i ==> !effects[j].Broken?
    {
      var e := effects[i];
      if e.Broken? {
        return Fail(IoError);
      }
      var c' := if e.Assign? then WithField(c, e.key, e.value) else c;
      DecodeStep(effects, i, c, c', cfg0);
      c := c';
      i := i + 1;
    }
    return Ok(c);
  }

  /** One more effect changes the last value of `k` only if it assigns `k`. */
  lemma LastValueStep(effects: seq<Effect>, k: Key, i: int, dflt: string)
    requires 0 <= i < |effects|
    ensures LastValue(effects, k, i + 1, dflt) ==
            if effects[i].Assign? && effects[i].key == k then effects[i].value else LastValue(effects, k, i, dflt)
  {
  }

  lemma DecodeStep(effects: seq<Effect>, i: int, c: Cfg, c': Cfg, cfg0: Cfg)
    requires 0 <= i < |effects| && !effects[i].Broken?
    requires forall k :: Field(c, k) == LastValue(effects, k, i, Field(cfg0, k))
    requires c' == if effects[i].Assign? then WithField(c, effects[i].key, effects[i].value) else c
    ensures forall k :: Field(c', k) == LastValue(effects, k, i + 1, Field(cfg0, k))
  {
    forall k
      ensures Field(c', k) == LastValue(effects, k, i + 1, Field(cfg0, k))
    {
      LastValueStep(effects, k, i, Field(cfg0, k));
    }
  }

  // ---------------------------------------------------------------------
  // Area, satellite and land mask.

  /** The area codes looked for in the file name, in order, with the name
      part of their land mask file. */
  const AreaCodes: seq<string> := ["ns", "at", "nr", "gr"]
  const MaskNames: seq<string> := ["nse", "atl", "nrw", "grl"]

  /** The first area code (from position `i` on) contained in the name. */
  function FirstArea(fname: string, i: nat): (r: Option<nat>)
    requires i <= |AreaCodes|
    ensures r.Some? ==> i <= r.value < |AreaCodes| && Contains(fname, AreaCodes[r.value])
    ensures r.Some? ==> forall j :: i <= j < r.value ==> !Contains(fname, AreaCodes[j])
    ensures r.None? <==> forall j :: i <= j < |AreaCodes| ==> !Contains(fname, AreaCodes[j])
    decreases |AreaCodes| - i
  {
    if i == |AreaCodes| then None
    else if Contains(fname, AreaCodes[i]) then Some(i)
    else FirstArea(fname, i + 1)
  }

  /** The area of a scene file and the name part of its land mask; a name
      with no known area code stops the program. */
  function SelectArea(fname: string): (r: Result<(string, string)>)
    ensures r.Fail? <==> forall j :: 0 <= j < |AreaCodes| ==> !Contains(fname, AreaCodes[j])
    ensures r.Fail? ==> r.failure == AreaNotRecognised
    ensures r.Ok? ==> exists j :: 0 <= j < |AreaCodes| && r.value == (AreaCodes[j], MaskNames[j]) &&
                                  Contains(fname, AreaCodes[j]) &&
                                  forall k :: 0 <= k < j ==> !Contains(fname, AreaCodes[k])
  {
    match FirstArea(fname, 0)
    case None => Fail(AreaNotRecognised)
    case Some(j) => Ok((AreaCodes[j], MaskNames[j]))
  }

  /** Scenes of NOAA-15 and NOAA-16 are refused (their channel 3A is
      unusable operationally). */
  function CheckSatellite(sa: string): (r: Result<string>)
    ensures r.Ok? <==> !Contains(sa, "NOAA-15") && !Contains(sa, "NOAA-16")
    ensures r.Fail? ==> r.failure == SatDiscarded
    ensures r.Ok? ==> r.value == sa
  {
    if Contains(sa, "NOAA-15") || Contains(sa, "NOAA-16") then Fail(SatDiscarded) else Ok(sa)
  }

  /** Grid description of an image or a land mask: size and corners. */
  datatype Grid = Grid(iw: int, ih: int, aX: real, aY: real, bX: real, bY: real)

  /** `floorf(x * 10)`: the tenth-unit cell of a coordinate. */
  function Cell(x: real): int
  {
    (x * 10.0).Floor
  }

  /** The land mask fits the image: same size, corners in the same
      tenth-unit cell. */
  predicate MaskFits(lm: Grid, img: Grid)
  {
    Cell(lm.bX) == Cell(img.bX) && Cell(lm.bY) == Cell(img.bY) &&
    Cell(lm.aX) == Cell(img.aX) && Cell(lm.aY) == Cell(img.aY) &&
    lm.iw == img.iw && lm.ih == img.ih
  }

  /** Two coordinates in the same cell are less than a tenth apart. */
  lemma SameCellClose(x: real, y: real)
    requires Cell(x) == Cell(y)
    ensures -0.1 < x - y < 0.1
  {
    var c := Cell(x) as real;
    assert c <= x * 10.0 < c + 1.0;
    assert c <= y * 10.0 < c + 1.0;
  }

  /** The check tolerates corner differences below a tenth and nothing in
      the size; a grid always fits itself. */
  lemma MaskFitsMeaning(lm: Grid, img: Grid)
    ensures MaskFits(lm, img) ==>
              lm.iw == img.iw && lm.ih == img.ih &&
              -0.1 < lm.aX - img.aX < 0.1 && -0.1 < lm.aY - img.aY < 0.1 &&
              -0.1 < lm.bX - img.bX < 0.1 && -0.1 < lm.bY - img.bY < 0.1
    ensures MaskFits(img, img)
  {
    if MaskFits(lm, img) {
      SameCellClose(lm.aX, img.aX);
      SameCellClose(lm.aY, img.aY);
      SameCellClose(lm.bX, img.bX);
      SameCellClose(lm.bY, img.bY);
    }
  }
}

=== FILE: density.dfy ===
/** The conditional densities of the classifier: the guarded gamma
    density and the table lookup `findprob` that chooses between the
    normal and the gamma density. The closed forms themselves are library
    code and enter as parameters. */
module Density {
  import opened Wrappers
  import opened Ieee
  import opened Coeffs

  /** Largest shape parameter the gamma density accepts. */
  const AlphaMax: real := 170.0

  /** The closed-form densities: `normal(mean, sdev, x)` and
      `gammaForm(alpha, beta, x)`. */
  datatype Pdfs = Pdfs(normal: (real, real, Ext) -> Ext, gammaForm: (real, real, Ext) -> Ext)

  /** `gammapdf`: the closed form, guarded by two error codes returned as
      density values (-1 off the positive axis, -2 for a too large shape). */
  function GammaPdf(alpha: real, beta: real, x: Ext, gammaForm: (real, real, Ext) -> Ext): (r: Ext)
    ensures Le(x, Fin(0.0)) ==> r == Fin(-1.0)
    ensures !Le(x, Fin(0.0)) ==> r == if alpha > AlphaMax then Fin(-2.0) else gammaForm(alpha, beta, x)
  {
    if Le(x, Fin(0.0)) then Fin(-1.0)
    else if alpha > AlphaMax then Fin(-2.0)
    else gammaForm(alpha, beta, x)
  }

  /** In terms of the argument itself: the first guard catches every
      non-positive number including minus infinity, the guard on the shape
      comes second, and a NaN argument is not caught by the first guard. */
  lemma GammaDomain(alpha: real, beta: real, x: Ext, gammaForm: (real, real, Ext) -> Ext)
    ensures (x.Fin? && x.v <= 0.0) || x.NegInf? ==> GammaPdf(alpha, beta, x, gammaForm) == Fin(-1.0)
    ensures (x.Fin? && x.v > 0.0) || x.PosInf? || x.NaN? ==>
              GammaPdf(alpha, beta, x, gammaForm) ==
              (if alpha > AlphaMax then Fin(-2.0) else gammaForm(alpha, beta, x))
  {
  }

  /** An entry is usable when it has been read exactly once and names a
      density the lookup knows. */
  predicate Usable(feat: Feat)
  {
    feat.count == 1 && (feat.key == 'n' || feat.key == 'g')
  }

  /** `findprob`: evaluate the density an entry selects. An entry never
      read, read twice, or with an unknown key (including the disabled
      three-parameter gamma 't') stops the program. */
  function FindProb(feat: Feat, x: Ext, pdfs: Pdfs): (r: Result<Ext>)
    requires feat.count >= 0
    ensures r.Ok? <==> Usable(feat)
    ensures feat.count == 0 ==> r == Fail(CoefNotRead)
    ensures feat.count > 1 ==> r == Fail(CoefReadTwice)
    ensures feat.count == 1 && !Usable(feat) ==> r == Fail(UnknownPdfKey)
    ensures r.Ok? && feat.key == 'n' ==> r.value == pdfs.normal(feat.par1, feat.par2, x)
    ensures r.Ok? && feat.key == 'g' ==> r.value == GammaPdf(feat.par1, feat.par2, x, pdfs.gammaForm)
  {
    if feat.count == 0 then Fail(CoefNotRead)
    else if feat.count == 1 then
      (if feat.key == 'n' then Ok(pdfs.normal(feat.par1, feat.par2, x))
       else if feat.key == 'g' then Ok(GammaPdf(feat.par1, feat.par2, x, pdfs.gammaForm))
       else Fail(UnknownPdfKey))
    else Fail(CoefReadTwice)
  }

  /** Whether the lookup succeeds depends on the entry only, never on the
      observed value. */
  lemma FindProbOutcomeIgnoresValue(feat: Feat, x: Ext, y: Ext, pdfs: Pdfs)
    requires feat.count >= 0
    ensures FindProb(feat, x, pdfs).Ok? == FindProb(feat, y, pdfs).Ok?
    ensures FindProb(feat, x, pdfs).Fail? ==> FindProb(feat, x, pdfs) == FindProb(feat, y, pdfs)
  {
  }

  /** What the reader leaves decides the lookup: an entry loaded from the
      cleared table can be evaluated exactly when one line of the file
      named it and that line's key selects the normal or the gamma
      density; any other entry stops the program. */
  lemma LoadedEntryUsable(ks: seq<LineKind>, c: StatCoeffs, s: Surface, f: Feature, x: Ext, pdfs: Pdfs)
    requires Get(c, s, f).count == Get(Cleared, s, f).count + Naming(ks, s, f, |ks|)
    requires Carries(Get(c, s, f), Get(Cleared, s, f), LastNaming(ks, s, f, |ks|))
    ensures Get(c, s, f).count >= 0
    ensures FindProb(Get(c, s, f), x, pdfs).Ok? <==>
              Naming(ks, s, f, |ks|) == 1 && LastNaming(ks, s, f, |ks|).Some? &&
              LastNaming(ks, s, f, |ks|).value.key in {'n', 'g'}
  {
    NamingFacts(ks, s, f, |ks|);
  }
}

=== FILE: headers.dfy ===
/** The small helpers shared by the compositing drivers: the header
    comparison of the passes of one product and the matching of a file
    name against a list of satellite or tile names. */
module Headers {
  import opened Strings

  /** The header fields that `check_headers` compares. */
  datatype ProdHead = ProdHead(year: int, month: int, day: int, hour: int, minute: int,
                               source: string, product: string)

  /** Two headers describe the same pass of the same product. */
  predicate SamePass(h: ProdHead, g: ProdHead)
  {
    h.year == g.year && h.month == g.month && h.day == g.day && h.hour == g.hour &&
    h.minute == g.minute && h.source == g.source && h.product == g.product
  }

  /** `check_headers`: 10 when some header differs from the first one in
      time, source or product, 0 otherwise (also for zero or one header). */
  method CheckHeaders(heads: seq<ProdHead>) returns (icheck: int)
    ensures icheck == 0 || icheck == 10
    ensures icheck == 10 <==> exists i :: 0 <= i < |heads| && !SamePass(heads[i], heads[0])
  {
    icheck := 0;
    var i := 0;
    while i < |heads|
      invariant 0 <= i <= |heads|
      invariant icheck == 0 || icheck == 10
      invariant icheck == 10 <==> exists k :: 0 <= k < i && !SamePass(heads[k], heads[0])
    {
      if !SamePass(heads[i], heads[0]) {
        icheck := 10;
      }
      i := i + 1;
    }
  }

  /** The three shapes in which a list element is recognised in a file
      name: "_e_", "_e." or "e_", the last only when the name starts with
      the element's first character. */
  predicate ElemMatches(filename: string, e: string)
  {
    Contains(filename, "_" + e + "_") || Contains(filename, "_" + e + ".") ||
    (Contains(filename, e + "_") && |filename| > 0 && filename[0] == (e + "_")[0])
  }

  /** `check_sat_area`: 1 when some element of the list is recognised in
      the file name, 0 otherwise. */
  method CheckSatArea(elems: seq<string>, filename: string) returns (found: int)
    ensures found == 0 || found == 1
    ensures found == 1 <==> exists i :: 0 <= i < |elems| && ElemMatches(filename, elems[i])
  {
    var i := 0;
    while i < |elems|
      invariant 0 <= i <= |elems|
      invariant forall k :: 0 <= k < i ==> !ElemMatches(filename, elems[k])
    {
      if ElemMatches(filename, elems[i]) {
        return 1;
      }
      i := i + 1;
    }
    return 0;
  }

  /** `find_sat_area_index`: the first element recognised in the file
      name, or -1. It finds an element exactly when `check_sat_area`
      returns 1. */
  method FindSatAreaIndex(elems: seq<string>, filename: string) returns (idx: int)
    ensures -1 <= idx < |elems|
    ensures idx >= 0 ==> ElemMatches(filename, elems[idx])
    ensures idx >= 0 ==> forall k :: 0 <= k < idx ==> !ElemMatches(filename, elems[k])
    ensures idx == -1 <==> forall k :: 0 <= k < |elems| ==> !ElemMatches(filename, elems[k])
  {
    var i := 0;
    while i < |elems|
      invariant 0 <= i <= |elems|
      invariant forall k :: 0 <= k < i ==> !ElemMatches(filename, elems[k])
    {
      if ElemMatches(filename, elems[i]) {
        return i;
      }
      i := i + 1;
    }
    return -1;
  }

  /** The first element recognised in a file name, as a function. */
  function FirstMatch(elems: seq<string>, filename: string): (r: int)
    ensures -1 <= r < |elems|
    ensures r >= 0 ==> ElemMatches(filename, elems[r])
    ensures r >= 0 ==> forall k :: 0 <= k < r ==> !ElemMatches(filename, elems[k])
    ensures r == -1 <==> forall k :: 0 <= k < |elems| ==> !ElemMatches(filename, elems[k])
  {
    if |elems| == 0 then -1
    else if ElemMatches(filename, elems[0]) then 0
    else
      var r := FirstMatch(elems[1..], filename);
      assert forall k :: 1 <= k < |elems| ==> elems[k] == elems[1..][k - 1];
      if r < 0 then -1 else r + 1
  }
}

=== FILE: ieee.dfy ===
/** The part of IEEE 754 double arithmetic the classifier depends on: a
    value is finite, one of the two infinities, or NaN. Finite values are
    exact reals (no rounding, no overflow) and the sign of zero is not
    tracked. */
module Ieee {

  datatype Ext = Fin(v: real) | PosInf | NegInf | NaN {
    predicate IsFinite() { Fin? }
  }

  /** Sign of a non-NaN value: -1, 0 or 1. */
  function Sgn(x: Ext): int
    requires !x.NaN?
  {
    match x
    case PosInf => 1
    case NegInf => -1
    case Fin(v) => if v > 0.0 then 1 else if v < 0.0 then -1 else 0
  }

  /** The infinity of sign `s`; a sign of zero means an indeterminate form. */
  function Signed(s: int): (r: Ext)
    ensures r.NaN? <==> s == 0
  {
    if s > 0 then PosInf else if s < 0 then NegInf else NaN
  }

  function Add(x: Ext, y: Ext): (r: Ext)
    ensures x.IsFinite() && y.IsFinite() ==> r == Fin(x.v + y.v)
    ensures r.NaN? <==> x.NaN? || y.NaN? || (x.PosInf? && y.NegInf?) || (x.NegInf? && y.PosInf?)
  {
    if x.NaN? || y.NaN? then NaN
    else if x.Fin? && y.Fin? then Fin(x.v + y.v)
    else if x.Fin? then y
    else if y.Fin? || x == y then x
    else NaN
  }

  function Mul(x: Ext, y: Ext): (r: Ext)
    ensures x.IsFinite() && y.IsFinite() ==> r == Fin(x.v * y.v)
    ensures x.NaN? || y.NaN? ==> r.NaN?
  {
    if x.NaN? || y.NaN? then NaN
    else if x.Fin? && y.Fin? then Fin(x.v * y.v)
    else Signed(Sgn(x) * Sgn(y))
  }

  /** Division; a zero divisor is taken as +0. */
  function Div(x: Ext, d: Ext): (r: Ext)
    ensures x.IsFinite() && d.IsFinite() && d.v != 0.0 ==> r == Fin(x.v / d.v)
    ensures x.IsFinite() && d.IsFinite() && d.v == 0.0 ==>
              (r.PosInf? <==> x.v > 0.0) && (r.NegInf? <==> x.v < 0.0) && (r.NaN? <==> x.v == 0.0)
    ensures x.NaN? || d.NaN? ==> r.NaN?
    ensures r.Fin? ==> x.Fin?
  {
    if x.NaN? || d.NaN? then NaN
    else if x.Fin? && d.Fin? then (if d.v != 0.0 then Fin(x.v / d.v) else Signed(Sgn(x)))
    else if x.Fin? then Fin(0.0)
    else if d.Fin? then Signed(Sgn(x) * (if d.v < 0.0 then -1 else 1))
    else NaN
  }

  /** Position in the extended order; only meaningful off NaN. */
  function Rank(x: Ext): int
  {
    match x
    case NegInf => -1
    case PosInf => 1
    case _ => 0
  }

  /** IEEE `<`: false whenever NaN is involved. */
  predicate Lt(x: Ext, y: Ext)
  {
    !x.NaN? && !y.NaN? &&
    (if x.Fin? && y.Fin? then x.v < y.v else Rank(x) < Rank(y))
  }

  /** IEEE `<=`: false whenever NaN is involved. */
  predicate Le(x: Ext, y: Ext)
  {
    Lt(x, y) || (!x.NaN? && x == y)
  }

  /** The comparisons never hold with NaN, and on finite values they are
      the order of the reals. */
  lemma CompareFacts(x: Ext, y: Ext)
    ensures x.NaN? || y.NaN? ==> !Lt(x, y) && !Le(x, y) && !Lt(y, x) && !Le(y, x)
    ensures x.IsFinite() && y.IsFinite() ==> (Lt(x, y) <==> x.v < y.v) && (Le(x, y) <==> x.v <= y.v)
    ensures Lt(x, y) ==> !Le(y, x)
  {
  }
}

=== FILE: merge.dfy ===
/** `average_merge_files` over a whole grid: the passes are read one after
    the other, every pixel of a readable pass is folded into that pixel's
    accumulators, and at the end every pixel is reduced. The method keeps
    the pass-major loop order of the source; its contract says that the
    result is, pixel by pixel, the per-pixel composite of modules
    Compositor and Reduction. */
module MergeFiles {
  import opened Wrappers
  import opened Compositor
  import opened Reduction

  /** One satellite pass as the merge sees it: a file that could not be
      read, or the probability triples of its grid in element order. */
  datatype PassFile = Unread | Loaded(pixels: seq<Triple>)

  /** What pass `f` says about grid element `e`. A pass whose grid is
      smaller than the output grid says nothing about the elements beyond
      its own. */
  function ObsAt(f: PassFile, e: int): Obs
  {
    if f.Loaded? && 0 <= e < |f.pixels| then Read(f.pixels[e]) else Unreadable
  }

  /** The passes of grid element `e`, in the order the files are given. */
  function Column(passes: seq<PassFile>, e: int): seq<Obs>
  {
    seq(|passes|, p requires 0 <= p < |passes| => ObsAt(passes[p], e))
  }

  /** The merged product: one reduced pixel per grid element, and the
      per-pixel count of cloud-free passes (the `numCloudfree` output
      parameter of the newer copy of the routine). */
  datatype Merged = Merged(pixels: seq<PixelOut>, numCloudfree: seq<int>)

  /** A pass grid is no larger than the output grid (the drivers check
      that all files of a tile share one grid before merging). */
  predicate FitsGrid(passes: seq<PassFile>, size: int)
  {
    forall p :: 0 <= p < |passes| && passes[p].Loaded? ==> |passes[p].pixels| <= size
  }

  /** Folds one readable or unreadable pass into the accumulators of
      every grid element, element by element as the pixel loop of the
      source does; the first pixel without ice or clear mass aborts. */
  method FoldPass(passes: seq<PassFile>, pn: int, size: nat, cloudlim: real, accs0: seq<Acc>)
    returns (r: Result<seq<Acc>>)
    requires 0 <= pn < |passes| && FitsGrid(passes, size)
    requires |accs0| == size
    requires forall e :: 0 <= e < size ==> FoldUpTo(Column(passes, e), pn, cloudlim) == Ok(accs0[e])
    ensures r.Ok? ==> |r.value| == size
    ensures r.Ok? ==> forall e :: 0 <= e < size ==>
              FoldUpTo(Column(passes, e), pn + 1, cloudlim) == Ok(r.value[e])
    ensures r.Fail? ==> r.failure == DivideByZero
    ensures r.Fail? ==> exists e :: 0 <= e < size && AnyAborts(Column(passes, e), cloudlim)
  {
    var accs := accs0;
    var n := 0;
    if passes[pn].Loaded? {
      var px := passes[pn].pixels;
      n := |px|;
      var e := 0;
      while e < n
        invariant 0 <= e <= n
        invariant |accs| == size
        invariant forall j :: 0 <= j < e ==>
                    FoldUpTo(Column(passes, j), pn + 1, cloudlim) == Ok(accs[j])
        invariant forall j :: e <= j < size ==>
                    FoldUpTo(Column(passes, j), pn, cloudlim) == Ok(accs[j])
      {
        assert Column(passes, e)[pn] == Read(px[e]);
        var s := Step(accs[e], Read(px[e]), cloudlim);
        if s.Fail? {
          FoldFails(Column(passes, e), pn + 1, cloudlim);
          return Fail(s.failure);
        }
        accs := accs[e := s.value];
        e := e + 1;
      }
    }
    forall j | n <= j < size
      ensures FoldUpTo(Column(passes, j), pn + 1, cloudlim) == Ok(accs[j])
    {
      assert Column(passes, j)[pn] == Unreadable;
      StepBranches(accs[j], Unreadable, cloudlim, Step(accs[j], Unreadable, cloudlim));
    }
    r := Ok(accs);
  }

  /** Once every pass is folded in without an abort, no column aborts and
      every element holds the fold of its column. */
  lemma AllPassesFolded(passes: seq<PassFile>, cloudlim: real, accs: seq<Acc>)
    requires forall e :: 0 <= e < |accs| ==>
               FoldUpTo(Column(passes, e), |passes|, cloudlim) == Ok(accs[e])
    ensures forall e :: 0 <= e < |accs| ==>
              !AnyAborts(Column(passes, e), cloudlim) && Fold(Column(passes, e), cloudlim) == Ok(accs[e])
  {
    forall e | 0 <= e < |accs|
      ensures !AnyAborts(Column(passes, e), cloudlim)
    {
      FoldFails(Column(passes, e), |passes|, cloudlim);
    }
  }

  /** The pass loop: every pass in turn, starting from empty accumulators.
      It fails exactly when the fold of some grid element aborts, and
      otherwise leaves every element with the fold of its column. */
  method AccumulatePasses(passes: seq<PassFile>, size: nat, cloudlim: real)
    returns (r: Result<seq<Acc>>)
    requires FitsGrid(passes, size)
    ensures r.Fail? <==> exists e :: 0 <= e < size && AnyAborts(Column(passes, e), cloudlim)
    ensures r.Fail? ==> r.failure == DivideByZero
    ensures r.Ok? ==> |r.value| == size
    ensures r.Ok? ==> forall e :: 0 <= e < size ==> Fold(Column(passes, e), cloudlim) == Ok(r.value[e])
  {
    var accs := seq(size, _ => Empty);
    forall e | 0 <= e < size
      ensures FoldUpTo(Column(passes, e), 0, cloudlim) == Ok(accs[e])
    {
    }
    var pn := 0;
    while pn < |passes|
      invariant 0 <= pn <= |passes|
      invariant |accs| == size
      invariant forall e :: 0 <= e < size ==> FoldUpTo(Column(passes, e), pn, cloudlim) == Ok(accs[e])
    {
      var s := FoldPass(passes, pn, size, cloudlim, accs);
      if s.Fail? {
        return s;
      }
      accs := s.value;
      pn := pn + 1;
    }
    AllPassesFolded(passes, cloudlim, accs);
    r := Ok(accs);
  }

  /** The reduction loop: every element's accumulators reduced in turn.
      Valid accumulators never trip the consistency checks. */
  method ReduceGrid(accs: seq<Acc>, probIce0: seq<real>, probClear0: seq<real>)
    returns (m: Merged)
    requires forall e :: 0 <= e < |accs| ==> Valid(accs[e])
    requires |probIce0| == |accs| && |probClear0| == |accs|
    ensures |m.pixels| == |accs| && |m.numCloudfree| == |accs|
    ensures forall e :: 0 <= e < |accs| ==>
              Finalize(accs[e], probIce0[e], probClear0[e]) == Ok(m.pixels[e])
    ensures forall e :: 0 <= e < |accs| ==> m.numCloudfree[e] == accs[e].numCloudfree
  {
    var outs: seq<PixelOut> := [];
    var cfs: seq<int> := [];
    var e := 0;
    while e < |accs|
      invariant 0 <= e <= |accs|
      invariant |outs| == e && |cfs| == e
      invariant forall j :: 0 <= j < e ==> Finalize(accs[j], probIce0[j], probClear0[j]) == Ok(outs[j])
      invariant forall j :: 0 <= j < e ==> cfs[j] == accs[j].numCloudfree
    {
      var f := Finalize(accs[e], probIce0[e], probClear0[e]);
      outs := outs + [f.value];
      cfs := cfs + [accs[e].numCloudfree];
      e := e + 1;
    }
    m := Merged(outs, cfs);
  }

  /** The newer `average_merge_files`. `probIce0` and `probClear0` are the
      values the caller stored in the probability layers beforehand; a
      pixel without a cloud-free pass keeps them. The merge fails (return
      code 8) exactly when some pixel has a pass without ice or clear
      mass below the cloud limit; otherwise every pixel is the composite
      of its own column of passes. */
  method AverageMergeFiles(passes: seq<PassFile>, size: nat, cloudlim: real,
                           probIce0: seq<real>, probClear0: seq<real>)
    returns (r: Result<Merged>)
    requires FitsGrid(passes, size)
    requires |probIce0| == size && |probClear0| == size
    ensures r.Fail? <==> exists e :: 0 <= e < size && AnyAborts(Column(passes, e), cloudlim)
    ensures r.Fail? ==> r.failure == DivideByZero
    ensures r.Ok? ==> |r.value.pixels| == size && |r.value.numCloudfree| == size
    ensures r.Ok? ==> forall e :: 0 <= e < size ==>
              CompositePixel(Column(passes, e), cloudlim, probIce0[e], probClear0[e])
                == Ok(r.value.pixels[e])
    ensures r.Ok? ==> forall e :: 0 <= e < size ==>
              r.value.numCloudfree[e] == Count(Column(passes, e), CloudFree, |passes|, cloudlim)
  {
    var s := AccumulatePasses(passes, size, cloudlim);
    if s.Fail? {
      return Fail(s.failure);
    }
    var accs := s.value;
    var m := ReduceGrid(accs, probIce0, probClear0);
    forall e | 0 <= e < size
      ensures m.numCloudfree[e] == Count(Column(passes, e), CloudFree, |passes|, cloudlim)
    {
      FoldCounts(Column(passes, e), cloudlim);
    }
    r := Ok(m);
  }

  /** The older copy of the routine (used by the cryorisk driver): the same
      merge, without the count of cloud-free passes. */
  method AverageMergeFilesLegacy(passes: seq<PassFile>, size: nat, cloudlim: real,
                                 probIce0: seq<real>, probClear0: seq<real>)
    returns (r: Result<seq<PixelOut>>)
    requires FitsGrid(passes, size)
    requires |probIce0| == size && |probClear0| == size
    ensures r.Fail? <==> exists e :: 0 <= e < size && AnyAborts(Column(passes, e), cloudlim)
    ensures r.Fail? ==> r.failure == DivideByZero
    ensures r.Ok? ==> |r.value| == size
    ensures r.Ok? ==> forall e :: 0 <= e < size ==>
              CompositePixel(Column(passes, e), cloudlim, probIce0[e], probClear0[e]) == Ok(r.value[e])
  {
    var m := AverageMergeFiles(passes, size, cloudlim, probIce0, probClear0);
    match m
    case Fail(f) => r := Fail(f);
    case Ok(v) => r := Ok(v.pixels);
  }
}

=== FILE: pixel.dfy ===
/** `process_pixels4ice`: the per-pixel gates (night, no coverage,
    channel 3A saturation), the Bayes estimate, the acceptance of its
    result, the 21-level class and the arg-max category. */
module Pixel {
  import opened Wrappers
  import opened Ieee
  import opened Coeffs
  import opened Density
  import opened Probest
  import Quantize

  /** Solar zenith angle (degrees) from which a pixel counts as night. */
  const SunZenithMax: real := 85.0

  /** Sentinels written to the probability layers. */
  const MisNoCov: real := -991.0
  const MisNight: real := -990.0
  const Mis3A: real := -993.0

  /** Reflectance value of a channel that is not calibrated. */
  const Unavailable: real := -999.0

  /** Category codes of the classifier (ICE, CLEAR, CLOUD, UNCL) and the
      initial "undefined" code. */
  const CatIce: int := 1
  const CatClear: int := 2
  const CatCloud: int := 3
  const CatUncl: int := 4
  const CatUndef: int := 5

  /** One pixel of the input image: solar zenith angle, the six channel
      counts (channels 1, 2, 3B, 4, 5, 3A), the land mask value if a mask
      is in use, and the weather prediction 2 m temperature. */
  datatype PixelIn = PixelIn(zsun: real, ch: seq<int>, lmask: Option<int>, t0m: real)

  /** The image-wide calibration: number of channels, count-to-reflectance
      and count-to-temperature conversions, and the estimate of the
      reflective part of channel 3B from (T3, T4, zenith angle). */
  datatype Sensor = Sensor(channels: int, refl: int -> real, temp: int -> real,
                           ch3bRefl: (real, real, real) -> real)

  /** What one pixel contributes to the output: class, category and the
      three probability layers. */
  datatype Classified = Classified(cls: int, cat: int, pice: Ext, pfree: Ext, pcloud: Ext)

  /** A pixel left unclassified with a sentinel in all three layers. */
  function Missing(code: real): Classified
  {
    Classified(0, CatUndef, Fin(code), Fin(code), Fin(code))
  }

  /** Channel 3B is used when it has a signal and channel 3A has none. */
  predicate Daytime3b(px: PixelIn)
    requires |px.ch| == 6
  {
    px.ch[2] > 0 && px.ch[5] == 0
  }

  /** The channel 3A saturation gate. */
  predicate ThreeASaturated(px: PixelIn)
    requires |px.ch| == 6
  {
    !Daytime3b(px) && px.ch[5] == 0 && px.ch[3] > 50
  }

  /** The pixel reaches the estimate: day, covered, not saturated. */
  predicate Estimated(px: PixelIn)
    requires |px.ch| == 6
  {
    px.zsun < SunZenithMax && !(px.ch[3] == 0 && px.ch[4] == 0) && !ThreeASaturated(px)
  }

  /** The quantities handed to the estimate. Reflectances are calibrated
      only for images with more than three channels. */
  function Params(px: PixelIn, sensor: Sensor, env: Env): (p: PixelParams)
    requires |px.ch| == 6
    ensures p.daytime3b == Daytime3b(px)
    ensures sensor.channels <= 3 ==> p.a1 == p.a2 == p.a3 == Unavailable
    ensures p.tdiff == if env.haveNwp then px.t0m - p.t4 else 0.0
    ensures p.lmask == if px.lmask.Some? then px.lmask.value else 0
  {
    var calibrated := sensor.channels > 3;
    var t3 := sensor.temp(px.ch[2]);
    var t4 := sensor.temp(px.ch[3]);
    PixelParams(
      if calibrated then sensor.refl(px.ch[0]) else Unavailable,
      if calibrated then sensor.refl(px.ch[1]) else Unavailable,
      if calibrated then sensor.refl(px.ch[5]) else Unavailable,
      if Daytime3b(px) then sensor.ch3bRefl(t3, t4, px.zsun) else Unavailable,
      t3, t4, px.zsun,
      if env.haveNwp then px.t0m - t4 else 0.0,
      if px.lmask.Some? then px.lmask.value else 0,
      Daytime3b(px))
  }

  /** Sum of the three posteriors in the order the source adds them. */
  function PosteriorSum(q: Posterior): Ext
  {
    Add(Add(q.pice, q.pfree), q.pcloud)
  }

  /** The acceptance test as written: reject a sum below 0.95 or above
      1.05, then reject a NaN posterior. Comparisons with NaN are false. */
  predicate AcceptAsWritten(q: Posterior)
  {
    !(Lt(PosteriorSum(q), Fin(0.95)) || Lt(Fin(1.05), PosteriorSum(q))) &&
    !q.pice.NaN? && !q.pfree.NaN? && !q.pcloud.NaN?
  }

  /** The test as written lets infinite posteriors through: numerators
      1, -1/2, -1/2 (possible once a gamma density returns its error code
      -1) sum to zero, the posteriors are +inf, -inf, -inf, their sum is
      NaN, and neither the range test nor the NaN test fires. */
  lemma AcceptAsWrittenLetsInfinityThrough()
    ensures Normalise(Fin(1.0), Fin(-0.5), Fin(-0.5)) == Posterior(PosInf, NegInf, NegInf)
    ensures AcceptAsWritten(Posterior(PosInf, NegInf, NegInf))
    ensures CatOf(Posterior(PosInf, NegInf, NegInf)) == CatIce
  {
    assert Add(Add(Fin(1.0), Fin(-0.5)), Fin(-0.5)) == Fin(0.0);
    assert PosteriorSum(Posterior(PosInf, NegInf, NegInf)) == NaN;
  }

  /** The corrected test: in addition every posterior must be finite. */
  predicate Accept(q: Posterior)
  {
    AcceptAsWritten(q) && q.AllFinite()
  }

  /** An accepted posterior is three finite numbers summing to between
      0.95 and 1.05, and every such posterior is accepted. */
  lemma AcceptMeansFiniteNearOne(q: Posterior)
    ensures Accept(q) <==> q.AllFinite() && 0.95 <= q.pice.v + q.pfree.v + q.pcloud.v <= 1.05
  {
    if q.AllFinite() {
      assert PosteriorSum(q) == Fin(q.pice.v + q.pfree.v + q.pcloud.v);
    }
  }

  /** Class of the ice probability; a non-finite value is class 0. */
  function ClassOf(x: Ext): (k: nat)
    ensures x.Fin? ==> Quantize.InLevel(x.v, k)
    ensures !x.Fin? ==> k == 0
    ensures k <= Quantize.Levels
  {
    match x
    case Fin(v) => Quantize.BucketIsLevel(v, 0); Quantize.BucketRange(v); Quantize.Bucket(v)
    case _ => 0
  }

  /** Category: a class whose posterior beats both others; ties give UNCL. */
  function CatOf(q: Posterior): int
  {
    if Lt(q.pfree, q.pice) && Lt(q.pcloud, q.pice) then CatIce
    else if Lt(q.pice, q.pfree) && Lt(q.pcloud, q.pfree) then CatClear
    else if Lt(q.pice, q.pcloud) && Lt(q.pfree, q.pcloud) then CatCloud
    else CatUncl
  }

  /** The category chain is an arg-max: each of the first three codes is
      given exactly when that class is the strict maximum, UNCL exactly
      when there is no strict maximum. */
  lemma CatOfIsStrictMax(q: Posterior)
    ensures CatOf(q) == CatIce <==> Lt(q.pfree, q.pice) && Lt(q.pcloud, q.pice)
    ensures CatOf(q) == CatClear <==> Lt(q.pice, q.pfree) && Lt(q.pcloud, q.pfree)
    ensures CatOf(q) == CatCloud <==> Lt(q.pice, q.pcloud) && Lt(q.pfree, q.pcloud)
    ensures CatOf(q) == CatUncl <==>
              !(Lt(q.pfree, q.pice) && Lt(q.pcloud, q.pice)) &&
              !(Lt(q.pice, q.pfree) && Lt(q.pcloud, q.pfree)) &&
              !(Lt(q.pice, q.pcloud) && Lt(q.pfree, q.pcloud))
  {
    CompareFacts(q.pice, q.pfree);
    CompareFacts(q.pice, q.pcloud);
    CompareFacts(q.pfree, q.pcloud);
  }

  /** The output of a pixel whose estimate `q` passed the acceptance test. */
  function Categorised(q: Posterior): Classified
  {
    Classified(ClassOf(q.pice), CatOf(q), q.pice, q.pfree, q.pcloud)
  }

  /** One pixel, with the acceptance test as written. A lookup failure in
      the estimate stops the whole program. */
  function ProcessPixel(px: PixelIn, sensor: Sensor, cof: StatCoeffs, env: Env): (r: Result<Classified>)
    requires |px.ch| == 6
    requires Counted(cof)
    ensures !(px.zsun < SunZenithMax) ==> r == Ok(Missing(MisNight))
    ensures px.zsun < SunZenithMax && px.ch[3] == 0 && px.ch[4] == 0 ==> r == Ok(Missing(MisNoCov))
    ensures r.Fail? <==> Estimated(px) && Estimate(Params(px, sensor, env), cof, env).Fail?
    ensures r.Ok? ==> 0 <= r.value.cls <= Quantize.Levels && CatIce <= r.value.cat <= CatUndef
    ensures r.Ok? && r.value.cat != CatUndef ==>
              Estimated(px) && AcceptAsWritten(Posterior(r.value.pice, r.value.pfree, r.value.pcloud)) &&
              (r.value.pice.Fin? ==> Quantize.InLevel(r.value.pice.v, r.value.cls)) &&
              (!r.value.pice.Fin? ==> r.value.cls == 0)
  {
    if !(px.zsun < SunZenithMax) then Ok(Missing(MisNight))
    else if px.ch[3] == 0 && px.ch[4] == 0 then Ok(Missing(MisNoCov))
    else if ThreeASaturated(px) then Ok(Missing(Mis3A))
    else
      var q :- Estimate(Params(px, sensor, env), cof, env);
      if !AcceptAsWritten(q) then Ok(Missing(MisNoCov))
      else Ok(Categorised(q))
  }

  /** A categorised pixel carries the estimate's posteriors unchanged and
      the category of their strict maximum; when the three are finite they
      sum to exactly one (as written, infinite ones can be categorised). */
  lemma ClassifiedPixel(px: PixelIn, sensor: Sensor, cof: StatCoeffs, env: Env)
    requires |px.ch| == 6
    requires Counted(cof)
    requires ProcessPixel(px, sensor, cof, env).Ok?
    requires ProcessPixel(px, sensor, cof, env).value.cat != CatUndef
    ensures var c := ProcessPixel(px, sensor, cof, env).value;
            var q := Estimate(Params(px, sensor, env), cof, env);
            q.Ok? && q.value == Posterior(c.pice, c.pfree, c.pcloud) &&
            (q.value.AllFinite() ==> c.pice.v + c.pfree.v + c.pcloud.v == 1.0) &&
            (c.cat == CatIce <==> Lt(c.pfree, c.pice) && Lt(c.pcloud, c.pice)) &&
            (c.cat == CatClear <==> Lt(c.pice, c.pfree) && Lt(c.pcloud, c.pfree)) &&
            (c.cat == CatCloud <==> Lt(c.pice, c.pcloud) && Lt(c.pfree, c.pcloud))
  {
    var p := Params(px, sensor, env);
    var q := Estimate(p, cof, env).value;
    if q.AllFinite() {
      EstimateFiniteSumsToOne(p, cof, env);
    }
    CatOfIsStrictMax(q);
  }

  /** A pixel keeps class 0 and the undefined category exactly when it is
      not estimated or its posteriors fail the test as written; a rejected
      estimate leaves the no-coverage sentinel in all three layers. */
  lemma UnclassifiedPixel(px: PixelIn, sensor: Sensor, cof: StatCoeffs, env: Env)
    requires |px.ch| == 6
    requires Counted(cof)
    ensures var r, q := ProcessPixel(px, sensor, cof, env), Estimate(Params(px, sensor, env), cof, env);
            (r.Ok? && r.value.cat == CatUndef) <==> !Estimated(px) || (q.Ok? && !AcceptAsWritten(q.value))
    ensures var r := ProcessPixel(px, sensor, cof, env);
            r.Ok? && r.value.cat == CatUndef ==> r.value.cls == 0
    ensures var r, q := ProcessPixel(px, sensor, cof, env), Estimate(Params(px, sensor, env), cof, env);
            Estimated(px) && q.Ok? && !AcceptAsWritten(q.value) ==> r == Ok(Missing(MisNoCov))
  {
    var q := Estimate(Params(px, sensor, env), cof, env);
    if Estimated(px) && q.Ok? && AcceptAsWritten(q.value) {
      CatOfIsStrictMax(q.value);
    }
  }

  /** Infinite posteriors (+inf, -inf, -inf), which the numerators
      1, -1/2, -1/2 produce, are written to the layers as they are, with
      class 0 and category ICE; the corrected pixel operation marks the
      pixel as not covered instead. */
  lemma InfiniteEstimateIsIce(px: PixelIn, sensor: Sensor, cof: StatCoeffs, env: Env)
    requires |px.ch| == 6
    requires Counted(cof)
    requires Estimated(px)
    requires Estimate(Params(px, sensor, env), cof, env) == Ok(Posterior(PosInf, NegInf, NegInf))
    ensures ProcessPixel(px, sensor, cof, env) == Ok(Classified(0, CatIce, PosInf, NegInf, NegInf))
    ensures ProcessPixelCorrected(px, sensor, cof, env) == Ok(Missing(MisNoCov))
  {
    AcceptAsWrittenLetsInfinityThrough();
  }

  /** One pixel with the corrected acceptance test: a categorised pixel
      has three finite posteriors summing to one. */
  function ProcessPixelCorrected(px: PixelIn, sensor: Sensor, cof: StatCoeffs, env: Env)
    : (r: Result<Classified>)
    requires |px.ch| == 6
    requires Counted(cof)
    ensures r.Fail? <==> Estimated(px) && Estimate(Params(px, sensor, env), cof, env).Fail?
    ensures r.Ok? ==> 0 <= r.value.cls <= Quantize.Levels && CatIce <= r.value.cat <= CatUndef
    ensures r.Ok? && r.value.cat != CatUndef ==>
              Estimated(px) && Accept(Posterior(r.value.pice, r.value.pfree, r.value.pcloud)) &&
              r.value.pice.v + r.value.pfree.v + r.value.pcloud.v == 1.0 &&
              Quantize.InLevel(r.value.pice.v, r.value.cls)
  {
    if !Estimated(px) then ProcessPixel(px, sensor, cof, env)
    else
      var q :- Estimate(Params(px, sensor, env), cof, env);
      if !Accept(q) then Ok(Missing(MisNoCov))
      else
        EstimateFiniteSumsToOne(Params(px, sensor, env), cof, env);
        Ok(Categorised(q))
  }

  /** The two pixel operations differ exactly on a pixel whose posteriors
      pass the test as written while one of them is infinite; the
      corrected one then marks the pixel as not covered. */
  lemma CorrectedDiffersOnlyOnInfinity(px: PixelIn, sensor: Sensor, cof: StatCoeffs, env: Env)
    requires |px.ch| == 6
    requires Counted(cof)
    ensures var q := Estimate(Params(px, sensor, env), cof, env);
            ProcessPixelCorrected(px, sensor, cof, env) != ProcessPixel(px, sensor, cof, env) <==>
              Estimated(px) && q.Ok? && AcceptAsWritten(q.value) && !q.value.AllFinite()
    ensures ProcessPixelCorrected(px, sensor, cof, env) != ProcessPixel(px, sensor, cof, env) ==>
              ProcessPixelCorrected(px, sensor, cof, env) == Ok(Missing(MisNoCov))
  {
    var q := Estimate(Params(px, sensor, env), cof, env);
    if Estimated(px) && q.Ok? && AcceptAsWritten(q.value) {
      CatOfIsStrictMax(q.value);
    }
  }

  /** The gates in order: night first, then no coverage, then channel 3A
      saturation, each with its own sentinel. */
  lemma GateOrder(px: PixelIn, sensor: Sensor, cof: StatCoeffs, env: Env)
    requires |px.ch| == 6
    requires Counted(cof)
    ensures !Estimated(px) ==>
              ProcessPixel(px, sensor, cof, env) ==
              Ok(Missing(if !(px.zsun < SunZenithMax) then MisNight
                         else if px.ch[3] == 0 && px.ch[4] == 0 then MisNoCov
                         else Mis3A))
  {
  }

  /** `process_pixels4ice` over a whole image: every pixel independently,
      stopping at the first lookup failure. */
  method ProcessImage(pixels: seq<PixelIn>, sensor: Sensor, cof: StatCoeffs, env: Env)
    returns (r: Result<seq<Classified>>)
    requires forall i :: 0 <= i < |pixels| ==> |pixels[i].ch| == 6
    requires Counted(cof)
    ensures r.Fail? <==> exists i :: 0 <= i < |pixels| && ProcessPixel(pixels[i], sensor, cof, env).Fail?
    ensures r.Ok? ==> |r.value| == |pixels|
    ensures r.Ok? ==> forall i :: 0 <= i < |pixels| ==> ProcessPixel(pixels[i], sensor, cof, env) == Ok(r.value[i])
  {
    var out: seq<Classified> := [];
    var i := 0;
    while i < |pixels|
      invariant 0 <= i <= |pixels| && |out| == i
      invariant forall k :: 0 <= k < i ==> ProcessPixel(pixels[k], sensor, cof, env) == Ok(out[k])
    {
      var c := ProcessPixel(pixels[i], sensor, cof, env);
      if c.Fail? {
        return Fail(c.failure);
      }
      out := out + [c.value];
      i := i + 1;
    }
    return Ok(out);
  }
}

=== FILE: probest.dfy ===
/** `probest`: the naive Bayes estimate of the ice, ice-free and cloud
    probabilities of one pixel from its features and the coefficient
    table. */
module Probest {
  import opened Wrappers
  import opened Ieee
  import opened Coeffs
  import opened Density

  /** The prior of each of the three classes. */
  const Prior: real := 0.5

  /** The per-pixel quantities the estimate reads (pinpstr). */
  datatype PixelParams = PixelParams(a1: real, a2: real, a3: real, a3b: real, t3: real, t4: real,
                                     soz: real, tdiff: real, lmask: int, daytime3b: bool)

  /** The three posterior probabilities (probstr). */
  datatype Posterior = Posterior(pice: Ext, pfree: Ext, pcloud: Ext) {
    predicate AllFinite() { pice.Fin? && pfree.Fin? && pcloud.Fin? }
  }

  /** The library and build environment: the closed-form densities, the
      cosine of an angle given in degrees, and whether support for
      numerical weather prediction fields is compiled in. */
  datatype Env = Env(pdfs: Pdfs, cosDeg: real -> real, haveNwp: bool)

  /** The feature values. `r3` is the channel 3B ratio on a daytime-3B
      pixel and the channel 3A ratio otherwise. */
  datatype Features = Features(a1: Ext, r21: Ext, d34: Ext, r3: Ext, dt: Ext)

  /** Every entry of the table has a non-negative read count. */
  predicate Counted(cof: StatCoeffs)
  {
    forall s, f :: Get(cof, s, f).count >= 0
  }

  function FeaturesOf(p: PixelParams, env: Env): (x: Features)
    ensures x.r21 == Div(Fin(p.a2), Fin(p.a1))
    ensures x.r3 == Div(Fin(if p.daytime3b then p.a3b else p.a3), Fin(p.a1))
  {
    Features(Div(Fin(p.a1), Fin(env.cosDeg(p.soz))),
             Div(Fin(p.a2), Fin(p.a1)),
             Fin(p.t3 - p.t4),
             if p.daytime3b then Div(Fin(p.a3b), Fin(p.a1)) else Div(Fin(p.a3), Fin(p.a1)),
             Fin(p.tdiff))
  }

  /** The surface standing for "ice free": land where the land mask says
      land, water otherwise (including when no mask is in use). */
  function FreeSurface(lmask: int): Surface
  {
    if lmask > 1 then Land else Water
  }

  /** The features looked up for a surface. */
  predicate Consults(daytime3b: bool, f: Feature)
  {
    f == A1 || f == R21 || f == Dt || (if daytime3b then f == D34 || f == R3b1 else f == R3a1)
  }

  /** The table entries one pixel's estimate reads. */
  predicate Consulted(p: PixelParams, s: Surface, f: Feature)
  {
    (s == Ice || s == Cloud || s == FreeSurface(p.lmask)) && Consults(p.daytime3b, f)
  }

  /** The densities of one surface that enter the product. */
  datatype Likelihoods = Likelihoods(a1: Ext, r21: Ext, r3: Ext, dt: Ext)

  /** The lookups for one surface, in source order. On a daytime-3B pixel
      the channel 3/4 difference (d34) density is looked up as well, but
      its value is overwritten by 1 before use. */
  function Likelihood(cof: StatCoeffs, s: Surface, x: Features, daytime3b: bool, pdfs: Pdfs)
    : (r: Result<Likelihoods>)
    requires Counted(cof)
    ensures r.Ok? <==> forall f :: Consults(daytime3b, f) ==> Usable(Get(cof, s, f))
  {
    var a1 :- FindProb(Get(cof, s, A1), x.a1, pdfs);
    var r21 :- FindProb(Get(cof, s, R21), x.r21, pdfs);
    if daytime3b then
      var d34 :- FindProb(Get(cof, s, D34), x.d34, pdfs);
      var r3b1 :- FindProb(Get(cof, s, R3b1), x.r3, pdfs);
      var dt :- FindProb(Get(cof, s, Dt), x.dt, pdfs);
      Ok(Likelihoods(a1, r21, r3b1, dt))
    else
      var r3a1 :- FindProb(Get(cof, s, R3a1), x.r3, pdfs);
      var dt :- FindProb(Get(cof, s, Dt), x.dt, pdfs);
      Ok(Likelihoods(a1, r21, r3a1, dt))
  }

  /** Numerator of Bayes' rule for one class: the product of its
      densities and its prior, multiplied in source order. Without weather
      prediction support the temperature-difference density is 1, and the
      channel 3/4 difference density is always 1. */
  function Term(l: Likelihoods, daytime3b: bool, haveNwp: bool): Ext
  {
    var dt := if haveNwp then l.dt else Fin(1.0);
    if daytime3b then Mul(Mul(Mul(Mul(Mul(l.r21, Fin(1.0)), l.r3), l.a1), dt), Fin(Prior))
    else Mul(Mul(Mul(Mul(l.r21, l.r3), l.a1), dt), Fin(Prior))
  }

  /** Bayes' rule: each numerator over the sum of the three. */
  function Normalise(ti: Ext, tf: Ext, tc: Ext): Posterior
  {
    var d := Add(Add(ti, tf), tc);
    Posterior(Div(ti, d), Div(tf, d), Div(tc, d))
  }

  /** Finite numerators with a non-zero sum give three finite shares of
      one; a zero sum gives no finite share unless the numerator is 0, in
      which case it is NaN. */
  lemma NormaliseShares(ti: Ext, tf: Ext, tc: Ext)
    requires ti.Fin? && tf.Fin? && tc.Fin?
    ensures var q := Normalise(ti, tf, tc);
            ti.v + tf.v + tc.v != 0.0 ==> q.AllFinite() && q.pice.v + q.pfree.v + q.pcloud.v == 1.0
    ensures var q := Normalise(ti, tf, tc);
            ti.v + tf.v + tc.v == 0.0 ==> !q.pice.Fin? && !q.pfree.Fin? && !q.pcloud.Fin?
  {
    var d := ti.v + tf.v + tc.v;
    assert Add(Add(ti, tf), tc) == Fin(d);
    if d != 0.0 {
      SharesSum(ti.v, tf.v, tc.v);
    }
  }

  lemma SharesSum(a: real, b: real, c: real)
    requires a + b + c != 0.0
    ensures a / (a + b + c) + b / (a + b + c) + c / (a + b + c) == 1.0
  {
    var d := a + b + c;
    assert a / d + b / d + c / d == (a + b + c) / d;
  }

  /** Whatever the numerators, three finite posteriors always sum to one. */
  lemma FinitePosteriorSumsToOne(ti: Ext, tf: Ext, tc: Ext)
    requires Normalise(ti, tf, tc).AllFinite()
    ensures var q := Normalise(ti, tf, tc); q.pice.v + q.pfree.v + q.pcloud.v == 1.0
  {
    NormaliseShares(ti, tf, tc);
  }

  /** With non-negative numerators and a positive sum every posterior is a
      probability. */
  lemma NormaliseBounds(ti: Ext, tf: Ext, tc: Ext)
    requires ti.Fin? && tf.Fin? && tc.Fin?
    requires ti.v >= 0.0 && tf.v >= 0.0 && tc.v >= 0.0 && ti.v + tf.v + tc.v > 0.0
    ensures var q := Normalise(ti, tf, tc);
            0.0 <= q.pice.v <= 1.0 && 0.0 <= q.pfree.v <= 1.0 && 0.0 <= q.pcloud.v <= 1.0
  {
    var d := ti.v + tf.v + tc.v;
    NormaliseShares(ti, tf, tc);
    ShareBounds(ti.v, d);
    ShareBounds(tf.v, d);
    ShareBounds(tc.v, d);
  }

  /** With a positive sum the posteriors keep the order of the
      numerators (with a negative sum it would be reversed). */
  lemma NormaliseKeepsOrder(ti: Ext, tf: Ext, tc: Ext)
    requires ti.Fin? && tf.Fin? && tc.Fin?
    requires ti.v + tf.v + tc.v > 0.0
    ensures var q := Normalise(ti, tf, tc);
            (Lt(q.pice, q.pfree) <==> ti.v < tf.v) && (Lt(q.pice, q.pcloud) <==> ti.v < tc.v) &&
            (Lt(q.pfree, q.pcloud) <==> tf.v < tc.v) && (Lt(q.pfree, q.pice) <==> tf.v < ti.v) &&
            (Lt(q.pcloud, q.pice) <==> tc.v < ti.v) && (Lt(q.pcloud, q.pfree) <==> tc.v < tf.v)
  {
    var d := ti.v + tf.v + tc.v;
    NormaliseShares(ti, tf, tc);
    ShareOrder(ti.v, tf.v, d);
    ShareOrder(ti.v, tc.v, d);
    ShareOrder(tf.v, tc.v, d);
  }

  lemma ShareOrder(x: real, y: real, d: real)
    requires d > 0.0
    ensures x / d < y / d <==> x < y
  {
    assert (y / d - x / d) * d == y - x;
  }

  lemma ShareBounds(x: real, d: real)
    requires 0.0 <= x <= d && d > 0.0
    ensures 0.0 <= x / d <= 1.0
  {
    assert (1.0 - x / d) * d == d - x;
  }

  /** `probest`: the three lookups in source order (ice, cloud, then land
      or water), Bayes' rule on the products. It stops at the first
      unusable entry; the estimate itself always reports success. */
  function Estimate(p: PixelParams, cof: StatCoeffs, env: Env): (r: Result<Posterior>)
    requires Counted(cof)
    ensures r.Fail? <==> exists s, f :: Consulted(p, s, f) && !Usable(Get(cof, s, f))
  {
    var x := FeaturesOf(p, env);
    var li :- Likelihood(cof, Ice, x, p.daytime3b, env.pdfs);
    var lc :- Likelihood(cof, Cloud, x, p.daytime3b, env.pdfs);
    var lf :- Likelihood(cof, FreeSurface(p.lmask), x, p.daytime3b, env.pdfs);
    Ok(Normalise(Term(li, p.daytime3b, env.haveNwp), Term(lf, p.daytime3b, env.haveNwp),
                 Term(lc, p.daytime3b, env.haveNwp)))
  }

  /** Three finite posteriors from the estimate always sum to one. */
  lemma EstimateFiniteSumsToOne(p: PixelParams, cof: StatCoeffs, env: Env)
    requires Counted(cof)
    requires Estimate(p, cof, env).Ok? && Estimate(p, cof, env).value.AllFinite()
    ensures var q := Estimate(p, cof, env).value; q.pice.v + q.pfree.v + q.pcloud.v == 1.0
  {
    var x := FeaturesOf(p, env);
    var li := Likelihood(cof, Ice, x, p.daytime3b, env.pdfs).value;
    var lc := Likelihood(cof, Cloud, x, p.daytime3b, env.pdfs).value;
    var lf := Likelihood(cof, FreeSurface(p.lmask), x, p.daytime3b, env.pdfs).value;
    FinitePosteriorSumsToOne(Term(li, p.daytime3b, env.haveNwp), Term(lf, p.daytime3b, env.haveNwp),
                             Term(lc, p.daytime3b, env.haveNwp));
  }

  /** Only the consulted entries matter: over water the land coefficients
      are never read, and the other way round. */
  lemma EstimateReadsConsultedOnly(p: PixelParams, cof: StatCoeffs, cof': StatCoeffs, env: Env)
    requires Counted(cof) && Counted(cof')
    requires forall s, f :: Consulted(p, s, f) ==> Get(cof, s, f) == Get(cof', s, f)
    ensures Estimate(p, cof, env) == Estimate(p, cof', env)
  {
    var x := FeaturesOf(p, env);
    SurfaceLocal(cof, cof', Ice, x, p.daytime3b, env.pdfs);
    SurfaceLocal(cof, cof', Cloud, x, p.daytime3b, env.pdfs);
    SurfaceLocal(cof, cof', FreeSurface(p.lmask), x, p.daytime3b, env.pdfs);
  }

  lemma SurfaceLocal(cof: StatCoeffs, cof': StatCoeffs, s: Surface, x: Features, daytime3b: bool, pdfs: Pdfs)
    requires Counted(cof) && Counted(cof')
    requires forall f :: Consults(daytime3b, f) ==> Get(cof, s, f) == Get(cof', s, f)
    ensures Likelihood(cof, s, x, daytime3b, pdfs) == Likelihood(cof', s, x, daytime3b, pdfs)
  {
    assert Get(cof, s, A1) == Get(cof', s, A1);
    assert Get(cof, s, R21) == Get(cof', s, R21);
    assert Get(cof, s, Dt) == Get(cof', s, Dt);
    if daytime3b {
      assert Get(cof, s, D34) == Get(cof', s, D34);
      assert Get(cof, s, R3b1) == Get(cof', s, R3b1);
    } else {
      assert Get(cof, s, R3a1) == Get(cof', s, R3a1);
    }
  }

  /** The channel 3 brightness temperature enters only through the
      channel 3/4 difference, whose density is replaced by 1: changing it
      changes nothing. */
  lemma EstimateIgnoresT3(p: PixelParams, t3: real, cof: StatCoeffs, env: Env)
    requires Counted(cof)
    ensures Estimate(p.(t3 := t3), cof, env) == Estimate(p, cof, env)
  {
    var q := p.(t3 := t3);
    var x, y := FeaturesOf(p, env), FeaturesOf(q, env);
    LikelihoodIgnoresD34(cof, Ice, x, y, p.daytime3b, env);
    LikelihoodIgnoresD34(cof, Cloud, x, y, p.daytime3b, env);
    LikelihoodIgnoresD34(cof, FreeSurface(p.lmask), x, y, p.daytime3b, env);
  }

  lemma LikelihoodIgnoresD34(cof: StatCoeffs, s: Surface, x: Features, y: Features, daytime3b: bool, env: Env)
    requires Counted(cof)
    requires x.(d34 := y.d34) == y
    ensures Likelihood(cof, s, x, daytime3b, env.pdfs) == Likelihood(cof, s, y, daytime3b, env.pdfs)
  {
    FindProbOutcomeIgnoresValue(Get(cof, s, D34), x.d34, y.d34, env.pdfs);
  }

  /** Without weather prediction support the temperature difference is
      looked up but its value does not influence the estimate. */
  lemma EstimateIgnoresTdiffWithoutNwp(p: PixelParams, tdiff: real, cof: StatCoeffs, env: Env)
    requires Counted(cof)
    requires !env.haveNwp
    ensures Estimate(p.(tdiff := tdiff), cof, env) == Estimate(p, cof, env)
  {
    var q := p.(tdiff := tdiff);
    var x, y := FeaturesOf(p, env), FeaturesOf(q, env);
    TermIgnoresDt(cof, Ice, x, y, p.daytime3b, env);
    TermIgnoresDt(cof, Cloud, x, y, p.daytime3b, env);
    TermIgnoresDt(cof, FreeSurface(p.lmask), x, y, p.daytime3b, env);
  }

  lemma TermIgnoresDt(cof: StatCoeffs, s: Surface, x: Features, y: Features, daytime3b: bool, env: Env)
    requires Counted(cof)
    requires !env.haveNwp
    requires x.(dt := y.dt) == y
    ensures Likelihood(cof, s, x, daytime3b, env.pdfs).Ok? == Likelihood(cof, s, y, daytime3b, env.pdfs).Ok?
    ensures Likelihood(cof, s, x, daytime3b, env.pdfs).Fail? ==>
              Likelihood(cof, s, x, daytime3b, env.pdfs) == Likelihood(cof, s, y, daytime3b, env.pdfs)
    ensures Likelihood(cof, s, x, daytime3b, env.pdfs).Ok? ==>
              Term(Likelihood(cof, s, x, daytime3b, env.pdfs).value, daytime3b, false) ==
              Term(Likelihood(cof, s, y, daytime3b, env.pdfs).value, daytime3b, false)
  {
    FindProbOutcomeIgnoresValue(Get(cof, s, Dt), x.dt, y.dt, env.pdfs);
  }
}

=== FILE: quantize.dfy ===
/** The 21-level probability quantiser shared by the per-pixel classifier
    (class layer) and the temporal compositor (probability class layer).
    Level 0 marks an invalid probability; level k in 1..19 covers
    [0.05(k-1), 0.05k); level 20 covers [0.95, 1.0]. */
module Quantize {

  const Levels: nat := 20

  /** Upper bound of level `k` (exclusive for k < 20): 0.05 k. */
  function Edge(k: nat): real
  {
    k as real / 20.0
  }

  /** The comparison chain "p < 0.05 -> 1, p < 0.10 -> 2, ..., p < 0.95 ->
      19, p <= 1.0 -> 20, otherwise 0", resumed at level `k`. */
  function Scan(p: real, k: nat): nat
    requires 1 <= k <= Levels
    decreases Levels - k
  {
    if k < Levels then
      (if p < Edge(k) then k else Scan(p, k + 1))
    else if p <= 1.0 then Levels
    else 0
  }

  /** The quantiser as written: a negative value is level 0, then the chain. */
  function Bucket(p: real): nat
  {
    if p < 0.0 then 0 else Scan(p, 1)
  }

  /** Independent statement of which level a probability belongs to. */
  predicate InLevel(p: real, k: nat)
  {
    if p < 0.0 || p > 1.0 then k == 0
    else if p >= Edge(19) then k == Levels
    else 1 <= k <= 19 && Edge(k - 1) <= p < Edge(k)
  }

  lemma {:induction false} ScanLevel(p: real, k: nat)
    requires 1 <= k <= Levels
    requires Edge(k - 1) <= p
    ensures InLevel(p, Scan(p, k))
    decreases Levels - k
  {
    if k < Levels && p >= Edge(k) {
      ScanLevel(p, k + 1);
    }
  }

  /** The chain implements the interval definition, and only one level
      fits a value, so the two agree exactly. */
  lemma BucketIsLevel(p: real, k: nat)
    ensures InLevel(p, Bucket(p))
    ensures InLevel(p, k) <==> k == Bucket(p)
  {
    if p >= 0.0 {
      ScanLevel(p, 1);
    }
    if InLevel(p, k) {
      LevelUnique(p, k, Bucket(p));
    }
  }

  lemma LevelUnique(p: real, k: nat, j: nat)
    requires InLevel(p, k) && InLevel(p, j)
    ensures k == j
  {
  }

  /** Every level lies in 0..20, and it is 0 exactly for invalid values. */
  lemma BucketRange(p: real)
    ensures Bucket(p) <= Levels
    ensures Bucket(p) == 0 <==> p < 0.0 || p > 1.0
  {
    BucketIsLevel(p, 0);
  }

  /** On the valid range [0,1] the quantiser is non-decreasing. */
  lemma BucketMonotone(p: real, q: real)
    requires 0.0 <= p <= q <= 1.0
    ensures Bucket(p) <= Bucket(q)
  {
    BucketIsLevel(p, 0);
    BucketIsLevel(q, 0);
  }

  /** The boundaries are closed below and open above: 0.90 belongs to level
      19, whose legend entry in the compositor reads "[0.90 - 0.95>". */
  lemma BucketAtNinety()
    ensures Bucket(0.90) == 19
    ensures Bucket(0.95) == 20 && Bucket(1.0) == 20
    ensures Bucket(0.0) == 1
  {
    BucketIsLevel(0.90, 19);
    BucketIsLevel(0.95, 20);
    BucketIsLevel(1.0, 20);
    BucketIsLevel(0.0, 1);
  }
}

=== FILE: reduction.dfy ===
/** The reduction loop of `average_merge_files`: after all passes, each
    pixel's accumulators become a category, a mean ice and clear
    probability and a 21-level probability class. */
module Reduction {
  import opened Wrappers
  import opened Compositor
  import Quantize

  /** The value the driver gives the probability layers before merging
      (PROB_MISVAL). */
  const ProbMisval: real := -199.0

  /** Category codes of the composite (C_ICE .. C_UNDEF). */
  datatype Category = CIce | CClear | CUnclass | CClouded | CUndef {
    function Code(): int {
      match this
      case CIce => 1
      case CClear => 2
      case CUnclass => 3
      case CClouded => 4
      case CUndef => 5
    }
  }

  /** The reduced composite for one pixel. */
  datatype PixelOut = PixelOut(cat: Category, probClass: nat, probIce: real, probClear: real)

  /** The two means of a conserved accumulator are shares of one. */
  lemma MeansSumToOne(a: Acc)
    requires a.numCloudfree > 0
    ensures Conserved(a) ==>
              a.sumIce / a.numCloudfree as real + a.sumClear / a.numCloudfree as real == 1.0 &&
              0.0 <= a.sumIce / a.numCloudfree as real <= 1.0
  {
    if Conserved(a) {
      var n := a.numCloudfree as real;
      var i, c := a.sumIce / n, a.sumClear / n;
      assert i + c == (a.sumIce + a.sumClear) / n;
      assert i * n == a.sumIce;
      assert (1.0 - i) * n == n - a.sumIce;
    }
  }

  /** Dividing both sums by the same positive count keeps their order. */
  lemma MeansKeepOrder(x: real, y: real, n: real)
    requires n > 0.0
    ensures x / n > y / n <==> x > y
    ensures x / n < y / n <==> x < y
  {
    assert (x / n - y / n) * n == x - y;
  }

  /** A mean times its count gives back the sum. */
  lemma MeanTimesCount(x: real, n: real, m: real)
    requires n > 0.0 && m == x / n
    ensures m * n == x
  {
  }

  /** The reduction of a pixel with at least one cloud-free pass: the
      means of the two sums, the category of the larger mean and the
      class of the ice mean. */
  function CloudFreePixel(a: Acc): PixelOut
    requires a.numCloudfree > 0
  {
    var n := a.numCloudfree as real;
    var pi := a.sumIce / n;
    var pc := a.sumClear / n;
    PixelOut(if pi > pc then CIce else if pi < pc then CClear else CUnclass,
             Quantize.Bucket(pi), pi, pc)
  }

  /** A pixel with a cloud-free pass gets the class of its ice mean, means
      that sum to one when every pass contributed shares summing to one,
      and the category of the larger sum. */
  lemma CloudFreePixelFacts(a: Acc)
    requires a.numCloudfree > 0
    ensures var p := CloudFreePixel(a); Quantize.InLevel(p.probIce, p.probClass)
    ensures var p := CloudFreePixel(a);
            Conserved(a) ==> p.probIce + p.probClear == 1.0 && 0.0 <= p.probIce <= 1.0
    ensures CloudFreePixel(a).cat == CIce <==> a.sumIce > a.sumClear
    ensures CloudFreePixel(a).cat == CClear <==> a.sumIce < a.sumClear
    ensures CloudFreePixel(a).cat == CUnclass <==> a.sumIce == a.sumClear
  {
    var n := a.numCloudfree as real;
    MeansKeepOrder(a.sumIce, a.sumClear, n);
    MeansSumToOne(a);
    Quantize.BucketIsLevel(a.sumIce / n, 0);
  }

  /** The two probabilities of a pixel with a cloud-free pass are the
      means of the ice and clear shares over its cloud-free passes. */
  lemma CloudFreeMeans(a: Acc)
    requires a.numCloudfree > 0
    ensures CloudFreePixel(a).probIce * a.numCloudfree as real == a.sumIce
    ensures CloudFreePixel(a).probClear * a.numCloudfree as real == a.sumClear
  {
    var n := a.numCloudfree as real;
    var p := CloudFreePixel(a);
    MeanTimesCount(a.sumIce, n, p.probIce);
    MeanTimesCount(a.sumClear, n, p.probClear);
  }

  /** The reduction of one pixel. `probIce0` and `probClear0` are the
      values the caller stored in the output layers beforehand. */
  function Finalize(a: Acc, probIce0: real, probClear0: real): (r: Result<PixelOut>)
    ensures !Balanced(a) ==> r == Fail(CountMismatch)
    ensures NonNegative(a) && Balanced(a) ==> r.Ok?
    ensures r.Ok? ==> Quantize.InLevel(r.value.probIce, r.value.probClass)
    ensures r.Ok? && a.numCloudfree > 0 ==> r.value == CloudFreePixel(a)
    ensures r.Ok? ==> (r.value.cat == CClouded <==> a.numCloudfree == 0 && a.numCloud > 0)
    ensures r.Ok? && NonNegative(a) && a.numCloudfree == 0 ==>
              (r.value.cat == CUnclass <==> a.numCloud == 0)
    ensures r.Ok? ==> r.value.cat != CUndef
    ensures r.Ok? && a.numCloudfree <= 0 ==>
              r.value.probIce == probIce0 && r.value.probClear == probClear0
  {
    if a.numCloudfree + a.numCloud + a.numUndef != a.numPix then Fail(CountMismatch)
    else if a.numCloudfree > 0 then
      CloudFreePixelFacts(a);
      Ok(CloudFreePixel(a))
    else if a.numCloudfree == 0 && a.numCloud > 0 then
      Quantize.BucketIsLevel(probIce0, 0);
      Ok(PixelOut(CClouded, Quantize.Bucket(probIce0), probIce0, probClear0))
    else if a.numPix != a.numUndef then Fail(CountMismatch)
    else
      Quantize.BucketIsLevel(probIce0, 0);
      Ok(PixelOut(CUnclass, Quantize.Bucket(probIce0), probIce0, probClear0))
  }

  /** One pixel of the composite: the fold followed by the reduction. The
      merge fails only through a pass without ice or clear mass; the
      consistency checks of the reduction never fire. */
  function CompositePixel(obs: seq<Obs>, cloudlim: real, probIce0: real, probClear0: real)
    : (r: Result<PixelOut>)
    ensures r.Fail? <==> exists i :: 0 <= i < |obs| && Aborts(obs[i], cloudlim)
    ensures r.Fail? ==> r.failure == DivideByZero
  {
    FoldFails(obs, |obs|, cloudlim);
    match Fold(obs, cloudlim)
    case Fail(f) => Fail(f)
    case Ok(a) => Finalize(a, probIce0, probClear0)
  }

  /** A pixel that no pass counted keeps the caller's probabilities and is
      unclassified; with the driver's initial value its class is 0. */
  lemma NeverCountedPixel(obs: seq<Obs>, cloudlim: real, probIce0: real, probClear0: real)
    requires Count(obs, Clouded, |obs|, cloudlim) == 0 && Count(obs, CloudFree, |obs|, cloudlim) == 0
    requires Count(obs, Undefined, |obs|, cloudlim) == 0
    requires forall i :: 0 <= i < |obs| ==> !Aborts(obs[i], cloudlim)
    ensures CompositePixel(obs, cloudlim, probIce0, probClear0)
              == Ok(PixelOut(CUnclass, Quantize.Bucket(probIce0), probIce0, probClear0))
    ensures probIce0 == ProbMisval ==>
              CompositePixel(obs, cloudlim, probIce0, probClear0).value.probClass == 0
  {
    FoldFails(obs, |obs|, cloudlim);
    FoldCounts(obs, cloudlim);
  }

  /** Counting passes that all carry a full sentinel. */
  lemma {:induction false} AllMissingCounts(obs: seq<Obs>, n: int, cloudlim: real)
    requires 0 <= n <= |obs|
    requires forall i :: 0 <= i < |obs| ==> obs[i].Read? && FullyMissing(obs[i].t)
    ensures Count(obs, Clouded, n, cloudlim) == 0 && Count(obs, CloudFree, n, cloudlim) == 0
    ensures Count(obs, Undefined, n, cloudlim) == n
  {
    if n > 0 {
      JudgeFacts(obs[n - 1].t, cloudlim, Judge(obs[n - 1].t, cloudlim));
      AllMissingCounts(obs, n - 1, cloudlim);
    }
  }

  /** A pixel that is undefined in every pass (night, no coverage or
      channel 3A trouble) ends up unclassified with the caller's values. */
  lemma AllUndefinedPixel(obs: seq<Obs>, cloudlim: real, probIce0: real, probClear0: real)
    requires forall i :: 0 <= i < |obs| ==> obs[i].Read? && FullyMissing(obs[i].t)
    ensures CompositePixel(obs, cloudlim, probIce0, probClear0)
              == Ok(PixelOut(CUnclass, Quantize.Bucket(probIce0), probIce0, probClear0))
  {
    forall i | 0 <= i < |obs|
      ensures !Aborts(obs[i], cloudlim)
    {
      JudgeFacts(obs[i].t, cloudlim, Judge(obs[i].t, cloudlim));
    }
    FoldFails(obs, |obs|, cloudlim);
    FoldCounts(obs, cloudlim);
    AllMissingCounts(obs, |obs|, cloudlim);
  }

  /** The fold over one cloud-free pass. */
  lemma SinglePassFold(t: Triple, cloudlim: real)
    requires AllInRange(t) && SumsToOne(t) && t.cloud < cloudlim && t.ice + t.clear == 1.0
    ensures Fold([Read(t)], cloudlim) == Ok(Acc(1, 0, 0, 1, t.ice, t.clear))
  {
    var obs := [Read(t)];
    JudgeFacts(t, cloudlim, Judge(t, cloudlim));
    var a := Acc(1, 0, 0, 1, t.ice, t.clear);
    assert Contribution(Read(t), cloudlim) == a;
    assert Add(Empty, a) == a;
    assert FoldUpTo(obs, 1, cloudlim) == StepR(Ok(Empty), Read(t), cloudlim);
  }

  /** A single clean cloud-free pass whose ice and clear shares already
      add to one is reproduced unchanged by the composite. */
  lemma SinglePassReproduced(t: Triple, cloudlim: real, probIce0: real, probClear0: real)
    requires AllInRange(t) && SumsToOne(t) && t.cloud < cloudlim && t.ice + t.clear == 1.0
    ensures CompositePixel([Read(t)], cloudlim, probIce0, probClear0).Ok?
    ensures CompositePixel([Read(t)], cloudlim, probIce0, probClear0).value.probIce == t.ice
    ensures CompositePixel([Read(t)], cloudlim, probIce0, probClear0).value.probClear == t.clear
  {
    SinglePassFold(t, cloudlim);
    var a := Acc(1, 0, 0, 1, t.ice, t.clear);
    var r := Finalize(a, probIce0, probClear0);
    assert CompositePixel([Read(t)], cloudlim, probIce0, probClear0) == r;
  }
}

=== FILE: selection.dfy ===
/** The selection logic of the two accumulation drivers: `fmaccusnow`
    (period given by its end) and the older `accusnow` (period given by its
    start, product time in the middle). From the command line and the
    directory listing they decide which pass files enter the composite,
    sort them into one contiguous slice per tile, and check each tile's
    files before they are merged.

    Library calls are parameters: `toSec` converts a date string to
    seconds since 1970 (`ymdh2fmsec1970`, `ymdhms2fmsec1970`), `calendar`
    splits a time in seconds into calendar fields (`tofmtime`, `None`
    when it fails). */
module Selection {
  import opened Wrappers
  import opened Strings
  import Headers
  import TileSort
  import Config
  import Compositor
  import Reduction
  import Quantize
  import MergeFiles

  const SecondsPerHour: int := 3600
  const DefaultCloud: real := 0.2
  const DefaultTiles: seq<string> := ["ns", "nr", "at", "gr", "gn", "gf", "gm", "gs"]
  const BaseName: string := "fmsnow_"
  const MinNameLength: nat := 27

  // ---------------------------------------------------------------------
  // The date argument and the accumulation period.

  /** `yyyymmdd` is completed to `yyyymmddhh` with hour "00"; anything
      that is then not ten characters long is refused. */
  function NormaliseDate(d: string): (r: Option<string>)
    ensures r.Some? <==> |d| == 8 || |d| == 10
    ensures r.Some? ==> |r.value| == 10 && r.value[..|d|] == d
    ensures r.Some? && |d| == 8 ==> r.value[8..] == "00"
  {
    var full := if |d| == 8 then d + "00" else d;
    if |full| == 10 then Some(full) else None
  }

  /** A completed date is left as it is. */
  lemma NormaliseDateIdempotent(d: string)
    requires NormaliseDate(d).Some?
    ensures NormaliseDate(NormaliseDate(d).value) == NormaliseDate(d)
  {
    var r := NormaliseDate(d).value;
    if |d| == 10 {
      assert r == r[..|d|] == d;
    }
  }

  /** The accumulation period in seconds since 1970, both ends inclusive. */
  datatype Window = Window(start: int, end: int) {
    predicate Holds(t: int) { start <= t <= end }
  }

  /** `fmaccusnow`: `period` hours ending at `etime`. */
  function EndingAt(etime: int, period: int): Window
  {
    Window(etime - period * SecondsPerHour, etime)
  }

  /** `accusnow`: `period` hours starting at `stime`. */
  function StartingAt(stime: int, period: int): Window
  {
    Window(stime, stime + period * SecondsPerHour)
  }

  /** C integer division by a positive divisor: truncation toward zero. */
  function CDiv(a: int, b: int): int
    requires b > 0
  {
    if a >= 0 then a / b else -((-a) / b)
  }

  /** The product time of `accusnow`, `stime + period*3600/2`. */
  function MidTime(stime: int, period: int): int
  {
    stime + CDiv(period * SecondsPerHour, 2)
  }

  /** The two drivers describe the same period when the start given to
      `accusnow` is the end given to `fmaccusnow` minus the period; a
      time lies in a period of `period` hours exactly when it is at most
      that many seconds after the start. */
  lemma WindowsAgree(etime: int, period: int, t: int)
    ensures EndingAt(etime, period) == StartingAt(etime - period * SecondsPerHour, period)
    ensures EndingAt(etime, period).Holds(t) <==>
              0 <= t - (etime - period * SecondsPerHour) <= period * SecondsPerHour
  {
  }

  /** Since 3600 is even the C division is exact, whatever the sign of the
      period: the product time of `accusnow` is the middle of its period,
      and it lies inside a period of non-negative length. */
  lemma MidTimeIsMiddle(stime: int, period: int)
    ensures 2 * (MidTime(stime, period) - stime) == period * SecondsPerHour
    ensures period >= 0 ==> StartingAt(stime, period).Holds(MidTime(stime, period))
  {
    var a := period * SecondsPerHour;
    assert a == 2 * (period * 1800);
    if a < 0 {
      assert -a == 2 * (-(period * 1800));
      assert (-a) / 2 == -(period * 1800);
    } else {
      assert a / 2 == period * 1800;
    }
  }

  // ---------------------------------------------------------------------
  // Options: satellite filter, tile list, cloud limit.

  /** What a list file (`read_sat_area_list`) gave. `Unreadable` stands for
      any negative return: a file that cannot be opened (-1) or that has
      no line at all (-2). `Listed` holds the entries of a file with lines;
      it is empty when every line is a comment or too short to be an
      entry. */
  datatype ListRead = Unreadable | Listed(items: seq<string>)

  /** Which passes are kept, judged on the satellite named in the header's
      source field: all of them, those of one satellite (-t), or those of
      any satellite of a list (-l). */
  datatype SatFilter = AllSats | OnlySat(procsat: string) | SatList(sats: seq<string>)

  predicate Keeps(f: SatFilter, source: string)
  {
    match f
    case AllSats => true
    case OnlySat(p) => Contains(source, p)
    case SatList(l) => exists j | 0 <= j < |l| :: Contains(source, l[j])
  }

  /** -t and -l together stop the program. A satellite list that is
      missing or has no line falls back to all satellites; one whose lines
      hold no entry is kept, so that no pass is selected (the message says
      "exiting" but the program goes on). */
  function ChooseFilter(procsat: Option<string>, satList: Option<ListRead>): (r: Result<SatFilter>)
    ensures r.Fail? <==> procsat.Some? && satList.Some?
    ensures r.Fail? ==> r.failure == Stopped
    ensures r.Ok? && procsat.Some? ==> r.value == OnlySat(procsat.value)
    ensures r.Ok? && satList == Some(Unreadable) ==> r.value == AllSats
    ensures r.Ok? && satList.Some? && satList.value.Listed? ==> r.value == SatList(satList.value.items)
    ensures procsat.None? && satList.None? ==> r == Ok(AllSats)
  {
    if procsat.Some? && satList.Some? then Fail(Stopped)
    else if procsat.Some? then Ok(OnlySat(procsat.value))
    else if satList.Some? && satList.value.Listed? then Ok(SatList(satList.value.items))
    else Ok(AllSats)
  }

  /** A satellite list whose lines hold no entry keeps no pass at all. */
  lemma EmptySatListKeepsNothing(source: string)
    ensures ChooseFilter(None, Some(Listed([]))) == Ok(SatList([]))
    ensures !Keeps(SatList([]), source)
  {
  }

  /** -m: a tile list read from file; one whose lines hold no entry is an
      error (`onEmpty` tells which: an I/O error in `fmaccusnow`, a clean
      stop in `accusnow`); without -m, or when the file is missing or has
      no line, the eight default tiles. */
  function ChooseTiles(tileList: Option<ListRead>, onEmpty: Failure): (r: Result<seq<string>>)
    ensures r.Fail? <==> tileList == Some(Listed([]))
    ensures r.Fail? ==> r.failure == onEmpty
    ensures r.Ok? ==> |r.value| > 0
    ensures r.Ok? && tileList.Some? && tileList.value.Listed? ==> r.value == tileList.value.items
    ensures tileList.None? || tileList == Some(Unreadable) ==> r == Ok(DefaultTiles)
  {
    match tileList
    case None => Ok(DefaultTiles)
    case Some(Unreadable) => Ok(DefaultTiles)
    case Some(Listed(items)) => if |items| == 0 then Fail(onEmpty) else Ok(items)
  }

  /** The command line as far as the selection depends on it. */
  datatype Args = Args(date: string, period: int, procsat: Option<string>, satList: Option<ListRead>,
                       tileList: Option<ListRead>, cloud: Option<real>)

  /** Calendar fields of the product time (`fmtime`). */
  datatype TimeDate = TimeDate(year: int, mon: int, mday: int, hour: int, min: int)

  /** What the drivers have decided before reading the directory. */
  datatype Setup = Setup(window: Window, prodTime: int, prodDate: Option<TimeDate>, filter: SatFilter,
                         tiles: seq<string>, cloudlim: real)

  /** `fmaccusnow`: conflicting options stop; a malformed end date, or an
      end time `tofmtime` cannot split, is an I/O error; an empty tile list
      is an I/O error. The product time is the end of the period. */
  function SetupEnding(a: Args, toSec: string -> int, calendar: int -> Option<TimeDate>): (r: Result<Setup>)
    ensures a.procsat.Some? && a.satList.Some? ==> r == Fail(Stopped)
    ensures r.Ok? ==> NormaliseDate(a.date).Some?
    ensures r.Ok? ==> var w := r.value.window;
              w == EndingAt(toSec(NormaliseDate(a.date).value), a.period) && r.value.prodTime == w.end
    ensures r.Ok? ==> r.value.prodDate.Some? && r.value.prodDate == calendar(r.value.prodTime)
    ensures r.Ok? ==> r.value.cloudlim == (if a.cloud.Some? then a.cloud.value else DefaultCloud)
    ensures r.Fail? && !(a.procsat.Some? && a.satList.Some?) ==> r.failure == IoError
  {
    var filter :- ChooseFilter(a.procsat, a.satList);
    match NormaliseDate(a.date)
    case None => Fail(IoError)
    case Some(d) =>
      var etime := toSec(d);
      var w := EndingAt(etime, a.period);
      var td := calendar(etime);
      if td.None? then Fail(IoError)
      else
        var cloudlim := if a.cloud.Some? then a.cloud.value else DefaultCloud;
        var tiles :- ChooseTiles(a.tileList, IoError);
        Ok(Setup(w, etime, td, filter, tiles, cloudlim))
  }

  /** `accusnow`: conflicting options and a malformed start date stop
      cleanly, and so does an empty tile list; a failing `tofmtime` is not
      noticed (its fields go on to the product time check). The product
      time is the middle of the period. */
  function SetupStarting(a: Args, toSec: string -> int, calendar: int -> Option<TimeDate>): (r: Result<Setup>)
    ensures r.Fail? ==> r.failure == Stopped
    ensures r.Ok? <==> !(a.procsat.Some? && a.satList.Some?) && NormaliseDate(a.date).Some? &&
                       a.tileList != Some(Listed([]))
    ensures r.Ok? ==> var w := r.value.window;
              w == StartingAt(toSec(NormaliseDate(a.date).value), a.period) &&
              r.value.prodTime == MidTime(w.start, a.period)
    ensures r.Ok? ==> r.value.prodDate == calendar(r.value.prodTime)
    ensures r.Ok? ==> r.value.cloudlim == (if a.cloud.Some? then a.cloud.value else DefaultCloud)
  {
    var filter :- ChooseFilter(a.procsat, a.satList);
    match NormaliseDate(a.date)
    case None => Fail(Stopped)
    case Some(d) =>
      var stime := toSec(d);
      var w := StartingAt(stime, a.period);
      var prodTime := MidTime(stime, a.period);
      var cloudlim := if a.cloud.Some? then a.cloud.value else DefaultCloud;
      var tiles :- ChooseTiles(a.tileList, Stopped);
      Ok(Setup(w, prodTime, calendar(prodTime), filter, tiles, cloudlim))
  }

  /** Given the same options, the two drivers agree on everything but the
      product time when `accusnow` is told the start of the period that
      `fmaccusnow` is told the end of, and neither run fails. */
  lemma SetupsAgree(a: Args, b: Args, toSec: string -> int, calendar: int -> Option<TimeDate>)
    requires a.period == b.period && a.procsat == b.procsat && a.satList == b.satList
    requires a.tileList == b.tileList && a.cloud == b.cloud
    requires SetupEnding(a, toSec, calendar).Ok? && SetupStarting(b, toSec, calendar).Ok?
    requires toSec(NormaliseDate(b.date).value) == toSec(NormaliseDate(a.date).value) - a.period * SecondsPerHour
    ensures var e, s := SetupEnding(a, toSec, calendar).value, SetupStarting(b, toSec, calendar).value;
            e.window == s.window && e.filter == s.filter && e.tiles == s.tiles && e.cloudlim == s.cloudlim
  {
  }

  // ---------------------------------------------------------------------
  // Which directory entries are pass files of the period.

  /** A directory entry: its name and, when the file's header could be
      read, the source field of the header. */
  datatype Entry = Entry(name: string, source: Option<string>)

  /** A pass file name: "fmsnow_" prefix, ".hdf" somewhere, at least 27
      characters. */
  predicate Candidate(name: string)
  {
    StartsWith(name, BaseName) && Contains(name, ".hdf") && |name| >= MinNameLength
  }

  /** The time stamp of a pass file: the twelve characters from position 10
      (`yyyymmddhhmm`) followed by "00" seconds. */
  function Stamp(name: string): string
    requires |name| >= 22
  {
    name[10..22] + "00"
  }

  /** The name under which the classifier stores a pass of tile `tile`
      taken at `ymdhm`. */
  function PassName(tile: string, ymdhm: string): string
  {
    BaseName + tile + "_" + ymdhm + ".hdf5"
  }

  /** Pass file names of two-letter tiles are candidates, and their time
      stamp reads back the time they were named with. */
  lemma PassNameRoundTrip(tile: string, ymdhm: string)
    requires |tile| == 2 && |ymdhm| == 12
    ensures Candidate(PassName(tile, ymdhm))
    ensures Stamp(PassName(tile, ymdhm)) == ymdhm + "00"
  {
    var n := PassName(tile, ymdhm);
    assert n[..7] == BaseName;
    assert n[10..22] == ymdhm;
    assert n[22..26] == ".hdf";
    ContainsWitness(n, ".hdf", 22);
  }

  /** The entry is a pass file of the period (the first directory scan,
      which sizes the file lists, counts these). */
  predicate InPeriod(e: Entry, w: Window, toSec: string -> int)
  {
    Candidate(e.name) && w.Holds(toSec(Stamp(e.name)))
  }

  /** The entry is selected: a pass file of the period whose header can be
      read, whose satellite passes the filter and whose name carries a tile
      of the list. */
  predicate Accepted(e: Entry, s: Setup, toSec: string -> int)
  {
    InPeriod(e, s.window, toSec) && e.source.Some? && Keeps(s.filter, e.source.value) &&
    Headers.FirstMatch(s.tiles, e.name) >= 0
  }

  /** The accepted entries among the first `n`, in directory order. */
  function Kept(es: seq<Entry>, s: Setup, toSec: string -> int, n: nat): seq<Entry>
    requires n <= |es|
  {
    if n == 0 then []
    else Kept(es, s, toSec, n - 1) + (if Accepted(es[n - 1], s, toSec) then [es[n - 1]] else [])
  }

  /** The first scan's count of pass files of the period among the first
      `n` entries. */
  function InPeriodCount(es: seq<Entry>, w: Window, toSec: string -> int, n: nat): nat
    requires n <= |es|
  {
    if n == 0 then 0
    else InPeriodCount(es, w, toSec, n - 1) + (if InPeriod(es[n - 1], w, toSec) then 1 else 0)
  }

  /** The selection keeps exactly the accepted entries. */
  lemma {:induction false} KeptIsFilter(es: seq<Entry>, s: Setup, toSec: string -> int, n: nat)
    requires n <= |es|
    ensures forall e :: e in Kept(es, s, toSec, n) <==> e in es[..n] && Accepted(e, s, toSec)
  {
    if n > 0 {
      KeptIsFilter(es, s, toSec, n - 1);
      assert es[..n] == es[..n - 1] + [es[n - 1]];
    }
  }

  /** The lists sized by the first scan are large enough for the files the
      second scan selects. */
  lemma {:induction false} KeptFitsCount(es: seq<Entry>, s: Setup, toSec: string -> int, n: nat)
    requires n <= |es|
    ensures |Kept(es, s, toSec, n)| <= InPeriodCount(es, s.window, toSec, n)
  {
    if n > 0 {
      KeptFitsCount(es, s, toSec, n - 1);
    }
  }

  /** Number of list entries found in `source` among the first `n`. */
  function Matches(sats: seq<string>, source: string, n: nat): nat
    requires n <= |sats|
  {
    if n == 0 then 0 else Matches(sats, source, n - 1) + (if Contains(source, sats[n - 1]) then 1 else 0)
  }

  lemma {:induction false} MatchesPositive(sats: seq<string>, source: string, n: nat)
    requires n <= |sats|
    ensures Matches(sats, source, n) > 0 <==> exists j | 0 <= j < n :: Contains(source, sats[j])
  {
    if n > 0 {
      MatchesPositive(sats, source, n - 1);
    }
  }

  /** The satellite check of the selection loop (`satfound`): for -t one
      `strstr` test, for -l one test per list entry. */
  method SatFound(f: SatFilter, source: string) returns (satfound: nat)
    requires !f.AllSats?
    ensures f.OnlySat? ==> satfound == (if Contains(source, f.procsat) then 1 else 0)
    ensures f.SatList? ==> satfound == Matches(f.sats, source, |f.sats|)
    ensures satfound > 0 <==> Keeps(f, source)
  {
    satfound := 0;
    if f.OnlySat? {
      if Contains(source, f.procsat) {
        satfound := satfound + 1;
      }
    } else {
      var j := 0;
      while j < |f.sats|
        invariant 0 <= j <= |f.sats|
        invariant satfound == Matches(f.sats, source, j)
      {
        if Contains(source, f.sats[j]) {
          satfound := satfound + 1;
        }
        j := j + 1;
      }
      MatchesPositive(f.sats, source, |f.sats|);
    }
  }

  /** The selected files: full paths (`dir/name`) in directory order, the
      tile each was recorded under, and the per-tile counts
      (`num_files_area`). */
  datatype Selected = Selected(paths: seq<string>, tileOf: seq<int>, counts: seq<int>)

  /** The paths the selection records for the first `n` entries. */
  function KeptPaths(dir: string, es: seq<Entry>, s: Setup, toSec: string -> int, n: nat): seq<string>
    requires n <= |es|
  {
    if n == 0 then []
    else KeptPaths(dir, es, s, toSec, n - 1) + (if Accepted(es[n - 1], s, toSec) then [dir + "/" + es[n - 1].name] else [])
  }

  /** The tile indices the selection records for the first `n` entries. */
  function KeptTiles(es: seq<Entry>, s: Setup, toSec: string -> int, n: nat): seq<int>
    requires n <= |es|
  {
    if n == 0 then []
    else KeptTiles(es, s, toSec, n - 1) +
         (if Accepted(es[n - 1], s, toSec) then [Headers.FirstMatch(s.tiles, es[n - 1].name)] else [])
  }

  /** The recorded paths and tiles are, entry by entry, those of the
      accepted entries. */
  lemma {:induction false} KeptRecords(dir: string, es: seq<Entry>, s: Setup, toSec: string -> int, n: nat)
    requires n <= |es|
    ensures |KeptPaths(dir, es, s, toSec, n)| == |KeptTiles(es, s, toSec, n)| == |Kept(es, s, toSec, n)|
    ensures forall k :: 0 <= k < |Kept(es, s, toSec, n)| ==>
              KeptPaths(dir, es, s, toSec, n)[k] == dir + "/" + Kept(es, s, toSec, n)[k].name &&
              KeptTiles(es, s, toSec, n)[k] == Headers.FirstMatch(s.tiles, Kept(es, s, toSec, n)[k].name)
  {
    if n > 0 {
      KeptRecords(dir, es, s, toSec, n - 1);
    }
  }

  /** One more entry of the scan extends the recorded paths and tiles by
      the entry's own, when it is accepted. */
  lemma KeptStep(dir: string, es: seq<Entry>, s: Setup, toSec: string -> int, n: nat)
    requires n < |es|
    ensures KeptPaths(dir, es, s, toSec, n + 1) ==
            KeptPaths(dir, es, s, toSec, n) + (if Accepted(es[n], s, toSec) then [dir + "/" + es[n].name] else [])
    ensures KeptTiles(es, s, toSec, n + 1) ==
            KeptTiles(es, s, toSec, n) + (if Accepted(es[n], s, toSec) then [Headers.FirstMatch(s.tiles, es[n].name)] else [])
  {
  }

  lemma IndexedAppend(idx: seq<int>, ind: int, tiles: nat)
    requires TileSort.Indexed(idx, tiles) && 0 <= ind < tiles
    ensures TileSort.Indexed(idx + [ind], tiles)
  {
  }

  /** Recording one more file for tile `ind` keeps the counts right. */
  lemma CountsOfAppend(counts: seq<int>, idx: seq<int>, ind: int)
    requires TileSort.CountsOf(counts, idx) && 0 <= ind < |counts|
    ensures TileSort.CountsOf(counts[ind := counts[ind] + 1], idx + [ind])
  {
    var idx' := idx + [ind];
    forall t | 0 <= t < |counts|
      ensures counts[ind := counts[ind] + 1][t] == TileSort.CountTile(idx', t, |idx'|)
    {
      CountTileExtends(idx, ind, t, |idx|);
    }
  }

  lemma {:induction false} CountTileExtends(idx: seq<int>, x: int, t: int, n: nat)
    requires n <= |idx|
    ensures TileSort.CountTile(idx + [x], t, n) == TileSort.CountTile(idx, t, n)
  {
    if n > 0 {
      CountTileExtends(idx, x, t, n - 1);
      assert (idx + [x])[n - 1] == idx[n - 1];
    }
  }

  /** The tests of the second directory scan for one entry, in source
      order (name, time, readable header, satellite, tile): the tile index
      recorded for the entry, or -1 when it is skipped. */
  method Examine(e: Entry, s: Setup, toSec: string -> int) returns (ind: int)
    ensures -1 <= ind < |s.tiles|
    ensures ind >= 0 <==> Accepted(e, s, toSec)
    ensures ind >= 0 ==> ind == Headers.FirstMatch(s.tiles, e.name)
  {
    ind := -1;
    if Candidate(e.name) && s.window.Holds(toSec(Stamp(e.name))) && e.source.Some? {
      var keep := true;
      if !s.filter.AllSats? {
        var found := SatFound(s.filter, e.source.value);
        keep := found > 0;
      }
      if keep {
        ind := Headers.FindSatAreaIndex(s.tiles, e.name);
        var first := Headers.FirstMatch(s.tiles, e.name);
        assert ind >= 0 ==> ind == first;
      }
    }
  }

  /** The second directory scan: each selected file's path, the tile it is
      recorded under and the count of that tile. The result is the
      accepted entries in directory order (see KeptRecords), each recorded
      under the first tile of the list its name carries. */
  method SelectFiles(dir: string, es: seq<Entry>, s: Setup, toSec: string -> int) returns (sel: Selected)
    ensures sel.paths == KeptPaths(dir, es, s, toSec, |es|)
    ensures sel.tileOf == KeptTiles(es, s, toSec, |es|)
    ensures |sel.counts| == |s.tiles| && TileSort.CountsOf(sel.counts, sel.tileOf)
    ensures TileSort.Indexed(sel.tileOf, |s.tiles|)
  {
    var paths: seq<string> := [];
    var idx: seq<int> := [];
    var counts: seq<int> := seq(|s.tiles|, _ => 0);
    var i := 0;
    while i < |es|
      invariant 0 <= i <= |es|
      invariant paths == KeptPaths(dir, es, s, toSec, i)
      invariant idx == KeptTiles(es, s, toSec, i)
      invariant |counts| == |s.tiles| && TileSort.CountsOf(counts, idx)
      invariant TileSort.Indexed(idx, |s.tiles|)
    {
      var ind := Examine(es[i], s, toSec);
      KeptStep(dir, es, s, toSec, i);
      if ind >= 0 {
        CountsOfAppend(counts, idx, ind);
        IndexedAppend(idx, ind, |s.tiles|);
        paths := paths + [dir + "/" + es[i].name];
        idx := idx + [ind];
        counts := counts[ind := counts[ind] + 1];
      }
      i := i + 1;
    }
    sel := Selected(paths, idx, counts);
  }

  // ---------------------------------------------------------------------
  // After the selection.

  /** An empty selection ends the run cleanly. Otherwise the files are
      sorted as the drivers write it: every file goes to the next free
      slot of each tile whose pattern its full path contains, whatever tile
      it was counted for (a slot nothing was written to is `None`), and a
      slot past the end of the list is an overflow. When every path holds
      the pattern of exactly the tile it was counted for, the result is
      the arrangement tile by tile. */
  function SortSelected(sel: Selected, tiles: seq<string>): (r: Result<seq<Option<string>>>)
    requires |sel.paths| == |sel.tileOf| && TileSort.Indexed(sel.tileOf, |sel.counts|)
    requires TileSort.CountsOf(sel.counts, sel.tileOf) && |sel.counts| == |tiles|
    ensures |sel.paths| == 0 ==> r == Fail(Stopped)
    ensures r.Fail? && |sel.paths| > 0 ==> r.failure == SortOverflow
    ensures r.Ok? ==> |r.value| == |sel.paths|
    ensures |sel.paths| > 0 && TileSort.Unambiguous(sel.paths, sel.tileOf, tiles) ==>
              r.Ok? && |TileSort.Arrange(sel.paths, sel.tileOf, |sel.counts|)| == |sel.paths| &&
              forall p :: 0 <= p < |sel.paths| ==>
                r.value[p] == Some(TileSort.Arrange(sel.paths, sel.tileOf, |sel.counts|)[p])
  {
    if |sel.paths| == 0 then Fail(Stopped)
    else
      var placed := TileSort.PlaceAsWritten(sel.paths, tiles, sel.counts, |sel.paths|);
      TileSort.SortArranges(sel.paths, sel.tileOf, sel.counts);
      assert TileSort.Unambiguous(sel.paths, sel.tileOf, tiles) ==>
               placed == TileSort.Place(sel.paths, sel.tileOf, sel.counts, |sel.paths|) by {
        if TileSort.Unambiguous(sel.paths, sel.tileOf, tiles) {
          TileSort.AsWrittenAgreesWhenUnambiguous(sel.paths, sel.tileOf, tiles, sel.counts);
        }
      }
      if placed.Fail? then Fail(placed.failure) else Ok(placed.value.out)
  }

  /** The driver itself overflows on the selection of the discrepancy in
      module TileSort: one pass file of tile "ns", kept in a directory
      named "fmsnow_at", with the tile list ns, at. */
  lemma ArchivedSelectionOverflows()
    ensures TileSort.CountsOf([1, 0], [0]) && TileSort.Indexed([0], 2)
    ensures SortSelected(Selected([TileSort.ArchivedPath], [0], [1, 0]), ["ns", "at"]) == Fail(SortOverflow)
  {
    TileSort.AsWrittenOverflows();
  }

  /** The product time check: upper bounds on the fields and a year from
      1978 to 3000. */
  function CheckProdTime(td: Option<TimeDate>): (r: Result<TimeDate>)
    ensures r.Ok? <==> td.Some? && td.value.hour <= 23 && td.value.min <= 59 && td.value.mday <= 31 &&
                       td.value.mon <= 12 && 1978 <= td.value.year <= 3000
    ensures r.Ok? ==> r.value == td.value
    ensures r.Fail? ==> r.failure == IoError
  {
    match td
    case None => Fail(IoError)
    case Some(t) =>
      if t.hour > 23 || t.min > 59 || t.mday > 31 || t.mon > 12 || t.year > 3000 || t.year < 1978 then
        Fail(IoError)
      else Ok(t)
  }

  /** Only upper bounds are checked: a month and a day of zero pass, and
      so does the first product year. */
  lemma ProdTimeBoundsOnlyAbove()
    ensures CheckProdTime(Some(TimeDate(2009, 0, 0, 0, 0))).Ok?
    ensures CheckProdTime(Some(TimeDate(1978, 12, 31, 23, 59))).Ok?
    ensures CheckProdTime(Some(TimeDate(1977, 12, 31, 23, 59))).Fail?
  {
  }

  /** One tile to merge: its index in the tile list and its files. */
  datatype Job<T> = Job(tile: nat, files: seq<T>)

  /** The tile loop over the first `t` tiles: a tile without files is
      skipped, the others get the slice of the sorted list starting at the
      count of all earlier tiles. */
  function Jobs<T>(sorted: seq<T>, idx: seq<int>, counts: seq<int>, t: nat): seq<Job<T>>
    requires |sorted| == |idx| && TileSort.CountsOf(counts, idx) && TileSort.Indexed(idx, |counts|)
    requires t <= |counts|
  {
    if t == 0 then []
    else
      var js := Jobs(sorted, idx, counts, t - 1);
      if counts[t - 1] == 0 then js
      else
        TileSort.SliceBounds(counts, idx, t - 1);
        var lo := TileSort.Prefix(counts, t - 1);
        js + [Job(t - 1, sorted[lo..lo + counts[t - 1]])]
  }

  /** A tile's job holds the files recorded for that tile, in directory
      order, and at least one. */
  predicate JobFiles<T(==)>(paths: seq<T>, idx: seq<int>, j: Job<T>)
    requires |paths| == |idx|
  {
    |j.files| > 0 && j.files == TileSort.ByTile(paths, idx, j.tile, |paths|)
  }

  /** The jobs are for tiles below `t` that have files, in ascending
      order. */
  predicate Ascending<T>(js: seq<Job<T>>, counts: seq<int>, t: int)
  {
    (forall k :: 0 <= k < |js| ==> js[k].tile < t && js[k].tile < |counts| && counts[js[k].tile] > 0) &&
    (forall k, k' :: 0 <= k < k' < |js| ==> js[k].tile < js[k'].tile)
  }

  /** Some job is for tile `u`. */
  predicate Visits<T>(js: seq<Job<T>>, u: int)
  {
    exists k :: 0 <= k < |js| && js[k].tile == u
  }

  /** One more tile of the loop: no job for a tile without files, one job
      at the end for a tile with files. */
  lemma JobsStep<T>(sorted: seq<T>, idx: seq<int>, counts: seq<int>, t: nat)
    requires |sorted| == |idx| && TileSort.CountsOf(counts, idx) && TileSort.Indexed(idx, |counts|)
    requires 0 < t <= |counts|
    ensures var js, js' := Jobs(sorted, idx, counts, t - 1), Jobs(sorted, idx, counts, t);
            counts[t - 1] == 0 ==> js' == js
    ensures var js, js' := Jobs(sorted, idx, counts, t - 1), Jobs(sorted, idx, counts, t);
            var lo := TileSort.Prefix(counts, t - 1);
            counts[t - 1] > 0 ==>
              |js'| == |js| + 1 && js'[|js|].tile == t - 1 && (forall k :: 0 <= k < |js| ==> js'[k] == js[k]) &&
              0 <= lo && lo + counts[t - 1] <= |sorted| && js'[|js|].files == sorted[lo..lo + counts[t - 1]]
  {
    TileSort.SliceBounds(counts, idx, t - 1);
  }

  /** The tile loop visits the tiles that have files in list order. */
  lemma {:induction false} JobsAscend<T>(sorted: seq<T>, idx: seq<int>, counts: seq<int>, t: nat)
    requires |sorted| == |idx| && TileSort.CountsOf(counts, idx) && TileSort.Indexed(idx, |counts|)
    requires t <= |counts|
    ensures Ascending(Jobs(sorted, idx, counts, t), counts, t)
  {
    if t > 0 {
      JobsAscend(sorted, idx, counts, t - 1);
      JobsStep(sorted, idx, counts, t);
    }
  }

  /** The tile loop visits exactly the tiles that have files. */
  lemma {:induction false} JobsCoverTiles<T>(sorted: seq<T>, idx: seq<int>, counts: seq<int>, t: nat)
    requires |sorted| == |idx| && TileSort.CountsOf(counts, idx) && TileSort.Indexed(idx, |counts|)
    requires t <= |counts|
    ensures forall u :: 0 <= u < t ==> (counts[u] > 0 <==> Visits(Jobs(sorted, idx, counts, t), u))
  {
    if t > 0 {
      JobsCoverTiles(sorted, idx, counts, t - 1);
      JobsAscend(sorted, idx, counts, t - 1);
      JobsStep(sorted, idx, counts, t);
      var js, js' := Jobs(sorted, idx, counts, t - 1), Jobs(sorted, idx, counts, t);
      VisitsAfterStep(js, js', counts, t);
    }
  }

  /** The tiles visited after one more step of the tile loop. */
  lemma VisitsAfterStep<T>(js: seq<Job<T>>, js': seq<Job<T>>, counts: seq<int>, t: nat)
    requires 0 < t <= |counts| && counts[t - 1] >= 0
    requires Ascending(js, counts, t - 1)
    requires forall v :: 0 <= v < t - 1 ==> (counts[v] > 0 <==> Visits(js, v))
    requires counts[t - 1] == 0 ==> js' == js
    requires counts[t - 1] > 0 ==>
               |js'| == |js| + 1 && js'[|js|].tile == t - 1 && forall k :: 0 <= k < |js| ==> js'[k] == js[k]
    ensures forall u :: 0 <= u < t ==> (counts[u] > 0 <==> Visits(js', u))
  {
    forall u | 0 <= u < t
      ensures counts[u] > 0 <==> Visits(js', u)
    {
      if u == t - 1 {
        if counts[u] > 0 {
          assert js'[|js|].tile == u;
        } else {
          assert !Visits(js, u);
        }
      } else {
        assert counts[u] > 0 <==> Visits(js, u);
        if counts[t - 1] > 0 {
          if Visits(js, u) {
            var k :| 0 <= k < |js| && js[k].tile == u;
            assert js'[k].tile == u;
          }
          if Visits(js', u) {
            var k :| 0 <= k < |js'| && js'[k].tile == u;
            assert k < |js| && js[k].tile == u;
          }
        } else {
          assert js' == js;
        }
      }
    }
  }

  /** On the arrangement, the tile loop hands each tile it visits the
      files of that tile, in directory order. */
  lemma {:induction false} JobsAreTiles<T>(paths: seq<T>, idx: seq<int>, counts: seq<int>, sorted: seq<T>, t: nat)
    requires |paths| == |idx| && TileSort.CountsOf(counts, idx) && TileSort.Indexed(idx, |counts|)
    requires t <= |counts| && sorted == TileSort.Arrange(paths, idx, |counts|) && |sorted| == |paths|
    ensures var js := Jobs(sorted, idx, counts, t);
            forall k :: 0 <= k < |js| ==> JobFiles(paths, idx, js[k])
  {
    if t > 0 {
      JobsAreTiles(paths, idx, counts, sorted, t - 1);
      JobsStep(sorted, idx, counts, t);
      if counts[t - 1] > 0 {
        TileSort.ArrangeSlice(paths, idx, counts, |counts|, t - 1);
        var js, js' := Jobs(sorted, idx, counts, t - 1), Jobs(sorted, idx, counts, t);
        assert JobFiles(paths, idx, js'[|js|]);
      }
    }
  }

  /** The grid check of one tile: every file's grid (size and corners, as
      read from its header) must equal that of the tile's first file.
      A header that cannot be read is reported and still compared. */
  method CheckTileGrid(grids: seq<Config.Grid>) returns (r: Result<Config.Grid>)
    requires |grids| > 0
    ensures r.Ok? <==> forall f :: 0 <= f < |grids| ==> grids[f] == grids[0]
    ensures r.Ok? ==> r.value == grids[0]
    ensures r.Fail? ==> r.failure == IoError
  {
    var f := 0;
    while f < |grids|
      invariant 0 <= f <= |grids|
      invariant forall g :: 0 <= g < f ==> grids[g] == grids[0]
    {
      var h, h0 := grids[f], grids[0];
      if h.iw != h0.iw || h.ih != h0.ih || h.aX != h0.aX || h.aY != h0.aY || h.bX != h0.bX || h.bY != h0.bY {
        return Fail(IoError);
      }
      f := f + 1;
    }
    return Ok(grids[0]);
  }

  /** The merge of one tile, with the output layers prepared as the
      drivers prepare them (probabilities PROB_MISVAL). A pixel without a
      cloud-free pass keeps PROB_MISVAL in both probability layers and gets
      probability class 0; no pixel is left undefined. The merge fails
      exactly when `average_merge_files` does. */
  method TileProduct(passes: seq<MergeFiles.PassFile>, size: nat, cloudlim: real)
    returns (r: Result<MergeFiles.Merged>)
    requires MergeFiles.FitsGrid(passes, size)
    ensures r.Fail? <==> exists e :: 0 <= e < size && Compositor.AnyAborts(MergeFiles.Column(passes, e), cloudlim)
    ensures r.Ok? ==> |r.value.pixels| == size && |r.value.numCloudfree| == size
    ensures r.Ok? ==> forall e :: 0 <= e < size ==> r.value.pixels[e].cat != Reduction.CUndef
    ensures r.Ok? ==> forall e :: 0 <= e < size && r.value.numCloudfree[e] == 0 ==>
              r.value.pixels[e].probIce == Reduction.ProbMisval &&
              r.value.pixels[e].probClear == Reduction.ProbMisval && r.value.pixels[e].probClass == 0
  {
    var init := seq(size, _ => Reduction.ProbMisval);
    r := MergeFiles.AverageMergeFiles(passes, size, cloudlim, init, init);
    if r.Ok? {
      var m := r.value;
      forall e | 0 <= e < size
        ensures m.pixels[e].cat != Reduction.CUndef
        ensures m.numCloudfree[e] == 0 ==>
                  m.pixels[e].probIce == Reduction.ProbMisval &&
                  m.pixels[e].probClear == Reduction.ProbMisval && m.pixels[e].probClass == 0
      {
        UncountedPixel(MergeFiles.Column(passes, e), cloudlim, m.pixels[e]);
      }
    }
  }

  /** A composite pixel is never undefined, and one without cloud-free
      passes keeps the initial PROB_MISVAL, whose class is 0. */
  lemma UncountedPixel(obs: seq<Compositor.Obs>, cloudlim: real, p: Reduction.PixelOut)
    requires Reduction.CompositePixel(obs, cloudlim, Reduction.ProbMisval, Reduction.ProbMisval) == Ok(p)
    ensures p.cat != Reduction.CUndef
    ensures Compositor.Count(obs, Compositor.CloudFree, |obs|, cloudlim) == 0 ==>
              p.probIce == Reduction.ProbMisval && p.probClear == Reduction.ProbMisval && p.probClass == 0
  {
    var a := Compositor.Fold(obs, cloudlim).value;
    Compositor.FoldCounts(obs, cloudlim);
    assert Reduction.Finalize(a, Reduction.ProbMisval, Reduction.ProbMisval) == Ok(p);
    Quantize.BucketIsLevel(p.probIce, p.probClass);
    Quantize.BucketRange(Reduction.ProbMisval);
  }
}

=== FILE: strings.dfy ===
/** The handful of C string routines the programs rely on (`strstr`,
    `strncmp` as a prefix test, `strtok` on blanks, `%d`-style decimal
    formatting), stated over `seq<char>`. */
module Strings {
  import opened Wrappers

  /** `pat` occurs in `s` starting at position `i`. */
  predicate OccursAt(s: string, pat: string, i: int)
  {
    0 <= i && i + |pat| <= |s| && s[i..i + |pat|] == pat
  }

  /** `strstr(s, pat) != NULL`. */
  predicate Contains(s: string, pat: string)
  {
    exists i | 0 <= i <= |s| :: OccursAt(s, pat, i)
  }

  /** `strncmp(s, pre, |pre|) == 0` for a prefix without NUL characters. */
  predicate StartsWith(s: string, pre: string)
  {
    |pre| <= |s| && s[..|pre|] == pre
  }

  /** Position of the first occurrence of `pat` in `s` at or after `from`,
      the scan `strstr` performs. */
  function IndexOfFrom(s: string, pat: string, from: nat): (r: Option<nat>)
    requires from <= |s| + 1
    ensures r.Some? ==> from <= r.value && OccursAt(s, pat, r.value)
    ensures r.Some? ==> forall j :: from <= j < r.value ==> !OccursAt(s, pat, j)
    ensures r.None? ==> forall j :: from <= j ==> !OccursAt(s, pat, j)
    decreases |s| + 1 - from
  {
    if from + |pat| > |s| then None
    else if s[from..from + |pat|] == pat then Some(from)
    else IndexOfFrom(s, pat, from + 1)
  }

  /** `strstr` as a search: its answer agrees with the occurrence predicate. */
  lemma StrStrAgrees(s: string, pat: string)
    ensures IndexOfFrom(s, pat, 0).Some? <==> Contains(s, pat)
  {
    var r := IndexOfFrom(s, pat, 0);
    if r.Some? {
      assert OccursAt(s, pat, r.value);
    }
  }

  lemma ContainsWitness(s: string, pat: string, i: int)
    requires OccursAt(s, pat, i)
    ensures Contains(s, pat)
  {
    assert 0 <= i <= |s|;
  }

  /** A blank or a line terminator: the characters `strtok(_, " ")` and
      `%s` stop at (only the blank for `strtok`). */
  predicate IsSpace(c: char)
  {
    c == ' ' || c == '\t' || c == '\n' || c == '\r' || c == 11 as char || c == 12 as char
  }

  /** A separator for `strtok(_, " ")` (the blank only) or for a `%s`
      conversion (any white space). */
  predicate Sep(c: char, blankOnly: bool)
  {
    if blankOnly then c == ' ' else IsSpace(c)
  }

  /** Number of leading separators of `s`. */
  function LeadingSeps(s: string, blankOnly: bool): (n: nat)
    ensures n <= |s|
    ensures n < |s| ==> !Sep(s[n], blankOnly)
    ensures forall k :: 0 <= k < n ==> Sep(s[k], blankOnly)
  {
    if |s| > 0 && Sep(s[0], blankOnly) then 1 + LeadingSeps(s[1..], blankOnly) else 0
  }

  /** Length of the longest prefix of non-separator characters. */
  function TokenLength(s: string, blankOnly: bool): (n: nat)
    ensures n <= |s|
    ensures n < |s| ==> Sep(s[n], blankOnly)
    ensures forall k :: 0 <= k < n ==> !Sep(s[k], blankOnly)
  {
    if |s| > 0 && !Sep(s[0], blankOnly) then 1 + TokenLength(s[1..], blankOnly) else 0
  }

  /** A non-empty run of non-separator characters. */
  predicate IsToken(w: string, blankOnly: bool)
  {
    |w| > 0 && forall j :: 0 <= j < |w| ==> !Sep(w[j], blankOnly)
  }

  /** The successive tokens of `s` separated by runs of separators, as
      repeated calls of `strtok` (or successive `%s` conversions) deliver
      them. */
  function Tokens(s: string, blankOnly: bool): (r: seq<string>)
    ensures forall k :: 0 <= k < |r| ==> IsToken(r[k], blankOnly)
    decreases |s|
  {
    var t := s[LeadingSeps(s, blankOnly)..];
    if |t| == 0 then []
    else
      var n := TokenLength(t, blankOnly);
      var w := t[..n];
      assert IsToken(w, blankOnly) by {
        assert w[0] == t[0];
      }
      [w] + Tokens(t[n..], blankOnly)
  }

  // ---------------------------------------------------------------------
  // Decimal formatting (`%d`, `%02d`, `%4d`) and its inverse.

  function DigitChar(d: nat): (c: char)
    requires d < 10
    ensures '0' <= c <= '9'
  {
    (48 + d) as char
  }

  function DigitValue(c: char): (d: nat)
    requires '0' <= c <= '9'
    ensures d < 10
  {
    (c as int - 48) as nat
  }

  /** Every character is a decimal digit. */
  predicate AllDigits(s: string)
  {
    forall k :: 0 <= k < |s| ==> '0' <= s[k] <= '9'
  }

  /** Shortest decimal representation of `n`, as `%d` prints it. */
  function Decimal(n: nat): (r: string)
    ensures |r| >= 1
    ensures AllDigits(r)
  {
    if n < 10 then [DigitChar(n)] else Decimal(n / 10) + [DigitChar(n % 10)]
  }

  /** Value of a string of decimal digits. */
  function Value(s: string): nat
    requires AllDigits(s)
  {
    if |s| == 0 then 0 else 10 * Value(s[..|s| - 1]) + DigitValue(s[|s| - 1])
  }

  /** `n` copies of `c`. */
  function Repeat(c: char, n: nat): (r: string)
    ensures |r| == n
    ensures forall k :: 0 <= k < n ==> r[k] == c
  {
    if n == 0 then [] else [c] + Repeat(c, n - 1)
  }

  /** `printf` with a minimum field width: left padding with `fill`. */
  function PadLeft(s: string, width: nat, fill: char): (r: string)
    ensures |r| == if |s| >= width then |s| else width
    ensures r[|r| - |s|..] == s
    ensures forall k :: 0 <= k < |r| - |s| ==> r[k] == fill
  {
    if |s| >= width then s else Repeat(fill, width - |s|) + s
  }

  lemma {:induction false} DecimalRoundTrip(n: nat)
    ensures Value(Decimal(n)) == n
  {
    if n >= 10 {
      var s := Decimal(n);
      assert s[..|s| - 1] == Decimal(n / 10);
      DecimalRoundTrip(n / 10);
    }
  }

  /** Zero padding does not change the value a digit string denotes. */
  lemma {:induction false} ValueZeroPad(z: nat, s: string)
    requires AllDigits(s)
    ensures Value(Repeat('0', z) + s) == Value(s)
    decreases |s|
  {
    var p := Repeat('0', z) + s;
    if |s| == 0 {
      ValueZeros(z);
      assert p == Repeat('0', z);
    } else {
      assert p[..|p| - 1] == Repeat('0', z) + s[..|s| - 1];
      ValueZeroPad(z, s[..|s| - 1]);
    }
  }

  lemma {:induction false} ValueZeros(z: nat)
    ensures Value(Repeat('0', z)) == 0
  {
    if z > 0 {
      assert Repeat('0', z)[..z - 1] == Repeat('0', z - 1);
      ValueZeros(z - 1);
    }
  }

  /** `%0<w>d` for a value that fits in the width reads back as that value. */
  lemma ZeroPaddedRoundTrip(n: nat, width: nat)
    ensures var s := PadLeft(Decimal(n), width, '0');
            AllDigits(s) && Value(s) == n
  {
    var d := Decimal(n);
    var s := PadLeft(d, width, '0');
    DecimalRoundTrip(n);
    if |d| < width {
      assert s == Repeat('0', width - |d|) + d;
      ValueZeroPad(width - |d|, d);
    }
  }
}

=== FILE: tilesort.dfy ===
/** The per-tile counting sort of the accumulation drivers: the accepted
    pass files, listed in directory order, are rearranged so that the files
    of tile t occupy one contiguous slice of the sorted list, starting at
    the number of files of all earlier tiles. */
module TileSort {
  import opened Wrappers
  import opened Strings

  // ---------------------------------------------------------------------
  // Reference definitions: the files of one tile, their number, and the
  // arrangement the sort is meant to produce. `idx[i]` is the tile the
  // selection recorded for file `i`.

  /** Number of files among the first `n` recorded for tile `t`. */
  function CountTile(idx: seq<int>, t: int, n: nat): (c: nat)
    requires n <= |idx|
    ensures c <= n
  {
    if n == 0 then 0 else CountTile(idx, t, n - 1) + (if idx[n - 1] == t then 1 else 0)
  }

  /** The files among the first `n` recorded for tile `t`, in their
      original order. */
  function ByTile<T>(paths: seq<T>, idx: seq<int>, t: int, n: nat): (r: seq<T>)
    requires |paths| == |idx| && n <= |paths|
    ensures |r| == CountTile(idx, t, n)
  {
    if n == 0 then []
    else ByTile(paths, idx, t, n - 1) + (if idx[n - 1] == t then [paths[n - 1]] else [])
  }

  /** Start of tile `t`'s slice: the number of files of tiles 0..t-1. */
  function Prefix(counts: seq<int>, t: int): int
    requires 0 <= t <= |counts|
  {
    if t == 0 then 0 else Prefix(counts, t - 1) + counts[t - 1]
  }

  /** The intended result: the files of tile 0, then those of tile 1, and
      so on up to tile `tiles - 1`. */
  function Arrange<T>(paths: seq<T>, idx: seq<int>, tiles: nat): seq<T>
    requires |paths| == |idx|
  {
    if tiles == 0 then [] else Arrange(paths, idx, tiles - 1) + ByTile(paths, idx, tiles - 1, |paths|)
  }

  /** The counts the selection loop records, one per tile
      (`num_files_area`). */
  predicate CountsOf(counts: seq<int>, idx: seq<int>)
  {
    forall t :: 0 <= t < |counts| ==> counts[t] == CountTile(idx, t, |idx|)
  }

  /** Every file carries the index of a tile of the list. */
  predicate Indexed(idx: seq<int>, tiles: nat)
  {
    forall i :: 0 <= i < |idx| ==> 0 <= idx[i] < tiles
  }

  // ---------------------------------------------------------------------
  // The counts add up.

  /** Number of files among the first `n` whose tile is below `tiles`. */
  function Tally(idx: seq<int>, tiles: nat, n: nat): nat
    requires n <= |idx|
  {
    if tiles == 0 then 0 else Tally(idx, tiles - 1, n) + CountTile(idx, tiles - 1, n)
  }

  lemma {:induction false} PrefixIsTally(counts: seq<int>, idx: seq<int>, tiles: nat)
    requires CountsOf(counts, idx) && tiles <= |counts|
    ensures Prefix(counts, tiles) == Tally(idx, tiles, |idx|)
  {
    if tiles > 0 {
      PrefixIsTally(counts, idx, tiles - 1);
    }
  }

  lemma {:induction false} TallyStep(idx: seq<int>, tiles: nat, n: nat)
    requires 0 < n <= |idx|
    ensures Tally(idx, tiles, n) == Tally(idx, tiles, n - 1) + (if 0 <= idx[n - 1] < tiles then 1 else 0)
  {
    if tiles > 0 {
      TallyStep(idx, tiles - 1, n);
    }
  }

  lemma {:induction false} TallyNone(idx: seq<int>, tiles: nat)
    ensures Tally(idx, tiles, 0) == 0
  {
    if tiles > 0 {
      TallyNone(idx, tiles - 1);
    }
  }

  lemma {:induction false} TallyAll(idx: seq<int>, tiles: nat, n: nat)
    requires Indexed(idx, tiles) && n <= |idx|
    ensures Tally(idx, tiles, n) == n
  {
    if n == 0 {
      TallyNone(idx, tiles);
    } else {
      TallyAll(idx, tiles, n - 1);
      TallyStep(idx, tiles, n);
    }
  }

  /** Every file belongs to exactly one tile of the list, so the counts
      add up to the number of files. */
  lemma CountsCoverAll(counts: seq<int>, idx: seq<int>)
    requires CountsOf(counts, idx) && Indexed(idx, |counts|)
    ensures Prefix(counts, |counts|) == |idx|
  {
    PrefixIsTally(counts, idx, |counts|);
    TallyAll(idx, |counts|, |idx|);
  }

  lemma {:induction false} PrefixMonotone(counts: seq<int>, idx: seq<int>, s: int, t: int)
    requires CountsOf(counts, idx) && 0 <= s <= t <= |counts|
    ensures Prefix(counts, s) <= Prefix(counts, t)
    decreases t - s
  {
    if s < t {
      PrefixMonotone(counts, idx, s, t - 1);
      assert counts[t - 1] == CountTile(idx, t - 1, |idx|);
    }
  }

  /** The slice of tile `t` lies inside the list of files. */
  lemma SliceBounds(counts: seq<int>, idx: seq<int>, t: int)
    requires CountsOf(counts, idx) && Indexed(idx, |counts|) && 0 <= t < |counts|
    ensures 0 <= Prefix(counts, t) && Prefix(counts, t) + counts[t] <= |idx|
  {
    PrefixMonotone(counts, idx, 0, t);
    PrefixMonotone(counts, idx, t + 1, |counts|);
    CountsCoverAll(counts, idx);
  }

  /** Slices of different tiles do not overlap. */
  lemma SlicesDisjoint(counts: seq<int>, idx: seq<int>, t: int, u: int)
    requires CountsOf(counts, idx) && 0 <= t < u < |counts|
    ensures Prefix(counts, t) + counts[t] <= Prefix(counts, u)
  {
    PrefixMonotone(counts, idx, t + 1, u);
    assert Prefix(counts, t + 1) == Prefix(counts, t) + counts[t];
  }

  lemma {:induction false} ArrangeLength<T>(paths: seq<T>, idx: seq<int>, counts: seq<int>, tiles: nat)
    requires |paths| == |idx| && CountsOf(counts, idx) && tiles <= |counts|
    ensures |Arrange(paths, idx, tiles)| == Prefix(counts, tiles)
  {
    if tiles > 0 {
      ArrangeLength(paths, idx, counts, tiles - 1);
    }
  }

  /** The files of tile `t` sit at positions Prefix(t) .. Prefix(t+1) of
      the arrangement. */
  lemma {:induction false} ArrangeSlice<T>(paths: seq<T>, idx: seq<int>, counts: seq<int>, tiles: nat, t: nat)
    requires |paths| == |idx| && CountsOf(counts, idx) && t < tiles <= |counts|
    ensures 0 <= Prefix(counts, t) && Prefix(counts, t) + counts[t] <= |Arrange(paths, idx, tiles)|
    ensures Arrange(paths, idx, tiles)[Prefix(counts, t)..Prefix(counts, t) + counts[t]]
              == ByTile(paths, idx, t, |paths|)
  {
    var a := Arrange(paths, idx, tiles - 1);
    var b := Arrange(paths, idx, tiles);
    ArrangeLength(paths, idx, counts, tiles - 1);
    PrefixMonotone(counts, idx, 0, t);
    assert b == a + ByTile(paths, idx, tiles - 1, |paths|);
    if t < tiles - 1 {
      ArrangeSlice(paths, idx, counts, tiles - 1, t);
      var lo, hi := Prefix(counts, t), Prefix(counts, t) + counts[t];
      assert b[lo..hi] == a[lo..hi];
    }
  }

  // ---------------------------------------------------------------------
  // Permutation: the arrangement holds exactly the files below `tiles`.

  /** The files among the first `n` whose tile is below `tiles`, in order. */
  function Below<T>(paths: seq<T>, idx: seq<int>, tiles: int, n: nat): seq<T>
    requires |paths| == |idx| && n <= |paths|
  {
    if n == 0 then []
    else Below(paths, idx, tiles, n - 1) + (if 0 <= idx[n - 1] < tiles then [paths[n - 1]] else [])
  }

  /** Number of occurrences of `x` in `s`. */
  function Occ<T(==)>(s: seq<T>, x: T): nat
  {
    if |s| == 0 then 0 else Occ(s[..|s| - 1], x) + (if s[|s| - 1] == x then 1 else 0)
  }

  lemma {:induction false} OccConcat<T>(a: seq<T>, b: seq<T>, x: T)
    ensures Occ(a + b, x) == Occ(a, x) + Occ(b, x)
    decreases |b|
  {
    if |b| > 0 {
      var c := b[..|b| - 1];
      assert (a + b)[..|a + b| - 1] == a + c;
      OccConcat(a, c, x);
    } else {
      assert a + b == a;
    }
  }

  /** Occurrence counts are the multiplicities of the sequence's multiset. */
  lemma {:induction false} OccIsMultiplicity<T>(s: seq<T>, x: T)
    ensures Occ(s, x) == multiset(s)[x]
    decreases |s|
  {
    if |s| > 0 {
      var c := s[..|s| - 1];
      OccIsMultiplicity(c, x);
      assert s == c + [s[|s| - 1]];
      assert multiset(s) == multiset(c) + multiset{s[|s| - 1]};
    }
  }

  lemma {:induction false} BelowSplit<T>(paths: seq<T>, idx: seq<int>, tiles: nat, n: nat, x: T)
    requires |paths| == |idx| && tiles > 0 && n <= |paths|
    ensures Occ(Below(paths, idx, tiles, n), x)
              == Occ(Below(paths, idx, tiles - 1, n), x) + Occ(ByTile(paths, idx, tiles - 1, n), x)
  {
    if n > 0 {
      BelowSplit(paths, idx, tiles, n - 1, x);
      var y, k := paths[n - 1], idx[n - 1];
      var all, rest, mine := Below(paths, idx, tiles, n - 1), Below(paths, idx, tiles - 1, n - 1),
                             ByTile(paths, idx, tiles - 1, n - 1);
      OccConcat(all, if 0 <= k < tiles then [y] else [], x);
      OccConcat(rest, if 0 <= k < tiles - 1 then [y] else [], x);
      OccConcat(mine, if k == tiles - 1 then [y] else [], x);
    }
  }

  lemma {:induction false} BelowAll<T>(paths: seq<T>, idx: seq<int>, tiles: nat, n: nat)
    requires |paths| == |idx| && Indexed(idx, tiles) && n <= |paths|
    ensures Below(paths, idx, tiles, n) == paths[..n]
  {
    if n > 0 {
      BelowAll(paths, idx, tiles, n - 1);
      assert paths[..n - 1] + [paths[n - 1]] == paths[..n];
    }
  }

  lemma {:induction false} BelowNone<T>(paths: seq<T>, idx: seq<int>, n: nat)
    requires |paths| == |idx| && n <= |paths|
    ensures Below(paths, idx, 0, n) == []
  {
    if n > 0 {
      BelowNone(paths, idx, n - 1);
    }
  }

  lemma {:induction false} ArrangeIsBelow<T>(paths: seq<T>, idx: seq<int>, tiles: nat, x: T)
    requires |paths| == |idx|
    ensures Occ(Arrange(paths, idx, tiles), x) == Occ(Below(paths, idx, tiles, |paths|), x)
  {
    if tiles == 0 {
      BelowNone(paths, idx, |paths|);
    } else {
      ArrangeIsBelow(paths, idx, tiles - 1, x);
      BelowSplit(paths, idx, tiles, |paths|, x);
      OccConcat(Arrange(paths, idx, tiles - 1), ByTile(paths, idx, tiles - 1, |paths|), x);
    }
  }

  lemma MultisetsAgree<T>(m: multiset<T>, n: multiset<T>)
    requires forall x :: m[x] == n[x]
    ensures m == n
  {
  }

  /** When every file has a tile of the list, the arrangement is a
      permutation of the file list. */
  lemma ArrangeIsPermutation<T>(paths: seq<T>, idx: seq<int>, tiles: nat)
    requires |paths| == |idx| && Indexed(idx, tiles)
    ensures multiset(Arrange(paths, idx, tiles)) == multiset(paths)
    ensures |Arrange(paths, idx, tiles)| == |paths|
  {
    var a := Arrange(paths, idx, tiles);
    BelowAll(paths, idx, tiles, |paths|);
    assert paths[..|paths|] == paths;
    forall x ensures multiset(a)[x] == multiset(paths)[x] {
      ArrangeIsBelow(paths, idx, tiles, x);
      OccIsMultiplicity(a, x);
      OccIsMultiplicity(paths, x);
    }
    MultisetsAgree(multiset(a), multiset(paths));
    assert |multiset(a)| == |multiset(paths)|;
  }

  // ---------------------------------------------------------------------
  // The placement step and the sort.

  /** The sorted list under construction (`infile_sorted`, whose unwritten
      entries hold nothing meaningful) and the per-tile fill counters
      (`num_files_area_counter`). */
  datatype Slots<T> = Slots(out: seq<Option<T>>, counter: seq<int>)

  /** Copy a file into the next free slot of tile `t`. A slot beyond the
      list is a write outside the allocated array in the source. */
  function Put<T>(s: Slots<T>, path: T, t: int, counts: seq<int>): (r: Result<Slots<T>>)
    requires |s.counter| == |counts| && 0 <= t < |counts|
    ensures r.Ok? <==> 0 <= Prefix(counts, t) + s.counter[t] < |s.out|
    ensures r.Ok? ==> |r.value.out| == |s.out| && |r.value.counter| == |counts|
    ensures r.Ok? ==> r.value.out[Prefix(counts, t) + s.counter[t]] == Some(path)
    ensures r.Ok? ==> forall p :: 0 <= p < |s.out| && p != Prefix(counts, t) + s.counter[t] ==>
                        r.value.out[p] == s.out[p]
    ensures r.Ok? ==> forall u :: 0 <= u < |counts| ==>
                        r.value.counter[u] == s.counter[u] + (if u == t then 1 else 0)
    ensures r.Fail? ==> r.failure == SortOverflow
  {
    var slot := Prefix(counts, t) + s.counter[t];
    if 0 <= slot < |s.out| then Ok(Slots(s.out[slot := Some(path)], s.counter[t := s.counter[t] + 1]))
    else Fail(SortOverflow)
  }

  /** The list before any file is placed. */
  function Start<T>(n: nat, tiles: nat): Slots<T>
  {
    Slots(seq(n, _ => None), seq(tiles, _ => 0))
  }

  /** The corrected sort: each of the first `i` files goes to the slice of
      the tile recorded for it when it was counted. */
  function Place<T>(paths: seq<T>, idx: seq<int>, counts: seq<int>, i: nat): Result<Slots<T>>
    requires |paths| == |idx| && i <= |paths| && Indexed(idx, |counts|)
  {
    if i == 0 then Ok(Start(|paths|, |counts|))
    else
      var s :- Place(paths, idx, counts, i - 1);
      if |s.counter| == |counts| then Put(s, paths[i - 1], idx[i - 1], counts) else Ok(s)
  }

  /** What the slots hold after the first `i` files: each tile's files
      among them fill the head of its slice in their original order. */
  predicate Filled<T(==)>(s: Slots<T>, paths: seq<T>, idx: seq<int>, counts: seq<int>, i: nat)
    requires |paths| == |idx| && i <= |paths|
  {
    |s.out| == |paths| && |s.counter| == |counts| &&
    forall t :: 0 <= t < |counts| ==> TileFilled(s, paths, idx, counts, i, t)
  }

  /** The part of `Filled` about tile `t`: its counter is the number of
      its files among the first `i`, and they sit at the head of its slice. */
  predicate TileFilled<T(==)>(s: Slots<T>, paths: seq<T>, idx: seq<int>, counts: seq<int>, i: nat, t: int)
    requires |paths| == |idx| && i <= |paths| && |s.out| == |paths| && |s.counter| == |counts|
    requires 0 <= t < |counts|
  {
    s.counter[t] == CountTile(idx, t, i) &&
    forall j :: 0 <= j < s.counter[t] ==>
      0 <= Prefix(counts, t) + j < |paths| &&
      s.out[Prefix(counts, t) + j] == Some(ByTile(paths, idx, t, i)[j])
  }

  lemma {:induction false} CountTileMonotone(idx: seq<int>, t: int, i: nat, n: nat)
    requires i <= n <= |idx|
    ensures CountTile(idx, t, i) <= CountTile(idx, t, n)
    decreases n - i
  {
    if i < n {
      CountTileMonotone(idx, t, i, n - 1);
    }
  }

  /** The next file goes to a slot inside the slice of its tile. */
  lemma SlotInSlice<T>(s: Slots<T>, paths: seq<T>, idx: seq<int>, counts: seq<int>, i: nat)
    requires |paths| == |idx| && i < |paths| && Indexed(idx, |counts|) && CountsOf(counts, idx)
    requires Filled(s, paths, idx, counts, i)
    ensures 0 <= Prefix(counts, idx[i]) <= Prefix(counts, idx[i]) + s.counter[idx[i]]
    ensures Prefix(counts, idx[i]) + s.counter[idx[i]] < Prefix(counts, idx[i]) + counts[idx[i]] <= |paths|
  {
    var t := idx[i];
    assert TileFilled(s, paths, idx, counts, i, t);
    CountTileMonotone(idx, t, i + 1, |idx|);
    SliceBounds(counts, idx, t);
  }

  /** After one placement, tile `u`'s counter and filled slots are still
      described by the files seen so far. */
  lemma PlaceKeepsTile<T>(s: Slots<T>, paths: seq<T>, idx: seq<int>, counts: seq<int>, i: nat, u: int)
    requires |paths| == |idx| && i < |paths| && Indexed(idx, |counts|) && CountsOf(counts, idx)
    requires Filled(s, paths, idx, counts, i) && 0 <= u < |counts|
    requires Put(s, paths[i], idx[i], counts).Ok?
    ensures TileFilled(Put(s, paths[i], idx[i], counts).value, paths, idx, counts, i + 1, u)
  {
    var t := idx[i];
    SlotInSlice(s, paths, idx, counts, i);
    assert TileFilled(s, paths, idx, counts, i, u);
    CountTileMonotone(idx, u, i, |idx|);
    SliceBounds(counts, idx, u);
    assert CountTile(idx, u, i + 1) == CountTile(idx, u, i) + (if t == u then 1 else 0);
    assert ByTile(paths, idx, u, i + 1) == ByTile(paths, idx, u, i) + (if t == u then [paths[i]] else []);
    if u < t {
      SlicesDisjoint(counts, idx, u, t);
    } else if t < u {
      SlicesDisjoint(counts, idx, t, u);
    }
  }

  /** One placement keeps the description of the filled slots. */
  lemma PlaceStep<T>(s: Slots<T>, paths: seq<T>, idx: seq<int>, counts: seq<int>, i: nat)
    requires |paths| == |idx| && i < |paths| && Indexed(idx, |counts|) && CountsOf(counts, idx)
    requires Filled(s, paths, idx, counts, i)
    ensures Put(s, paths[i], idx[i], counts).Ok?
    ensures Filled(Put(s, paths[i], idx[i], counts).value, paths, idx, counts, i + 1)
  {
    SlotInSlice(s, paths, idx, counts, i);
    var s' := Put(s, paths[i], idx[i], counts).value;
    var next := i + 1;
    forall u | 0 <= u < |counts|
      ensures TileFilled(s', paths, idx, counts, next, u)
    {
      PlaceKeepsTile(s, paths, idx, counts, i, u);
    }
  }

  lemma {:induction false} PlaceFills<T>(paths: seq<T>, idx: seq<int>, counts: seq<int>, i: nat)
    requires |paths| == |idx| && i <= |paths| && Indexed(idx, |counts|) && CountsOf(counts, idx)
    ensures Place(paths, idx, counts, i).Ok?
    ensures Filled(Place(paths, idx, counts, i).value, paths, idx, counts, i)
  {
    if i > 0 {
      PlaceFills(paths, idx, counts, i - 1);
      PlaceStep(Place(paths, idx, counts, i - 1).value, paths, idx, counts, i - 1);
    }
  }

  /** Each position of the list lies in the slice of some tile. */
  lemma {:induction false} InSomeSlice(counts: seq<int>, idx: seq<int>, tiles: nat, p: int) returns (t: nat)
    requires CountsOf(counts, idx) && tiles <= |counts| && 0 <= p < Prefix(counts, tiles)
    ensures t < tiles && Prefix(counts, t) <= p < Prefix(counts, t) + counts[t]
  {
    if p >= Prefix(counts, tiles - 1) {
      t := tiles - 1;
    } else {
      t := InSomeSlice(counts, idx, tiles - 1, p);
    }
  }

  /** Once every file is placed, each counter has reached its tile's count. */
  lemma FullCounters<T>(s: Slots<T>, paths: seq<T>, idx: seq<int>, counts: seq<int>)
    requires |paths| == |idx| && CountsOf(counts, idx)
    requires Filled(s, paths, idx, counts, |paths|)
    ensures s.counter == counts
  {
    forall t | 0 <= t < |counts| ensures s.counter[t] == counts[t] {
      assert TileFilled(s, paths, idx, counts, |paths|, t);
    }
  }

  /** Once every file is placed, each position holds the file the
      arrangement puts there. */
  lemma FullSlot<T>(s: Slots<T>, paths: seq<T>, idx: seq<int>, counts: seq<int>, p: int)
    requires |paths| == |idx| && Indexed(idx, |counts|) && CountsOf(counts, idx)
    requires Filled(s, paths, idx, counts, |paths|) && 0 <= p < |paths|
    ensures p < |Arrange(paths, idx, |counts|)| && s.out[p] == Some(Arrange(paths, idx, |counts|)[p])
  {
    var a := Arrange(paths, idx, |counts|);
    ArrangeLength(paths, idx, counts, |counts|);
    CountsCoverAll(counts, idx);
    var t := InSomeSlice(counts, idx, |counts|, p);
    ArrangeSlice(paths, idx, counts, |counts|, t);
    assert TileFilled(s, paths, idx, counts, |paths|, t);
    var lo, hi := Prefix(counts, t), Prefix(counts, t) + counts[t];
    assert a[p] == a[lo..hi][p - lo];
  }

  /** The sort places every file, and the list it builds is the
      arrangement: tile by tile, each tile's files in directory order. */
  lemma SortArranges<T>(paths: seq<T>, idx: seq<int>, counts: seq<int>)
    requires |paths| == |idx| && Indexed(idx, |counts|) && CountsOf(counts, idx)
    ensures Place(paths, idx, counts, |paths|).Ok?
    ensures var out := Place(paths, idx, counts, |paths|).value.out;
            var a := Arrange(paths, idx, |counts|);
            |out| == |a| == |paths| && forall p :: 0 <= p < |paths| ==> out[p] == Some(a[p])
    ensures Place(paths, idx, counts, |paths|).value.counter == counts
  {
    PlaceFills(paths, idx, counts, |paths|);
    var s := Place(paths, idx, counts, |paths|).value;
    ArrangeIsPermutation(paths, idx, |counts|);
    forall p | 0 <= p < |paths|
      ensures s.out[p] == Some(Arrange(paths, idx, |counts|)[p])
    {
      FullSlot(s, paths, idx, counts, p);
    }
    FullCounters(s, paths, idx, counts);
  }

  // ---------------------------------------------------------------------
  // The sort as the drivers write it.

  /** The pattern the drivers look for: "fmsnow_" and the tile code
      printed with `%2s`, searched in the full path of the file. */
  function TilePattern(tile: string): string
  {
    "fmsnow_" + PadLeft(tile, 2, ' ')
  }

  /** The inner loop over tiles for one file: a placement for every tile
      whose pattern occurs in the path, from tile `t` on. */
  function PlaceInTiles(s: Slots<string>, path: string, tiles: seq<string>, counts: seq<int>, t: nat)
    : (r: Result<Slots<string>>)
    requires |s.counter| == |counts| == |tiles| && t <= |tiles|
    ensures r.Ok? ==> |r.value.out| == |s.out| && |r.value.counter| == |counts|
    ensures r.Fail? ==> r.failure == SortOverflow
    decreases |tiles| - t
  {
    if t == |tiles| then Ok(s)
    else if Contains(path, TilePattern(tiles[t])) then
      var s' :- Put(s, path, t, counts);
      PlaceInTiles(s', path, tiles, counts, t + 1)
    else PlaceInTiles(s, path, tiles, counts, t + 1)
  }

  /** The sort as written: every file is placed once for every tile whose
      pattern its path contains, whatever tile it was counted for. */
  function PlaceAsWritten(paths: seq<string>, tiles: seq<string>, counts: seq<int>, i: nat)
    : (r: Result<Slots<string>>)
    requires i <= |paths| && |counts| == |tiles|
    ensures r.Ok? ==> |r.value.out| == |paths| && |r.value.counter| == |counts|
    ensures r.Fail? ==> r.failure == SortOverflow
  {
    if i == 0 then Ok(Start(|paths|, |counts|))
    else
      var s :- PlaceAsWritten(paths, tiles, counts, i - 1);
      PlaceInTiles(s, paths[i - 1], tiles, counts, 0)
  }

  /** One step of the inner loop for a tile whose pattern the path lacks. */
  lemma PlaceInTilesMiss(s: Slots<string>, path: string, tiles: seq<string>, counts: seq<int>, t0: nat)
    requires |s.counter| == |counts| == |tiles| && t0 < |tiles|
    requires !Contains(path, TilePattern(tiles[t0]))
    ensures PlaceInTiles(s, path, tiles, counts, t0) == PlaceInTiles(s, path, tiles, counts, t0 + 1)
  {
  }

  /** One step of the inner loop for a tile whose pattern the path holds. */
  lemma PlaceInTilesHit(s: Slots<string>, path: string, tiles: seq<string>, counts: seq<int>, t0: nat)
    requires |s.counter| == |counts| == |tiles| && t0 < |tiles|
    requires Contains(path, TilePattern(tiles[t0]))
    ensures var r := Put(s, path, t0, counts);
            PlaceInTiles(s, path, tiles, counts, t0) ==
            if r.Ok? then PlaceInTiles(r.value, path, tiles, counts, t0 + 1) else r
  {
  }

  /** The path contains the pattern of tile `t` and of no other tile. */
  predicate OnlyTile(path: string, tiles: seq<string>, t: int)
  {
    forall u :: 0 <= u < |tiles| ==> (Contains(path, TilePattern(tiles[u])) <==> u == t)
  }

  /** Every path contains the pattern of exactly the tile it was counted for. */
  predicate Unambiguous(paths: seq<string>, idx: seq<int>, tiles: seq<string>)
    requires |paths| == |idx|
  {
    forall k :: 0 <= k < |paths| ==> OnlyTile(paths[k], tiles, idx[k])
  }

  /** A file whose path contains the pattern of exactly the tile it was
      counted for is placed exactly once, in that tile. */
  lemma {:induction false} PlaceInTilesOnce(s: Slots<string>, path: string, tiles: seq<string>, counts: seq<int>,
                                            t0: nat, t: nat)
    requires |s.counter| == |counts| == |tiles| && t0 <= |tiles| && t < |tiles|
    requires OnlyTile(path, tiles, t)
    ensures PlaceInTiles(s, path, tiles, counts, t0) == (if t0 <= t then Put(s, path, t, counts) else Ok(s))
    decreases |tiles| - t0
  {
    if t0 < |tiles| {
      var next := t0 + 1;
      if t0 == t {
        var r := Put(s, path, t, counts);
        assert Contains(path, TilePattern(tiles[t0]));
        PlaceInTilesHit(s, path, tiles, counts, t0);
        if r.Ok? {
          assert PlaceInTiles(r.value, path, tiles, counts, next) == Ok(r.value) by {
            PlaceInTilesOnce(r.value, path, tiles, counts, next, t);
          }
        }
      } else {
        assert !Contains(path, TilePattern(tiles[t0]));
        PlaceInTilesMiss(s, path, tiles, counts, t0);
        assert PlaceInTiles(s, path, tiles, counts, next) == (if next <= t then Put(s, path, t, counts) else Ok(s)) by {
          PlaceInTilesOnce(s, path, tiles, counts, next, t);
        }
      }
    }
  }

  /** One step of the sort as written: the next file goes through the
      inner loop over the tiles. */
  lemma PlaceAsWrittenStep(paths: seq<string>, tiles: seq<string>, counts: seq<int>, i: nat)
    requires 0 < i <= |paths| && |counts| == |tiles|
    ensures var r := PlaceAsWritten(paths, tiles, counts, i - 1);
            r.Ok? ==> PlaceAsWritten(paths, tiles, counts, i) == PlaceInTiles(r.value, paths[i - 1], tiles, counts, 0)
  {
  }

  /** One more file keeps the two sorts equal when every path contains the
      pattern of exactly the tile it was counted for. */
  lemma AsWrittenStepAgrees(paths: seq<string>, idx: seq<int>, tiles: seq<string>, counts: seq<int>, i: nat)
    requires |paths| == |idx| && 0 < i <= |paths| && |counts| == |tiles| && Indexed(idx, |counts|)
    requires Unambiguous(paths, idx, tiles)
    requires PlaceAsWritten(paths, tiles, counts, i - 1) == Place(paths, idx, counts, i - 1)
    ensures PlaceAsWritten(paths, tiles, counts, i) == Place(paths, idx, counts, i)
  {
    var prev := i - 1;
    var r := Place(paths, idx, counts, prev);
    if r.Ok? {
      assert |r.value.counter| == |counts|;
      PlaceAsWrittenStep(paths, tiles, counts, i);
      assert Place(paths, idx, counts, i) == Put(r.value, paths[prev], idx[prev], counts);
      var path, t := paths[prev], idx[prev];
      assert OnlyTile(path, tiles, t);
      PlaceInTilesOnce(r.value, path, tiles, counts, 0, t);
    }
  }

  /** The sort as written coincides with the corrected one when every path
      contains the pattern of exactly the tile it was counted for. */
  lemma AsWrittenAgreesWhenUnambiguous(paths: seq<string>, idx: seq<int>, tiles: seq<string>, counts: seq<int>)
    requires |paths| == |idx| && |counts| == |tiles| && Indexed(idx, |counts|)
    requires Unambiguous(paths, idx, tiles)
    ensures PlaceAsWritten(paths, tiles, counts, |paths|) == Place(paths, idx, counts, |paths|)
  {
    var j := 0;
    while j < |paths|
      invariant j <= |paths|
      invariant PlaceAsWritten(paths, tiles, counts, j) == Place(paths, idx, counts, j)
    {
      j := j + 1;
      AsWrittenStepAgrees(paths, idx, tiles, counts, j);
    }
  }

  /** The path of the discrepancy below: a pass file of tile "ns" kept in
      a directory whose own name is "fmsnow_at". */
  const ArchiveDir: string := "fmsnow_at"
  const ArchivedName: string := "fmsnow_ns" + "_200901011200.hdf5"
  const ArchivedPath: string := ArchiveDir + "/" + ArchivedName

  lemma ContainsInJoin(a: string, b: string, pat: string)
    ensures Contains(a, pat) ==> Contains(a + b, pat)
    ensures Contains(b, pat) ==> Contains(a + b, pat)
  {
    if Contains(a, pat) {
      var i :| 0 <= i <= |a| && OccursAt(a, pat, i);
      assert (a + b)[i..i + |pat|] == a[i..i + |pat|];
      ContainsWitness(a + b, pat, i);
    }
    if Contains(b, pat) {
      var i :| 0 <= i <= |b| && OccursAt(b, pat, i);
      assert (a + b)[|a| + i..|a| + i + |pat|] == b[i..i + |pat|];
      ContainsWitness(a + b, pat, |a| + i);
    }
  }

  lemma ArchivedPathMatchesBoth()
    ensures Contains(ArchivedPath, TilePattern("ns")) && Contains(ArchivedPath, TilePattern("at"))
  {
    assert PadLeft("ns", 2, ' ') == "ns" && PadLeft("at", 2, ' ') == "at";
    var ns := TilePattern("ns");
    assert ns == "fmsnow_ns";
    assert ArchivedName[..9] == ns;
    ContainsWitness(ArchivedName, ns, 0);
    assert TilePattern("at") == ArchiveDir;
    assert ArchiveDir[..9] == TilePattern("at");
    ContainsWitness(ArchiveDir, TilePattern("at"), 0);
    ContainsInJoin(ArchiveDir, "/", TilePattern("at"));
    ContainsInJoin(ArchiveDir + "/", ArchivedName, TilePattern("at"));
    ContainsInJoin(ArchiveDir + "/", ArchivedName, ns);
  }

  /** The discrepancy: the file is counted for "ns" only, but its path
      matches both patterns, so the second placement lands one past the end
      of the list, where the corrected sort places it once. */
  lemma AsWrittenOverflows()
    ensures CountsOf([1, 0], [0])
    ensures PlaceAsWritten([ArchivedPath], ["ns", "at"], [1, 0], 1) == Fail(SortOverflow)
    ensures Place([ArchivedPath], [0], [1, 0], 1) == Ok(Slots([Some(ArchivedPath)], [1, 0]))
  {
    var tiles := ["ns", "at"];
    var counts := [1, 0];
    ArchivedPathMatchesBoth();
    var s0 := Start(1, 2);
    var s1 := Put(s0, ArchivedPath, 0, counts).value;
    assert s1 == Slots([Some(ArchivedPath)], [1, 0]);
    assert Put(s1, ArchivedPath, 1, counts) == Fail(SortOverflow);
    assert PlaceInTiles(s1, ArchivedPath, tiles, counts, 1) == Fail(SortOverflow);
    assert PlaceInTiles(s0, ArchivedPath, tiles, counts, 0) == Fail(SortOverflow);
    assert CountTile([0], 0, 1) == 1 && CountTile([0], 1, 1) == 0;
  }
}

=== FILE: wrappers.dfy ===
/** Failure-carrying datatypes shared by every module of the model.
    The C code signals failure by return codes or by `exit`; the model
    returns an explicit value instead. */
module Wrappers {

  datatype Option<+T> = None | Some(value: T)

  /** Why a run (or a whole tile) stops. Each constructor stands for one of
      the fatal exits of the programs; the numeric exit codes themselves are
      not modelled. */
  datatype Failure =
    | IoError            // FM_IO_ERR: bad input line, bad date, grid mismatch
    | CoefNotRead        // findprob: coefficient entry never read (count 0)
    | CoefReadTwice      // findprob: coefficient entry read more than once
    | UnknownPdfKey      // findprob: key is neither 'n' nor 'g'
    | UnknownSurface     // locstatcoeffs: surface name not recognised
    | UnknownFeature     // locstatcoeffs: feature name not recognised
    | AreaNotRecognised  // fmsnowcover main: no known area code in file name
    | SatDiscarded       // fmsnowcover main: NOAA-15/16 refused (channel 3A)
    | DivideByZero       // average_merge_files return 8: no cloud-free mass
    | CountMismatch      // average_merge_files return 8: counters do not add up
    | SortOverflow       // a sorted slot outside the sorted file list
    | Stopped            // a clean early stop (exit status 0) with no product

  datatype Result<+T> = Ok(value: T) | Fail(failure: Failure) {
    predicate IsFailure() { Fail? }

    function PropagateFailure<U>(): Result<U>
      requires Fail?
    {
      Fail(failure)
    }

    function Extract(): T
      requires Ok?
    {
      value
    }
  }
}
